=== FILE: README.md ===
# ID3 / random forest / kNN toolkit in Dafny

This project models the core of a small machine-learning toolkit written in
Python. It has four parts:

- **The tabular data handler** (`data/handler.py`, class `DataHandler`).
  - A header row plus text records.
  - The coerced per-attribute columns (numbers where a stripped cell parses, text otherwise).
  - `attributes()`, `as_instances()` and the label-to-positions grouping `by_class_attr_values()`.
  - Filtering by an attribute value and `discretize` against rounded column means.
  - The random resampling operations `bootstrap`, `bagging` and `stratify`.
- **ID3 induction and classification**
  (`ml/supervised/classes/id3_decision_tree.py`).
  - The recursive `__generate`, which shares and mutates one remaining-attribute list.
  - The first-maximum choice of the most informative attribute.
  - The majority class.
  - `classify`, which evaluates `str(value) + key` comparisons on numeric cells.
- **The classifiers** (`ml/supervised/algorithms.py`).
  - kNN, with its size-k insertion buffer and first-seen plurality vote.
  - A single ID3 tree.
  - A random forest of ID3 trees over bagged handlers.
- **Evaluation** (`ml/supervised/evaluation.py`).
  - The fold split and binary counters of `knn_kcrossvalidation`.
  - `validate`, with per-class confusion counters, binary-or-micro totals, accuracy, recall, precision and F-measure.

Modules:

| module | file | models |
|---|---|---|
| `Results` | results.dfy | `Result`/`Option` with one `Error` per Python exception raised |
| `Seqs` | seqs.dfy | `list.index`, `list.remove`, first-appearance de-duplication, first maximum, plurality |
| `Cells` | cells.dfy | `str.strip`, `float(text)`, `str(x)` of a threshold, the `eval`'d comparison |
| `DataHandler` | handler.dfy | the handler and its derived views, filter, discretize |
| `Resampling` | resampling.dfy | bootstrap, bagging, stratify over an injected random source |
| `Id3DecisionTree` | id3.dfy | tree induction and classification |
| `Algorithms` | algorithms.dfy | kNN, `id3_decision_tree`, `id3_random_forest` |
| `Evaluation` | evaluation.dfy | kNN cross-validation, `validate` |

Modelling conventions:

- **Errors.** Every Python exception the code can raise is an `Err`. Examples: `ZeroDivisionError`, a `KeyError` on a counter dictionary, an `IndexError` past a tuple, `max()` of an empty sequence.
- **Numbers** are exact rationals (`real`). Python 3 semantics are assumed: true division and insertion-ordered dictionaries.
- **Random draws.** `random.randrange`/`randint` read an injected source: `rand(k)` is the number behind the k-th draw, reduced modulo the range.
- **Gain.** The information gain is a function parameter.
- **Square root.** The square root of the Euclidean distance is a function parameter.
- **Ranking.** The kNN buffer ranks the square-root parameter applied to the squared distances, as Python ranks `distance ** 0.5`; no property of the parameter is assumed, and ties go to the earlier training instance.
- **Shared attribute list.** The remaining-attribute list that `__generate` shares and mutates is threaded through the recursion: each call returns the list as it leaves it.

## Model

| member | source | states |
|---|---|---|
| DataHandler.New | data/handler.py:25-52 | construction succeeds exactly when the table is non-empty, the class attribute is in the header and every record reaches the header width; otherwise it fails with the matching error (empty table, unknown class attribute, short row); success keeps the raw data |
| DataHandler.AsRawData | data/handler.py:302-306 | the raw view has one line more than the records |
| DataHandler.RawDataRoundTrip | data/handler.py:302-306 | rebuilding a handler from `as_raw_data()` with its class attribute gives the same handler |
| DataHandler.ClassIndex | data/handler.py:35 | `header.index(class_attr)`: the first header position holding the class attribute |
| DataHandler.Attributes | data/handler.py:57-61 | the attributes are the header with one occurrence of the class attribute cut out at the class position, order kept |
| DataHandler.AttributesClassLast | data/handler.py:57-61 | with the class attribute last, the attributes are the header without its last entry |
| DataHandler.ClassNotAttribute | data/handler.py:57-61 | a class attribute named once in the header is not an attribute |
| DataHandler.Column | data/handler.py:40-46 | a column has one value per record, each the coercion of that record's cell |
| DataHandler.ByAttributes | data/handler.py:38-52 | one column per header position, in header order |
| DataHandler.ColumnIgnoresPadding | data/handler.py:70-77 | a column value depends only on the stripped cell text |
| DataHandler.AsInstances | data/handler.py:149-162 | one instance per record, in record order; instance `i` holds, for each of the `len(header)-1` tuple positions `a`, the coerced column `a` at record `i`, and the class column's value at record `i` as its label |
| DataHandler.InstanceAt | data/handler.py:155-162 | the instance of record `i` is read from the columns by tuple position, with the class column's value as label |
| DataHandler.Labels | data/handler.py:151 | the labels are the instances' classifications in record order |
| DataHandler.InstancesClassLast | data/handler.py:158-160 | with the class attribute last, instance value `a` is the value of attribute `a` |
| DataHandler.InstancesRepeatLabel | data/handler.py:158-160 | with the class attribute not last, the instance tuple is read by `attributes()` position and so repeats the label at the class position |
| DataHandler.Partition | data/handler.py:169-177 | label groups: distinct keys, exactly the labels that occur, each list holds exactly the positions with that label in ascending order |
| DataHandler.ByClassAttrValues | data/handler.py:169-177 | `by_class_attr_values()` is the partition of the instance labels |
| DataHandler.PartitionInOrder | data/handler.py:172-175 | the keys come in the order of their first record |
| DataHandler.AttrMean | data/handler.py:179-187 | the mean fails on an unknown attribute, on no records (division by zero) and on a text value (type error); success needs a numeric column |
| DataHandler.MeanBetween | data/handler.py:182-187 | the mean lies between any lower and upper bound of its column |
| DataHandler.FilterByAttrValue | data/handler.py:253-278 | filtering fails exactly on an unknown attribute; otherwise it keeps header and class attribute and exactly the records, in order, whose value at the `attributes()` position equals `v` |
| DataHandler.KeptRows | data/handler.py:271-276 | the kept records still cover the header and all hold `v` at the filtered column |
| DataHandler.FilterAllMatching | data/handler.py:271-278 | when every record matches, filtering returns the handler unchanged |
| DataHandler.FilterIdempotent | data/handler.py:253-278 | filtering the result again by the same attribute and value changes nothing |
| DataHandler.FilterClassLast | data/handler.py:271 | with the class attribute last, the filtered column is the one named `attr` |
| DataHandler.Threshold | data/handler.py:286 | the threshold, in thousandths, is within half a thousandth of the column mean |
| DataHandler.Discretize | data/handler.py:280-300 | discretize fails exactly when there are attributes but no records (the mean divides by zero); otherwise header, class attribute, record count and record widths are kept |
| DataHandler.DiscretizeLabels | data/handler.py:284-296 | every cell of a rewritten column reads back as a `<=t` or `>t` comparison whose threshold is within half a thousandth of the column mean, and that comparison holds for the original value |
| DataHandler.DiscretizeCell | data/handler.py:288-294 | a rewritten cell is the label of its record's value against the rounded mean of its column |
| DataHandler.LabelReads | ml/supervised/classes/id3_decision_tree.py:157-160 | a label read back as a cell is a comparison against its threshold that holds for the value it was written for |
| DataHandler.DiscretizeKeeps | data/handler.py:284-296 | a cell outside the rewritten columns keeps its raw text |
| DataHandler.RewrittenNotNumeric | data/handler.py:290-296 | a rewritten column holds no numbers afterwards |
| DataHandler.ColumnUntouched | data/handler.py:284-300 | a column that is not rewritten reads the same afterwards |
| DataHandler.DiscretizeStable | data/handler.py:284-296 | every discretized cell is what discretizing the output again would write there: a label stays as it is |
| DataHandler.DiscretizeIdempotent | data/handler.py:280-300 | discretizing the output again changes nothing |
| DataHandler.DiscretizeKeepsClass | data/handler.py:284-291 | with the class attribute named once, the class column is unchanged |
| Cells.StripLeft | data/handler.py:71 | the result is a suffix, everything dropped is white space, and it does not start with white space |
| Cells.StripRight | data/handler.py:71 | the result is a prefix, everything dropped is white space, and it does not end with white space |
| Cells.StripShape | data/handler.py:71 | `strip()` is a slice of the text with only white space around it and no white space at either end |
| Cells.StripIdempotent | data/handler.py:71 | stripping twice is stripping once |
| Cells.Coerce | data/handler.py:70-77 | a cell is a number exactly when its stripped text parses, and then that number; otherwise it is the stripped text, which does not parse |
| Cells.ParseNumber | data/handler.py:74 | only non-empty text parses |
| Cells.DigitsParse | data/handler.py:74 | a plain string of digits parses as the integer it writes |
| Cells.CoerceStripped | data/handler.py:70-77 | coercion only depends on the stripped text |
| Cells.OperatorTextIsNotNumber | data/handler.py:73-77 | text starting with `<` or `>` never parses as a float, so it stays text |
| Cells.FormatMillis | data/handler.py:286-294 | `str(average)` of a threshold is non-empty, starts with a digit or a minus sign, and starts with a minus sign exactly when the threshold is negative |
| Cells.FormatMillisRoundTrip | data/handler.py:286-292 | `float(str(t))` gives back the threshold `t` for every threshold in thousandths |
| Cells.CoerceFormatMillis | data/handler.py:286-292 | a threshold text coerces to its number |
| Cells.LabelIsText | data/handler.py:292-294 | a `<=t` / `>t` label coerces to text when the handler is rebuilt |
| Cells.Comparison | ml/supervised/classes/id3_decision_tree.py:157-160 | a number key is never a comparison; a comparison key is text whose operator is the one the tokenizer reads first |
| Cells.LabelCompares | ml/supervised/classes/id3_decision_tree.py:157-160 | evaluating `str(x)` followed by a discretized label compares `x` with exactly that threshold |
| Cells.RoundHalfEven | data/handler.py:233 | Python's `round`: within one half of its argument, and even on an exact half |
| Seqs.IndexOf | data/handler.py:35 | `list.index`: the first position holding the value |
| Seqs.RemoveFirst | ml/supervised/classes/id3_decision_tree.py:47 | `list.remove`: the list with its first occurrence cut out, one shorter |
| Seqs.Distinct | ml/supervised/classes/id3_decision_tree.py:55-59 | the values without repeats, exactly those of the column |
| Seqs.DistinctInOrder | ml/supervised/classes/id3_decision_tree.py:55-59 | the distinct values are in order of first appearance |
| Seqs.ArgMaxFirst | ml/supervised/classes/id3_decision_tree.py:90 | `index(max(...))`: a maximal entry, and every earlier entry is strictly smaller |
| Seqs.Plurality | ml/supervised/classes/id3_decision_tree.py:129-135 | the winner occurs, has the maximal count, and every label first seen before it has a smaller count |
| Resampling.Draw | data/handler.py:236 | `randrange(m)` lies in `[0, m)` |
| Resampling.BootstrapIndices | data/handler.py:226-239 | bootstrap fails exactly when it needs a draw from an empty range; otherwise it makes `round((n-1)*ratio)` draws (none if that is not positive), all below `n-1`, so the last record is never drawn |
| Resampling.Bootstrap | data/handler.py:226-239 | the sample is the drawn records in draw order |
| Resampling.BootstrapReaches | data/handler.py:236 | every record below `n-1` can be drawn |
| Resampling.FullBootstrapSucceeds | data/handler.py:233-239 | with ratio 1 the bootstrap never fails and has `n-1` records (none when empty) |
| Resampling.Bag | data/handler.py:245-247 | a bagged handler is valid, keeps header and class attribute, and has `n-1` records |
| Resampling.Bagging | data/handler.py:241-251 | `bagging(k)` gives `max(k, 0)` such handlers, none for `k <= 0` |
| Resampling.BagRecords | data/handler.py:236-237 | every bagged record is a copy of a record other than the last |
| Resampling.DealRoundShape | data/handler.py:212-219 | one pass gives one index to each fold from `j` on until the pool runs out, and stops early exactly when it does |
| Resampling.DealRoundConserves | data/handler.py:214-217 | a pass moves indices from the pool into the folds without creating or losing any |
| Resampling.DealRoundTakes | data/handler.py:214-217 | the folds only grow, and every index a fold gains came from the pool |
| Resampling.DealRoundsShape | data/handler.py:212-222 | the passes for a class give each fold its share of that class |
| Resampling.DealRoundsTakes | data/handler.py:212-222 | the folds only grow, and only with indices from the class pool |
| Resampling.DealRoundsConserve | data/handler.py:212-222 | the class passes conserve the indices |
| Resampling.PartitionOk | data/handler.py:169-177 | the label groups have distinct labels, and each lists distinct positions of instances carrying its label |
| Resampling.StratifyFromFacts | data/handler.py:203-222 | the class loop keeps its invariant: entries are distinct instance positions and each class holds at most its rounds in every fold |
| Resampling.StratifyIndices | data/handler.py:189-224 | `max(k, 0)` folds, every entry an instance position |
| Resampling.StratifyDisjoint | data/handler.py:203-224 | no position is dealt twice, so the folds hold at most `n` instances together |
| Resampling.StratifyQuota | data/handler.py:207-222 | each class contributes at most `round(proportion * round(n/k))` instances to a fold |
| Resampling.Stratify | data/handler.py:189-224 | stratify fails exactly on `k == 0` (division by zero); otherwise it returns `max(k, 0)` folds of the instances at the dealt positions |
| Id3DecisionTree.MostOccurred | ml/supervised/classes/id3_decision_tree.py:129-135 | the majority class fails exactly on no records; otherwise it is the plurality label with first-seen tie-breaking |
| Id3DecisionTree.MajorityOfPartition | ml/supervised/classes/id3_decision_tree.py:130-135 | the first key of maximal group size is the plurality of the labels |
| Id3DecisionTree.GainVector | ml/supervised/classes/id3_decision_tree.py:77-88 | one gain per attribute position |
| Id3DecisionTree.GainVectorEntries | ml/supervised/classes/id3_decision_tree.py:81-84 | attributes no longer remaining score 0, remaining ones their gain |
| Id3DecisionTree.MostInformative | ml/supervised/classes/id3_decision_tree.py:76-90 | the chosen index is an attribute position with maximal gain and no earlier maximum; it fails on an unknown remaining attribute or no attributes |
| Id3DecisionTree.Generate | ml/supervised/classes/id3_decision_tree.py:22-74 | the list left behind is a sub-multiset of the list received |
| Id3DecisionTree.GrowBranchesKeys | ml/supervised/classes/id3_decision_tree.py:55-74 | a grown node tests the chosen attribute and has one branch per value, keyed by the values in order |
| Id3DecisionTree.GrowBranches | ml/supervised/classes/id3_decision_tree.py:61-74 | the branches only ever shrink the shared list |
| Id3DecisionTree.GeneratePure | ml/supervised/classes/id3_decision_tree.py:25-31 | a data set with one label is a leaf with that label |
| Id3DecisionTree.GenerateExhausted | ml/supervised/classes/id3_decision_tree.py:33-36 | with no remaining attributes and more than one label the result is a leaf with the majority class |
| Id3DecisionTree.GenerateLeaf | ml/supervised/classes/id3_decision_tree.py:28-36 | any leaf grown from a mixed data set holds its majority class |
| Id3DecisionTree.GenerateWithName | ml/supervised/classes/id3_decision_tree.py:44-47 | when the chosen attribute remains, it is removed and the branches share the shortened list |
| Id3DecisionTree.GenerateWithoutName | ml/supervised/classes/id3_decision_tree.py:46-51 | when it is already gone, the branches filter on `attributes[0]` and recurse with an empty list, and the caller's list is left as it was |
| Id3DecisionTree.GenerateNodeKeys | ml/supervised/classes/id3_decision_tree.py:39-59 | a node tests the chosen attribute and its branch keys are the column's distinct values in first-appearance order |
| Id3DecisionTree.GenerateNodeList | ml/supervised/classes/id3_decision_tree.py:44-51 | the list after a node has lost the chosen attribute; in the fallback all branches are leaves |
| Id3DecisionTree.GrowBranchesLeaf | ml/supervised/classes/id3_decision_tree.py:64-70 | a node that collapses because of an empty subset becomes a leaf with the current majority class |
| Id3DecisionTree.GenerateTotal | ml/supervised/classes/id3_decision_tree.py:22-74 | induction on a non-empty data set always succeeds when every remaining attribute is one of its attributes |
| Id3DecisionTree.GenerateDepth | ml/supervised/classes/id3_decision_tree.py:22-74 | no root-to-leaf path has more internal nodes than remaining attributes |
| Id3DecisionTree.Build | ml/supervised/classes/id3_decision_tree.py:15-18 | building on a non-empty handler succeeds and its depth is at most the number of attributes; on an empty one it fails as the mean or the majority does |
| Id3DecisionTree.GenerateFromAll | ml/supervised/classes/id3_decision_tree.py:15-18 | induction from all attributes succeeds on any non-empty data set; on an empty one without attributes the majority fails |
| Id3DecisionTree.Takes | ml/supervised/classes/id3_decision_tree.py:156-166 | a text value takes a branch exactly when it equals the key; a number with the empty key takes it exactly when it is non-zero; a number fails exactly on a number key (type error) or on a non-empty key that is no comparison |
| Id3DecisionTree.TakesLabel | ml/supervised/classes/id3_decision_tree.py:157-160 | a number takes a `<=t` / `>t` branch exactly when the comparison holds |
| Id3DecisionTree.TakesText | ml/supervised/classes/id3_decision_tree.py:164-166 | a text value takes a branch exactly when it equals the key |
| Id3DecisionTree.Choose | ml/supervised/classes/id3_decision_tree.py:156-170 | the branch taken is the first whose test holds, or the last when none does; an error comes from the first failing test |
| Id3DecisionTree.Classify | ml/supervised/classes/id3_decision_tree.py:150-172 | a classification is the label of some leaf of the tree |
| Id3DecisionTree.ClassifyLeaf | ml/supervised/classes/id3_decision_tree.py:150-153 | a single-leaf tree classifies every instance as its label |
| Algorithms.SquaredDistance | ml/supervised/algorithms.py:12-16 | the sum succeeds exactly when `pb` is long enough and every compared value is a number, and is then non-negative; otherwise an index error when every compared value present is a number, else a type error |
| Algorithms.FirstAbove | ml/supervised/algorithms.py:41-42 | the inner loop stops at the first slot whose distance exceeds `d` |
| Algorithms.InsertAt | ml/supervised/algorithms.py:41-48 | insertion keeps the slots before that point, puts the new one there and shifts the rest down by one, dropping the last |
| Algorithms.InsertSorted | ml/supervised/algorithms.py:41-48 | insertion keeps the buffer sorted by distance |
| Algorithms.ScanSorted | ml/supervised/algorithms.py:35-48 | the buffer is sorted after every training instance |
| Algorithms.InsertKeeps | ml/supervised/algorithms.py:38-48 | one more training instance keeps the buffer the k nearest so far |
| Algorithms.ScanNearest | ml/supervised/algorithms.py:34-48 | after the scan the buffer holds, in rank order, the `min(k, m)` nearest of the `m` instances nearer than `sys.maxsize`, ties going to the earlier instance, and padding after them |
| Algorithms.InsertRoom | ml/supervised/algorithms.py:38-48 | while the buffer has free slots, a nearer-than-padding instance takes one and the buffer stays the nearest so far |
| Algorithms.InsertFull | ml/supervised/algorithms.py:38-48 | with the buffer full, inserting any instance nearer than `sys.maxsize` leaves it the k nearest so far, ties going to the earlier instance |
| Algorithms.InsertFar | ml/supervised/algorithms.py:41-48 | an instance at or beyond `sys.maxsize` changes nothing |
| Algorithms.ScanUnfilled | ml/supervised/algorithms.py:35-36 | with fewer than k training instances the remaining slots keep distance `sys.maxsize` and index 0 |
| Algorithms.VotePlurality | ml/supervised/algorithms.py:52-60 | the vote is 0 for no neighbours and otherwise the plurality label with first-seen tie-breaking |
| Algorithms.VoteFromMax | ml/supervised/algorithms.py:55-60 | the `max` loop over the tally ends on the first key with the largest count |
| Algorithms.Distances | ml/supervised/algorithms.py:38-39 | one distance per training instance; fails exactly when some distance fails |
| Algorithms.SlotLabels | ml/supervised/algorithms.py:50 | the neighbour labels are looked up by slot index and fail on an index past the training set |
| Algorithms.KnnOne | ml/supervised/algorithms.py:34-62 | once the distances exist, a prediction fails exactly when `k > 0` and there is no training instance (index error); with `k <= 0` there are no slots and it is 0; a distance error is passed on |
| Algorithms.KnnPrediction | ml/supervised/algorithms.py:34-62 | a kNN prediction is the plurality label of the k buffer slots, which are the nearest instances |
| Algorithms.Pairs | ml/supervised/algorithms.py:62 | one `(test, prediction)` pair per test in order, or the first prediction error |
| Algorithms.Knn | ml/supervised/algorithms.py:21-64 | `knn_classification` pairs each test with its kNN prediction for any integer `k`; it succeeds exactly when every test's prediction does, and otherwise fails with the error of the first test that fails; with no training data, `k > 0` and some test that is an index error |
| Algorithms.ClassifyEach | ml/supervised/algorithms.py:72-73 | one `(test, classify(test))` pair per test in order |
| Algorithms.Id3Classify | ml/supervised/algorithms.py:67-75 | `id3_decision_tree` is the built tree's classification of each test, or the build error |
| Results.Collect | ml/supervised/algorithms.py:84-85 | a loop over results gives every value in order when none fails, and otherwise the error of the first that fails, all earlier ones having succeeded |
| Results.CollectOk | ml/supervised/algorithms.py:84-85 | the loop succeeds exactly when no result is an error |
| Algorithms.BuildAll | ml/supervised/algorithms.py:84-85 | tree t is the tree built on bag t; a failure is the failure of the first bag that fails to build |
| Algorithms.BuildAllOk | ml/supervised/algorithms.py:84-85 | all trees are built exactly when every bag yields one |
| Algorithms.Forest | ml/supervised/algorithms.py:82-85 | exactly `max(k, 0)` trees, one per bagged handler, always built when the data has two records |
| Algorithms.ClassifyAll | ml/supervised/algorithms.py:90-95 | one classification per tree in tree order, failing exactly when one does |
| Algorithms.Ensemble | ml/supervised/algorithms.py:97-99 | `max` over the tally fails exactly on no votes; otherwise the winner is a vote with maximal count, ties going to the first seen |
| Algorithms.RandomForest | ml/supervised/algorithms.py:78-103 | `id3_random_forest`: a failure to grow the trees is passed on; otherwise the result is the test loop over the grown trees; with `k <= 0` and some test it fails on `max` of no votes |
| Algorithms.ForestEach | ml/supervised/algorithms.py:87-101 | the test loop succeeds exactly when the forest predicts every test, giving `(test, prediction)` pairs in order, and otherwise fails with the error of the first test that fails |
| Algorithms.RandomForestOk | ml/supervised/algorithms.py:78-103 | the random forest succeeds exactly when all trees are grown and every test gets a prediction |
| Algorithms.ForestVote | ml/supervised/algorithms.py:87-101 | each forest prediction is one of the k trees' votes with maximal count, ties going to the first seen |
| Evaluation.Divide | ml/supervised/evaluation.py:45 | true division fails exactly on a zero divisor and lies in [0, 1] for `0 <= a <= b` |
| Evaluation.Split | ml/supervised/evaluation.py:14-19 | the test set is fold i's attribute tuples |
| Evaluation.SplitCovers | ml/supervised/evaluation.py:14-19 | the training set is the other folds joined in order, and with fold i it covers every fold instance exactly once |
| Evaluation.BinaryCounts | ml/supervised/evaluation.py:24-42 | `tp + tn == correct`, and right, false-positive and false-negative counts together never exceed the pairs |
| Evaluation.BinaryBumpCounts | ml/supervised/evaluation.py:30-42 | one loop iteration adds the compared pair to the counter of its kind and leaves the others |
| Evaluation.BinaryCountsCells | ml/supervised/evaluation.py:30-42 | each binary counter counts the pairs of its kind: equal labels are tp (label 1) or tn, a mismatch predicted 1 is fp, one predicted 0 is fn |
| Evaluation.FoldCounts | ml/supervised/evaluation.py:24-42 | right, false-positive and false-negative counts of a fold together never exceed its size |
| Evaluation.FMeasureOf | ml/supervised/evaluation.py:50 | with a true positive the F-measure `2tp / (2tp + fp + fn)` lies in (0, 1] |
| Evaluation.FMeasure | ml/supervised/evaluation.py:50 | `2 * (prec * rev) / (prec + rev)` fails exactly when `prec + rev == 0`, with a division by zero |
| Evaluation.FMeasureClosed | ml/supervised/evaluation.py:45-50 | with a true positive, the F-measure of `prec = tp/(tp+fp)` and `rev = tp/(tp+fn)` is `2tp / (2tp + fp + fn)` |
| Evaluation.Rates | ml/supervised/evaluation.py:45-48 | recall and precision are `tp/(tp+fn)` and `tp/(tp+fp)`, both in [0, 1]; either zero divisor is a division by zero |
| Evaluation.RatesMeasure | ml/supervised/evaluation.py:45-50 | once recall and precision exist, the F-measure exists exactly when there is a true positive, and then is `2tp / (2tp + fp + fn)` |
| Evaluation.FoldMeasure | ml/supervised/evaluation.py:45-51 | a fold's F-measure exists exactly when it has a true positive, is then `2tp / (2tp + fp + fn)`, and otherwise fails with a division by zero |
| Evaluation.KnnFold | ml/supervised/evaluation.py:13-53 | a fold fails with the kNN error, or else with a division by zero exactly when it has no true positive (an empty fold included); otherwise its accuracy is right predictions over fold size, in [0, 1], and its F-measure is `2tp / (2tp + fp + fn)`, in (0, 1] |
| Evaluation.KnnFolds | ml/supervised/evaluation.py:13-53 | entry `q` of both lists is fold `q`'s score; a failure is the failure of the first fold that fails |
| Evaluation.KnnFoldsOk | ml/supervised/evaluation.py:13-53 | the folds are scored exactly when every fold is |
| Evaluation.KnnCrossValidation | ml/supervised/evaluation.py:8-55 | `k_folds == 0` fails; a stratify failure is passed on; otherwise `max(k_folds, 0)` accuracies and F-measures, entry `q` being fold `q`'s score, or the failure of the first fold that fails; any integer `knn_factor` is accepted |
| Evaluation.KnnCrossValidationOk | ml/supervised/evaluation.py:8-55 | cross-validation succeeds exactly when stratify does and every fold is scored |
| Evaluation.Start | ml/supervised/evaluation.py:134-138 | every class's counters start at 0 and no prediction is right yet |
| Evaluation.Bump | ml/supervised/evaluation.py:147-156 | a class loop adds one per listing of each class on the chosen side of `a_class == pred` |
| Evaluation.Step | ml/supervised/evaluation.py:141-156 | a right prediction bumps its class's tp and every other class's tn, and fails when its label is not a class; a wrong one bumps fp of the predicted class and fn of every other class |
| Evaluation.Tabulate | ml/supervised/evaluation.py:141-156 | the comparison loop fails only with a missing key, and counts at most one right prediction per pair |
| Evaluation.TabulateOk | ml/supervised/evaluation.py:143-145 | the loop fails exactly when a right prediction's label is not a class |
| Evaluation.TabulateRight | ml/supervised/evaluation.py:141-144 | the right-prediction counter is the number of pairs whose labels are equal |
| Evaluation.Compared | ml/supervised/evaluation.py:141 | `zip` stops at the shorter list and pairs predicted and actual labels |
| Evaluation.TabulateCells | ml/supervised/evaluation.py:134-156 | for a class listed once, tp, tn, fp and fn count the pairs of their kind, the right predictions are its tp plus tn, and the four counters add up to the number of pairs |
| Evaluation.TabulateCorrect | ml/supervised/evaluation.py:141-145 | over classes listed once, the true positives add up to the right predictions |
| Evaluation.NoneRight | ml/supervised/evaluation.py:141-156 | without a right prediction every class has zero true positives |
| Evaluation.TotalTruncates | ml/supervised/evaluation.py:159-167 | a counter's total never exceeds its sum over all classes, and is short of it exactly when there are two classes and the second has a non-zero counter |
| Evaluation.NoneRightTotal | ml/supervised/evaluation.py:159-167 | without a right prediction the true-positive total is 0 |
| Evaluation.Score | ml/supervised/evaluation.py:169-182 | every failure is a division by zero; scoring succeeds exactly when there are predictions, both divisors are non-zero and (with the written guard) the true-positive total is non-zero or no prediction is right; accuracy is right predictions over predictions, recall `ttp/(ttp+tfn)`, precision `ttp/(ttp+tfp)`; F is 0 when the guard fires and `2ttp / (2ttp + tfp + tfn)` otherwise; all four lie in [0, 1] |
| Evaluation.Validate | ml/supervised/evaluation.py:124-184 | `validate` as written: no predictions is a division by zero, a missing class is a missing key; after the loop it succeeds exactly when the divisors are non-zero and the true-positive total is non-zero or no prediction is right; accuracy is right over predicted, recall `ttp/(ttp+tfn)`, precision `ttp/(ttp+tfp)`; F is 0 when no prediction is right and `2ttp / (2ttp + tfp + tfn)` otherwise; all four measures lie in [0, 1] |
| Evaluation.ValidateGuarded | ml/supervised/evaluation.py:178-181 | corrected `validate`: after the loop it fails exactly on no predictions or a zero recall or precision divisor; accuracy, recall and precision as in `validate`; F is 0 when the true-positive total is 0 and `2ttp / (2ttp + tfp + tfn)` otherwise; all four measures lie in [0, 1] |
| Evaluation.ScoreGuards | ml/supervised/evaluation.py:169-182 | the two guards give the same scores except where the written one divides 0 by 0, where the corrected one scores F = 0 |
| Evaluation.GuardedAgrees | ml/supervised/evaluation.py:178-181 | wherever `validate` returns scores the corrected version returns the same; wherever the corrected version fails `validate` fails the same way; they differ only where the corrected F-measure is 0 |
| Evaluation.ManyClassesAgree | ml/supervised/evaluation.py:159-181 | with three or more classes listed once the two versions coincide |
| Evaluation.ValidateCounterexample | ml/supervised/evaluation.py:159-181 | for any two distinct classes, one right and two wrong predictions make `validate` divide 0 by 0 while the corrected version scores F = 0 |
| Evaluation.CounterTable | ml/supervised/evaluation.py:141-167 | the counters of the counterexample: class `a` has tp 0, fp 1 and fn 1, and one prediction is right |
| Evaluation.CounterScore | ml/supervised/evaluation.py:169-181 | with those counters the written guard divides 0 by 0 and the corrected guard scores F = 0 |
| Evaluation.BinaryCounterexample | ml/supervised/evaluation.py:159-181 | the same with the binary labels 0 and 1 |

## Left out

- main.py: CSV file reading, printing and the command line are I/O.
- ml/supervised/classes/DecisionTree.py is an unused earlier tree; it calls a handler method that does not exist.
- `__normalize`, `__get_averages` and `__get_std_deviations` (data/handler.py:79-135) are floating point; the constructor is modelled with `normalize=False`.
- `__information_gain` and `__information` (ml/supervised/classes/id3_decision_tree.py:92-127) need logarithms; the gain is a parameter, and no proved fact depends on its values.
- The square root of `__knn_euclidean_distance` is a parameter. The buffer ranks squared distances as the parameter maps them. Comparing against `sys.maxsize` is modelled on those values.
- Cells.ParseNumber: `float` parsing covers ASCII decimal text with sign, fraction and exponent. Python's `float` also reads `inf`, `nan`, underscores between digits and non-ASCII decimal digits; the model leaves such cells as text.
- Binary floating point is not modelled. `"{0:.3f}".format` is exact half-even rounding of the rational mean.
- Cells.FormatMillis: the text equals Python's `str` of the nearest double only while the threshold has at most 15 significant digits, that is below 10^12 in magnitude.
- Cells.FormatMillis: for a mean in (-0.0005, 0) Python writes the labels `<=-0.0` / `>-0.0`; the model writes `<=0.0` / `>0.0`. Both compare against zero, so classification is the same.
- `decision_tree_kcrossvalidation` and `random_forest_kcrossvalidation` call `fold_handler` and `possible_classes`, which the handler does not define.
- `knn_repeatedkcrossvalidation` only concatenates the lists of repeated runs.
- `get_statistics` is floating-point mean and standard deviation.
- Logging, `__str__`, `__tree_as_string` and the deep-copy caches have no effect on results.
- `random.seed(None)` is part of the injected random source.
- `header()` and `class_attribute()` (data/handler.py:54-64) are the `header` and `classAttr` fields of the handler datatype.
- Evaluation.TabulateCells and Evaluation.TabulateCorrect assume every class is listed once. With a repeated class, the loop bumps its counters once per listing; Evaluation.Step states that case.
- Id3DecisionTree.Takes: Python `eval`s `str(x) + key` for any text key. Keys other than the empty key and `<operator><number>` (for example `*2` or `<3 or True`) are reported as no comparison. A number written with leading zeros (`<05`) or with underscores is read differently: Python rejects the first and accepts the second, while the model accepts the first and rejects the second. Discretized labels are never of these forms.
- Algorithms.SquaredDistance: the sum being 0 exactly for equal points is not stated, because it needs nonlinear reasoning on reals.

## Findings

| source | as written | input that shows it | evidently intended | confidence | as-written member | corrected member |
|---|---|---|---|---|---|---|
| ml/supervised/evaluation.py:178-181 | the F-measure is set to 0 only when `correct_classifications == 0`. With two classes the totals are the first class's counters only, so the true-positive total can be 0 while some prediction is right, and `2 * (prec * rev) / (prec + rev)` divides 0 by 0 | classes `[a, b]`; predicted labels `b, b, a`; actual labels `b, a, b`. Class `a` has tp 0, fp 1 and fn 1, and one prediction is right | F = 0 whenever precision and recall are both 0, that is when the true-positive total is 0 | not executed | Evaluation.Validate, Evaluation.ValidateCounterexample | Evaluation.ValidateGuarded, Evaluation.GuardedAgrees |

=== FILE: algorithms.dfy ===
/** The three classifiers of ml/supervised/algorithms.py: k nearest
    neighbours with its insertion buffer and vote, a single ID3 tree, and a
    random forest of ID3 trees over bagged data sets. */
module Algorithms {
  import opened Results
  import opened Seqs
  import opened Cells
  import opened DataHandler
  import opened Resampling
  import opened Id3DecisionTree

  /** The square root of `__knn_euclidean_distance`, which is floating
      point; the model takes it as a parameter. */
  type Root = real -> real

  // ---------------------------------------------------------------------
  // distance

  /** `__knn_euclidean_distance(pa, pb)` before its square root: the sum of
      the squared differences over the positions of `pa`. Reading past the
      end of `pb` is an `IndexError`, subtracting text a `TypeError`; the
      first failing position decides which. */
  function SquaredDistance(pa: seq<Value>, pb: seq<Value>): (r: Result<real>)
    ensures r.Ok? <==> |pa| <= |pb| && forall i :: 0 <= i < |pa| ==> pa[i].Num? && pb[i].Num?
    ensures r.Ok? ==> r.value >= 0.0
    ensures r.Err? ==> r.error == IndexOutOfRange || r.error == TypeMismatch
    ensures r.Err? ==> (r.error == IndexOutOfRange <==>
      forall i :: 0 <= i < |pa| && i < |pb| ==> pa[i].Num? && pb[i].Num?)
    decreases |pa|
  {
    if |pa| == 0 then Ok(0.0)
    else if |pb| == 0 then Err(IndexOutOfRange)
    else if !(pa[0].Num? && pb[0].Num?) then Err(TypeMismatch)
    else
      var rest :- SquaredDistance(pa[1..], pb[1..]);
      var x := pa[0].x - pb[0].x;
      NonNegativeSquare(x);
      Ok(x * x + rest)
  }

  lemma NonNegativeSquare(x: real)
    ensures x * x >= 0.0
  {
    if x < 0.0 {
      var y := -x;
      assert y * y >= 0.0;
      assert y * y == x * x;
    }
  }

  // ---------------------------------------------------------------------
  // the neighbour buffer of knn_classification

  /** `sys.maxsize` on a 64-bit build: the distance every slot starts with. */
  const Unfilled: real := 9223372036854775807 as real

  /** One slot of the paired `distances` / `distances_idx` lists. */
  datatype Slot = Slot(dist: real, idx: nat)

  /** A slot no training instance has taken yet. */
  const Pad := Slot(Unfilled, 0)

  /** The `k` slots before any training instance is seen. */
  function Empty(k: nat): (buf: seq<Slot>)
    ensures |buf| == k && forall q :: 0 <= q < k ==> buf[q] == Pad
  {
    seq(k, q => Pad)
  }

  /** The slot the inner `for` loop stops at: the first whose distance
      exceeds `d`, or `|buf|` when none does. */
  function FirstAbove(buf: seq<Slot>, d: real): (p: nat)
    ensures p <= |buf|
    ensures forall q :: 0 <= q < p ==> buf[q].dist <= d
    ensures p < |buf| ==> buf[p].dist > d
  {
    if |buf| == 0 || buf[0].dist > d then 0 else 1 + FirstAbove(buf[1..], d)
  }

  /** In `knn_classification`, the instance `i` at distance `d` goes into the first slot
      whose distance exceeds `d`, and the last slot falls off the end; with
      no such slot nothing changes. */
  function Insert(buf: seq<Slot>, d: real, i: nat): (r: seq<Slot>)
    ensures |r| == |buf|
  {
    var p := FirstAbove(buf, d);
    if p == |buf| then buf else buf[..p] + [Slot(d, i)] + buf[p..|buf| - 1]
  }

  /** The buffer after the training instances with distances `ds`, seen in
      order. */
  function Scan(ds: seq<real>, k: nat): (buf: seq<Slot>)
    ensures |buf| == k
  {
    if |ds| == 0 then Empty(k) else Insert(Scan(ds[..|ds| - 1], k), ds[|ds| - 1], |ds| - 1)
  }

  /** Nondecreasing by distance. */
  predicate Sorted(buf: seq<Slot>) {
    forall p, q :: 0 <= p < q < |buf| ==> buf[p].dist <= buf[q].dist
  }

  /** Where an insertion puts each slot. */
  lemma InsertAt(buf: seq<Slot>, d: real, i: nat)
    requires FirstAbove(buf, d) < |buf|
    ensures var p := FirstAbove(buf, d); var r := Insert(buf, d, i);
      && (forall q :: 0 <= q < p ==> r[q] == buf[q])
      && r[p] == Slot(d, i)
      && (forall q :: p < q < |buf| ==> r[q] == buf[q - 1])
  {
    var p := FirstAbove(buf, d);
    assert Insert(buf, d, i) == buf[..p] + [Slot(d, i)] + buf[p..|buf| - 1];
    Splice(buf, p, Slot(d, i));
  }

  /** Putting `x` in at `p` and dropping the last element shifts the rest
      down by one. */
  lemma Splice<T>(a: seq<T>, p: nat, x: T)
    requires p < |a|
    ensures var r := a[..p] + [x] + a[p..|a| - 1];
      && |r| == |a|
      && (forall q :: 0 <= q < p ==> r[q] == a[q])
      && r[p] == x
      && (forall q :: p < q < |a| ==> r[q] == a[q - 1])
  {
    var tail := a[p..|a| - 1];
    var r := a[..p] + [x] + tail;
    assert r == a[..p] + ([x] + tail);
    forall q | p < q < |a|
      ensures r[q] == a[q - 1]
    {
      assert r[q] == tail[q - p - 1];
    }
  }

  /** Insertion keeps a buffer sorted. */
  lemma InsertSorted(buf: seq<Slot>, d: real, i: nat)
    requires Sorted(buf)
    ensures Sorted(Insert(buf, d, i))
  {
    if FirstAbove(buf, d) < |buf| {
      InsertAt(buf, d, i);
    }
  }

  /** The buffer is sorted after every training instance. */
  lemma {:induction false} ScanSorted(ds: seq<real>, k: nat)
    ensures Sorted(Scan(ds, k))
  {
    if |ds| > 0 {
      ScanSorted(ds[..|ds| - 1], k);
      InsertSorted(Scan(ds[..|ds| - 1], k), ds[|ds| - 1], |ds| - 1);
    }
  }

  /** Slot `a` ranks before slot `b`: a smaller distance, or the same
      distance and an earlier training instance. */
  predicate Precedes(a: Slot, b: Slot) {
    a.dist < b.dist || (a.dist == b.dist && a.idx < b.idx)
  }

  /** The number of training instances close enough to take a slot at all:
      those nearer than `sys.maxsize`. */
  function Reach(ds: seq<real>): (n: nat)
    ensures n <= |ds|
  {
    if |ds| == 0 then 0
    else Reach(ds[..|ds| - 1]) + if ds[|ds| - 1] < Unfilled then 1 else 0
  }

  /** Training instance `j` sits in one of the first `f` slots. */
  predicate Listed(buf: seq<Slot>, f: nat, j: nat) {
    exists q :: 0 <= q < f && q < |buf| && buf[q].idx == j
  }

  /** `k` slots, all but the first `f` untouched. */
  predicate Shape(buf: seq<Slot>, k: nat, f: nat) {
    |buf| == k && f <= k && forall q :: f <= q < k ==> buf[q] == Pad
  }

  /** The first `f` slots hold training instances within reach, each with
      its own distance. */
  predicate Within(buf: seq<Slot>, ds: seq<real>, f: nat) {
    forall q :: 0 <= q < f && q < |buf| ==>
      buf[q].idx < |ds| && buf[q].dist == ds[buf[q].idx] && buf[q].dist < Unfilled
  }

  /** The first `f` slots in strict rank order. */
  predicate Ranked(buf: seq<Slot>, f: nat) {
    forall p, q :: 0 <= p < q < f && q < |buf| ==> Precedes(buf[p], buf[q])
  }

  /** Every instance within reach is in the buffer, unless all `k` slots are
      taken by instances ranked before it. */
  predicate Complete(buf: seq<Slot>, ds: seq<real>, k: nat, f: nat) {
    forall j :: 0 <= j < |ds| && ds[j] < Unfilled ==>
      || Listed(buf, f, j)
      || (f == k && forall q :: 0 <= q < f && q < |buf| ==> Precedes(buf[q], Slot(ds[j], j)))
  }

  /** `buf` holds the `f` nearest of the training instances at distances
      `ds`, nearest first and ties in training order, followed by untouched
      slots: the `k` smallest distances once `f` reaches `k`. */
  predicate Nearest(buf: seq<Slot>, ds: seq<real>, k: nat, f: nat) {
    Shape(buf, k, f) && Within(buf, ds, f) && Ranked(buf, f) && Complete(buf, ds, k, f)
  }

  /** `r` is `buf` with `s` put in at `p` and the last slot dropped. */
  predicate Shifted(buf: seq<Slot>, r: seq<Slot>, p: nat, s: Slot) {
    && |r| == |buf| && p < |buf|
    && (forall q :: 0 <= q < p ==> r[q] == buf[q])
    && r[p] == s
    && (forall q :: p < q < |buf| ==> r[q] == buf[q - 1])
  }

  /** Where an insertion puts each slot. */
  lemma InsertShifts(buf: seq<Slot>, d: real, i: nat)
    requires FirstAbove(buf, d) < |buf|
    ensures Shifted(buf, Insert(buf, d, i), FirstAbove(buf, d), Slot(d, i))
  {
  }

  /** An instance at `sys.maxsize` or beyond never enters the buffer. */
  lemma InsertFar(buf: seq<Slot>, ds: seq<real>, k: nat, f: nat, d: real)
    requires Nearest(buf, ds, k, f) && d >= Unfilled
    ensures Insert(buf, d, |ds|) == buf
    ensures Nearest(buf, ds + [d], k, f)
  {
    var ds' := ds + [d];
    forall j | 0 <= j < |ds'| && ds'[j] < Unfilled
      ensures || Listed(buf, f, j)
              || (f == k && forall q :: 0 <= q < f && q < |buf| ==> Precedes(buf[q], Slot(ds'[j], j)))
    {
      assert j < |ds| && ds'[j] == ds[j];
    }
  }

  /** The new slot ranks after the slots before `p` and before the filled
      slots from `p` on. */
  lemma NewSlotRank(buf: seq<Slot>, ds: seq<real>, f: nat, d: real)
    requires Within(buf, ds, f) && Ranked(buf, f) && f <= |buf|
    requires FirstAbove(buf, d) <= f
    ensures forall q :: 0 <= q < FirstAbove(buf, d) ==> Precedes(buf[q], Slot(d, |ds|))
    ensures forall q :: FirstAbove(buf, d) <= q < f ==> buf[q].dist > d
  {
    var p := FirstAbove(buf, d);
    forall q | p < q < f
      ensures buf[q].dist > d
    {
      assert Precedes(buf[p], buf[q]);
    }
  }

  /** The shifted buffer stays in rank order. */
  lemma ShiftRanked(buf: seq<Slot>, r: seq<Slot>, p: nat, s: Slot, f: nat, f': nat)
    requires Shifted(buf, r, p, s) && Ranked(buf, f) && p <= f <= |buf| && f' <= f + 1 && f' <= |buf|
    requires forall q :: 0 <= q < p ==> Precedes(buf[q], s)
    requires forall q :: p <= q < f ==> s.dist < buf[q].dist
    ensures Ranked(r, f')
  {
    forall a, b | 0 <= a < b < f' && b < |r|
      ensures Precedes(r[a], r[b])
    {
      if b < p {
      } else if b == p {
      } else if a == p {
        assert r[b] == buf[b - 1];
      } else if a < p {
        assert Precedes(buf[a], buf[b - 1]);
      } else {
        assert Precedes(buf[a - 1], buf[b - 1]);
      }
    }
  }

  /** The shifted buffer's filled slots stay within reach. */
  lemma ShiftWithin(buf: seq<Slot>, r: seq<Slot>, p: nat, ds: seq<real>, d: real, f: nat, f': nat)
    requires Shifted(buf, r, p, Slot(d, |ds|)) && Within(buf, ds, f) && d < Unfilled
    requires p <= f && f' <= f + 1
    ensures Within(r, ds + [d], f')
  {
    var ds' := ds + [d];
    forall q | 0 <= q < f' && q < |r|
      ensures r[q].idx < |ds'| && r[q].dist == ds'[r[q].idx] && r[q].dist < Unfilled
    {
      if q < p {
        assert r[q] == buf[q];
      } else if q > p {
        assert r[q] == buf[q - 1];
      }
    }
  }

  /** With room left, every instance within reach stays in the buffer. */
  lemma ShiftCompleteRoom(buf: seq<Slot>, r: seq<Slot>, p: nat, ds: seq<real>, d: real, k: nat, f: nat)
    requires Shifted(buf, r, p, Slot(d, |ds|)) && |buf| == k
    requires Complete(buf, ds, k, f) && p <= f < k
    ensures Complete(r, ds + [d], k, f + 1)
  {
    var ds' := ds + [d];
    forall j | 0 <= j < |ds'| && ds'[j] < Unfilled
      ensures Listed(r, f + 1, j)
    {
      if j == |ds| {
        assert r[p].idx == j;
      } else {
        assert ds'[j] == ds[j];
        var q0 :| 0 <= q0 < f && q0 < |buf| && buf[q0].idx == j;
        var q1 := if q0 < p then q0 else q0 + 1;
        assert r[q1].idx == j;
      }
    }
  }

  /** In a full buffer, an instance that stays out or falls out ranks after
      every slot. */
  lemma ShiftCompleteFull(buf: seq<Slot>, r: seq<Slot>, p: nat, ds: seq<real>, d: real, k: nat)
    requires Shifted(buf, r, p, Slot(d, |ds|)) && |buf| == k
    requires Complete(buf, ds, k, k) && Within(buf, ds, k) && Ranked(buf, k)
    requires d < buf[k - 1].dist
    ensures Complete(r, ds + [d], k, k)
  {
    var ds' := ds + [d];
    forall j | 0 <= j < |ds'| && ds'[j] < Unfilled
      ensures || Listed(r, k, j)
              || forall q :: 0 <= q < k && q < |r| ==> Precedes(r[q], Slot(ds'[j], j))
    {
      if j == |ds| {
        assert r[p].idx == j;
      } else {
        assert ds'[j] == ds[j];
        ShiftCompleteOld(buf, r, p, ds, d, k, j);
      }
    }
  }

  /** An earlier instance within reach stays listed after the insertion,
      or every slot ranks before it. */
  lemma ShiftCompleteOld(buf: seq<Slot>, r: seq<Slot>, p: nat, ds: seq<real>, d: real, k: nat, j: nat)
    requires Shifted(buf, r, p, Slot(d, |ds|)) && |buf| == k
    requires Complete(buf, ds, k, k) && Within(buf, ds, k) && Ranked(buf, k)
    requires d < buf[k - 1].dist
    requires j < |ds| && ds[j] < Unfilled
    ensures || Listed(r, k, j)
            || forall q :: 0 <= q < k && q < |r| ==> Precedes(r[q], Slot(ds[j], j))
  {
    if Listed(buf, k, j) {
      var q0 :| 0 <= q0 < k && q0 < |buf| && buf[q0].idx == j;
      if q0 < k - 1 {
        var q1 := if q0 < p then q0 else q0 + 1;
        assert r[q1].idx == j;
      } else {
        assert Slot(ds[j], j) == buf[k - 1];
        DroppedLast(buf, r, p, k);
      }
    } else {
      assert Precedes(buf[k - 1], Slot(ds[j], j));
    }
  }

  /** After an insertion at `p` into a full buffer, every slot ranks before
      the slot that fell off the end. */
  lemma DroppedLast(buf: seq<Slot>, r: seq<Slot>, p: nat, k: nat)
    requires |buf| == k && |r| == k && p < k
    requires Ranked(buf, k)
    requires forall q :: 0 <= q < p ==> r[q] == buf[q]
    requires r[p].dist < buf[k - 1].dist
    requires forall q :: p < q < k ==> r[q] == buf[q - 1]
    ensures forall q :: 0 <= q < k ==> Precedes(r[q], buf[k - 1])
  {
    forall q | 0 <= q < k
      ensures Precedes(r[q], buf[k - 1])
    {
      if q < p {
        assert Precedes(buf[q], buf[k - 1]);
      } else if q > p {
        assert Precedes(buf[q - 1], buf[k - 1]);
      }
    }
  }

  /** With an untouched slot left, an instance within reach takes its
      ranked place and one more slot is filled. */
  lemma InsertRoom(buf: seq<Slot>, ds: seq<real>, k: nat, f: nat, d: real)
    requires Nearest(buf, ds, k, f) && f < k && d < Unfilled
    ensures Nearest(Insert(buf, d, |ds|), ds + [d], k, f + 1)
  {
    var p := FirstAbove(buf, d);
    assert buf[f] == Pad;
    NewSlotRank(buf, ds, f, d);
    InsertShifts(buf, d, |ds|);
    var r := Insert(buf, d, |ds|);
    ShiftRanked(buf, r, p, Slot(d, |ds|), f, f + 1);
    ShiftWithin(buf, r, p, ds, d, f, f + 1);
    ShiftCompleteRoom(buf, r, p, ds, d, k, f);
    assert forall q :: f + 1 <= q < k ==> r[q] == buf[q - 1];
  }

  /** With every slot filled, an instance within reach either ranks after
      all of them and stays out, or takes its place and pushes the last one
      out. */
  lemma InsertFull(buf: seq<Slot>, ds: seq<real>, k: nat, d: real)
    requires Nearest(buf, ds, k, k) && d < Unfilled
    ensures Nearest(Insert(buf, d, |ds|), ds + [d], k, k)
  {
    var p := FirstAbove(buf, d);
    var ds' := ds + [d];
    if p == k {
      forall j | 0 <= j < |ds'| && ds'[j] < Unfilled
        ensures || Listed(buf, k, j)
                || forall q :: 0 <= q < k && q < |buf| ==> Precedes(buf[q], Slot(ds'[j], j))
      {
        if j < |ds| {
          assert ds'[j] == ds[j];
        }
      }
      assert Within(buf, ds', k);
    } else {
      NewSlotRank(buf, ds, k, d);
      InsertShifts(buf, d, |ds|);
      var r := Insert(buf, d, |ds|);
      ShiftRanked(buf, r, p, Slot(d, |ds|), k, k);
      ShiftWithin(buf, r, p, ds, d, k, k);
      ShiftCompleteFull(buf, r, p, ds, d, k);
    }
  }

  /** One training instance keeps the buffer the nearest of those seen, its
      filled slots counting every instance within reach up to `k`. */
  lemma InsertKeeps(buf: seq<Slot>, ds: seq<real>, k: nat)
    requires |ds| > 0
    requires var prev := ds[..|ds| - 1]; Nearest(buf, prev, k, Min(k, Reach(prev)))
    ensures Nearest(Insert(buf, ds[|ds| - 1], |ds| - 1), ds, k, Min(k, Reach(ds)))
  {
    var prev := ds[..|ds| - 1];
    var d := ds[|ds| - 1];
    assert prev + [d] == ds;
    var f := Min(k, Reach(prev));
    if d >= Unfilled {
      InsertFar(buf, prev, k, f, d);
    } else if f < k {
      InsertRoom(buf, prev, k, f, d);
    } else {
      InsertFull(buf, prev, k, d);
    }
  }

  /** `knn_classification` once all training instances are seen: the buffer holds the
      `min(k, n)` nearest of the `n` instances within reach, nearest first,
      ties in training order, the rest of the `k` slots untouched. */
  lemma {:induction false} ScanNearest(ds: seq<real>, k: nat)
    ensures Nearest(Scan(ds, k), ds, k, Min(k, Reach(ds)))
  {
    if |ds| > 0 {
      ScanNearest(ds[..|ds| - 1], k);
      InsertKeeps(Scan(ds[..|ds| - 1], k), ds, k);
    }
  }

  /** With fewer than `k` training instances, the slots past them keep
      the `sys.maxsize` distance and index 0 that `knn_classification`
      starts them with. */
  lemma ScanUnfilled(ds: seq<real>, k: nat)
    ensures forall q :: |ds| <= q < k ==> Scan(ds, k)[q] == Pad
  {
    ScanNearest(ds, k);
  }

  // ---------------------------------------------------------------------
  // the vote of knn_classification

  /** The `for key in counters` loop of `knn_classification` from key `j`
      on, holding the current winner and its count; only a strictly larger
      count takes over. */
  function VoteFrom(keys: seq<Value>, counts: seq<real>, j: nat, winner: Value, best: real): Value
    requires |keys| == |counts| && j <= |keys|
    decreases |keys| - j
  {
    if j == |keys| then winner
    else if counts[j] > best then VoteFrom(keys, counts, j + 1, keys[j], counts[j])
    else VoteFrom(keys, counts, j + 1, winner, best)
  }

  /** The neighbour labels' vote in `knn_classification`: counts kept in
      order of first appearance by the `counters` dict, the loop starting
      from winner `0` with count 0. */
  function Vote(labels: seq<Value>): Value {
    var keys := Distinct(labels);
    VoteFrom(keys, Tally(labels, keys), 0, Num(0.0), 0.0)
  }

  /** Once the loop has seen keys `..j`, it ends on the first maximal key. */
  lemma {:induction false} VoteFromMax(keys: seq<Value>, counts: seq<real>, j: nat, winner: Value, best: real)
    requires |keys| == |counts| && 0 < j <= |keys|
    requires winner == keys[ArgMaxFirst(counts[..j])] && best == counts[ArgMaxFirst(counts[..j])]
    ensures VoteFrom(keys, counts, j, winner, best) == keys[ArgMaxFirst(counts)]
    decreases |keys| - j
  {
    if j < |keys| {
      assert counts[..j + 1][..j] == counts[..j];
      var a := ArgMaxFirst(counts[..j]);
      if counts[j] > best {
        assert ArgMaxFirst(counts[..j + 1]) == j;
        VoteFromMax(keys, counts, j + 1, keys[j], counts[j]);
      } else {
        assert ArgMaxFirst(counts[..j + 1]) == a;
        VoteFromMax(keys, counts, j + 1, winner, best);
      }
    } else {
      assert counts[..j] == counts;
    }
  }

  /** The vote is the plurality label, ties going to the label seen first;
      with no neighbours (`k = 0`) it is the initial winner `0`. */
  lemma VotePlurality(labels: seq<Value>)
    ensures |labels| == 0 ==> Vote(labels) == Num(0.0)
    ensures |labels| > 0 ==> Vote(labels) == Plurality(labels)
  {
    if |labels| > 0 {
      var keys := Distinct(labels);
      var counts := Tally(labels, keys);
      assert labels[0] in keys;
      assert keys[0] in labels;
      assert counts[0] >= 1.0;
      assert ArgMaxFirst(counts[..1]) == 0;
      VoteFromMax(keys, counts, 1, keys[0], counts[0]);
    }
  }

  // ---------------------------------------------------------------------
  // knn_classification

  /** The distance from each training instance to `test`, in training
      order; the first failing distance is the error. */
  function Distances(train: seq<Instance>, test: seq<Value>, root: Root): (r: Result<seq<real>>)
    ensures r.Ok? <==> forall j :: 0 <= j < |train| ==> SquaredDistance(train[j].values, test).Ok?
    ensures r.Ok? ==> |r.value| == |train| && forall j :: 0 <= j < |train| ==>
      r.value[j] == root(SquaredDistance(train[j].values, test).value)
  {
    if |train| == 0 then Ok([])
    else
      var d :- SquaredDistance(train[0].values, test);
      var rest :- Distances(train[1..], test, root);
      Ok([root(d)] + rest)
  }

  /** In `knn_classification`, the labels of the training instances in the slots; an index
      past the training list is an `IndexError`. */
  function SlotLabels(train: seq<Instance>, buf: seq<Slot>): (r: Result<seq<Value>>)
    ensures r.Ok? <==> forall q :: 0 <= q < |buf| ==> buf[q].idx < |train|
    ensures r.Ok? ==> |r.value| == |buf| && forall q :: 0 <= q < |buf| ==> r.value[q] == train[buf[q].idx].cls
    ensures r.Err? ==> r.error == IndexOutOfRange
  {
    if forall q :: 0 <= q < |buf| ==> buf[q].idx < |train| then
      Ok(seq(|buf|, q requires 0 <= q < |buf| => train[buf[q].idx].cls))
    else Err(IndexOutOfRange)
  }

  /** `knn_classification` for one test instance. The slots still unfilled point at
      training instance 0, so with no training instances and `k > 0` the
      label lookup fails. A `k` of 0 or below makes `range(0, k)` empty:
      there are no slots and the prediction is `0`. */
  function KnnOne(train: seq<Instance>, test: seq<Value>, k: int, root: Root): (r: Result<Value>)
    ensures Distances(train, test, root).Ok? ==> (r.Ok? <==> k <= 0 || |train| > 0)
    ensures Distances(train, test, root).Err? ==> r == Err(Distances(train, test, root).error)
    ensures r.Err? && Distances(train, test, root).Ok? ==> r.error == IndexOutOfRange
    ensures r.Ok? && k <= 0 ==> r.value == Num(0.0)
  {
    var ds :- Distances(train, test, root);
    var slots := Max0(k);
    var buf := Scan(ds, slots);
    ScanNearest(ds, slots);
    assert slots > 0 ==> buf[slots - 1].idx < |ds| || buf[slots - 1] == Pad;
    var labels :- SlotLabels(train, buf);
    VotePlurality(labels);
    Ok(Vote(labels))
  }

  /** The prediction is the plurality label of the `k` slots, which hold the
      nearest training instances, ties in training order, padded with
      instance 0. */
  lemma KnnPrediction(train: seq<Instance>, test: seq<Value>, k: nat, root: Root)
    requires KnnOne(train, test, k, root).Ok? && k > 0
    ensures var ds := Distances(train, test, root).value; var buf := Scan(ds, k);
      && Nearest(buf, ds, k, Min(k, Reach(ds)))
      && (forall q :: 0 <= q < k ==> buf[q].idx < |train|)
      && KnnOne(train, test, k, root).value == Plurality(seq(k, q requires 0 <= q < k => train[buf[q].idx].cls))
  {
    var ds := Distances(train, test, root).value;
    var buf := Scan(ds, k);
    ScanNearest(ds, k);
    var labels := SlotLabels(train, buf).value;
    VotePlurality(labels);
    assert labels == seq(k, q requires 0 <= q < k => train[buf[q].idx].cls);
  }

  /** One `(test_instance, prediction)` pair per test instance, in order;
      the first failing prediction is the error. */
  function Pairs(tests: seq<seq<Value>>, predict: seq<Value> -> Result<Value>): (r: Result<seq<(seq<Value>, Value)>>)
    ensures r.Ok? <==> forall i :: 0 <= i < |tests| ==> predict(tests[i]).Ok?
    ensures r.Ok? ==> |r.value| == |tests| && forall i :: 0 <= i < |tests| ==>
      r.value[i] == (tests[i], predict(tests[i]).value)
    ensures r.Err? ==> exists i: nat :: FirstFailure(tests, predict, i) && predict(tests[i]) == Err(r.error)
  {
    if |tests| == 0 then Ok([])
    else
      var y :- predict(tests[0]);
      var rest := Pairs(tests[1..], predict);
      if rest.Err? then
        LaterFailure(tests, predict, rest.error);
        Err(rest.error)
      else
        Ok([(tests[0], y)] + rest.value)
  }

  lemma LaterFailure(tests: seq<seq<Value>>, predict: seq<Value> -> Result<Value>, e: Error)
    requires |tests| > 0 && predict(tests[0]).Ok?
    requires exists i: nat :: FirstFailure(tests[1..], predict, i) && predict(tests[1..][i]) == Err(e)
    ensures exists i: nat :: FirstFailure(tests, predict, i) && predict(tests[i]) == Err(e)
  {
    var i: nat :| FirstFailure(tests[1..], predict, i) && predict(tests[1..][i]) == Err(e);
    assert FirstFailure(tests, predict, i + 1);
  }

  /** Test instance `i` is the first whose prediction fails. */
  predicate FirstFailure(tests: seq<seq<Value>>, predict: seq<Value> -> Result<Value>, i: nat) {
    i < |tests| && predict(tests[i]).Err? && forall e :: 0 <= e < i ==> predict(tests[e]).Ok?
  }

  /** `knn_classification(instances, test_instances, k)`. */
  function Knn(train: seq<Instance>, tests: seq<seq<Value>>, k: int, root: Root): (r: Result<seq<(seq<Value>, Value)>>)
    ensures r.Ok? <==> forall i :: 0 <= i < |tests| ==> KnnOne(train, tests[i], k, root).Ok?
    ensures r.Ok? ==> |r.value| == |tests| && forall i :: 0 <= i < |tests| ==>
      KnnOne(train, tests[i], k, root) == Ok(r.value[i].1) && r.value[i].0 == tests[i]
    ensures r.Err? ==> exists i :: 0 <= i < |tests| && KnnOne(train, tests[i], k, root) == Err(r.error)
                                && forall u :: 0 <= u < i ==> KnnOne(train, tests[u], k, root).Ok?
    ensures k > 0 && |train| == 0 && |tests| > 0 ==> r == Err(IndexOutOfRange)
  {
    Pairs(tests, t => KnnOne(train, t, k, root))
  }

  // ---------------------------------------------------------------------
  // id3_decision_tree and id3_random_forest

  /** `id3_decision_tree(data_handler, test_instances)`: one tree, then one
      `(test_instance, tree.classify(test_instance))` pair per instance. */
  function Id3Classify(h: Handler, tests: seq<seq<Value>>, gain: Gain): (r: Result<seq<(seq<Value>, Value)>>)
    requires Valid(h)
    ensures Build(h, gain).Err? ==> r == Err(Build(h, gain).error)
    ensures Build(h, gain).Ok? ==> r == ClassifyEach(Build(h, gain).value, tests)
  {
    var tree :- Build(h, gain);
    ClassifyEach(tree, tests)
  }

  /** The loop of `id3_decision_tree` over the test instances. */
  function ClassifyEach(tree: Tree, tests: seq<seq<Value>>): (r: Result<seq<(seq<Value>, Value)>>)
    ensures r.Ok? <==> forall i :: 0 <= i < |tests| ==> Classify(tree, tests[i]).Ok?
    ensures r.Ok? ==> |r.value| == |tests| && forall i :: 0 <= i < |tests| ==>
      r.value[i].0 == tests[i] && Classify(tree, tests[i]) == Ok(r.value[i].1)
  {
    Pairs(tests, t => Classify(tree, t))
  }

  /** What growing a tree on each bag gives, bag by bag. */
  function Builds(bags: seq<Handler>, gain: Gain): (rs: seq<Result<Tree>>)
    requires forall t :: 0 <= t < |bags| ==> Valid(bags[t])
    ensures |rs| == |bags| && forall t :: 0 <= t < |bags| ==> rs[t] == Build(bags[t], gain)
  {
    seq(|bags|, t requires 0 <= t < |bags| => Build(bags[t], gain))
  }

  /** One tree per bagged handler, in order; the first failure is the error. */
  function BuildAll(bags: seq<Handler>, gain: Gain): (r: Result<seq<Tree>>)
    requires forall t :: 0 <= t < |bags| ==> Valid(bags[t])
    ensures r.Ok? ==> |r.value| == |bags| && forall t :: 0 <= t < |bags| ==> Build(bags[t], gain) == Ok(r.value[t])
    ensures r.Err? ==> exists t :: 0 <= t < |bags| && Build(bags[t], gain) == Err(r.error)
                                   && forall u :: 0 <= u < t ==> Build(bags[u], gain).Ok?
  {
    Collect(Builds(bags, gain))
  }

  /** The trees are all grown exactly when every bag grows one. */
  lemma BuildAllOk(bags: seq<Handler>, gain: Gain)
    requires forall t :: 0 <= t < |bags| ==> Valid(bags[t])
    ensures BuildAll(bags, gain).Ok? <==> forall t :: 0 <= t < |bags| ==> Build(bags[t], gain).Ok?
  {
    CollectOk(Builds(bags, gain));
  }

  /** `id3_random_forest`: `max(k, 0)` trees, the t-th grown on the t-th
      bag. */
  function Forest(h: Handler, k: int, gain: Gain, rand: Source, pos: nat): (r: Result<seq<Tree>>)
    requires Valid(h)
    ensures r.Ok? ==> |r.value| == Max0(k)
    ensures r.Ok? ==> forall t :: 0 <= t < Max0(k) ==> Build(Bagging(h, k, rand, pos)[t], gain) == Ok(r.value[t])
    ensures |h.rows| >= 2 ==> r.Ok?
  {
    var bags := Bagging(h, k, rand, pos);
    BuildAllOk(bags, gain);
    BuildAll(bags, gain)
  }

  /** Every tree's classification of `inst`, in tree order. */
  function ClassifyAll(trees: seq<Tree>, inst: seq<Value>): (r: Result<seq<Value>>)
    ensures r.Ok? <==> forall t :: 0 <= t < |trees| ==> Classify(trees[t], inst).Ok?
    ensures r.Ok? ==> |r.value| == |trees| && forall t :: 0 <= t < |trees| ==> r.value[t] == Classify(trees[t], inst).value
  {
    if |trees| == 0 then Ok([])
    else
      var c :- Classify(trees[0], inst);
      var rest :- ClassifyAll(trees[1..], inst);
      Ok([c] + rest)
  }

  /** `id3_random_forest`: `max` over the tally of the trees' votes, kept in order
      of first appearance; `max` of nothing is a `ValueError`. */
  function Ensemble(votes: seq<Value>): (r: Result<Value>)
    ensures r.Err? <==> |votes| == 0
    ensures r.Err? ==> r.error == EmptyMax
    ensures r.Ok? ==> r.value in votes
    ensures r.Ok? ==> forall i :: 0 <= i < |votes| ==> multiset(votes)[votes[i]] <= multiset(votes)[r.value]
    ensures r.Ok? ==> forall i :: 0 <= i < |votes| && IndexOf(votes, votes[i]) < IndexOf(votes, r.value) ==>
      multiset(votes)[votes[i]] < multiset(votes)[r.value]
  {
    if |votes| == 0 then Err(EmptyMax) else Ok(Plurality(votes))
  }

  /** The forest's prediction for one test instance. */
  function ForestOne(trees: seq<Tree>, inst: seq<Value>): Result<Value> {
    var votes :- ClassifyAll(trees, inst);
    Ensemble(votes)
  }

  /** `id3_random_forest(data_handler, test_instances, k)`. */
  function RandomForest(h: Handler, tests: seq<seq<Value>>, k: int, gain: Gain, rand: Source, pos: nat)
    : (r: Result<seq<(seq<Value>, Value)>>)
    requires Valid(h)
    ensures k <= 0 && |tests| > 0 ==> r == Err(EmptyMax)
    ensures Forest(h, k, gain, rand, pos).Err? ==> r == Err(Forest(h, k, gain, rand, pos).error)
    ensures Forest(h, k, gain, rand, pos).Ok? ==> r == ForestEach(Forest(h, k, gain, rand, pos).value, tests)
    ensures r.Ok? ==> |r.value| == |tests| && forall i :: 0 <= i < |tests| ==> r.value[i].0 == tests[i]
  {
    var trees :- Forest(h, k, gain, rand, pos);
    ForestEach(trees, tests)
  }

  /** The random forest succeeds exactly when its trees are all grown and
      they classify every test instance with at least one vote. */
  lemma RandomForestOk(h: Handler, tests: seq<seq<Value>>, k: int, gain: Gain, rand: Source, pos: nat)
    requires Valid(h)
    ensures RandomForest(h, tests, k, gain, rand, pos).Ok? <==>
      && Forest(h, k, gain, rand, pos).Ok?
      && forall i :: 0 <= i < |tests| ==> ForestOne(Forest(h, k, gain, rand, pos).value, tests[i]).Ok?
  {
  }

  /** The loop of `id3_random_forest` over the test instances: one
      `(test_instance, prediction)` pair per instance, in order, or the
      error of the first instance the forest fails on. */
  function ForestEach(trees: seq<Tree>, tests: seq<seq<Value>>): (r: Result<seq<(seq<Value>, Value)>>)
    ensures r.Ok? <==> forall i :: 0 <= i < |tests| ==> ForestOne(trees, tests[i]).Ok?
    ensures r.Ok? ==> |r.value| == |tests| && forall i :: 0 <= i < |tests| ==>
      r.value[i] == (tests[i], ForestOne(trees, tests[i]).value)
    ensures r.Err? ==> exists i :: 0 <= i < |tests| && ForestOne(trees, tests[i]) == Err(r.error)
                                && forall u :: 0 <= u < i ==> ForestOne(trees, tests[u]).Ok?
  {
    Pairs(tests, t => ForestOne(trees, t))
  }

  /** Each forest prediction is a vote of the `k` trees: a label some tree
      gave, given by at least as many trees as any other label, and by
      strictly more than any label first given by an earlier tree. */
  lemma ForestVote(h: Handler, tests: seq<seq<Value>>, k: int, gain: Gain, rand: Source, pos: nat, i: nat)
    requires Valid(h) && RandomForest(h, tests, k, gain, rand, pos).Ok? && i < |tests|
    ensures var trees := Forest(h, k, gain, rand, pos).value;
      var votes := ClassifyAll(trees, tests[i]).value;
      var w := RandomForest(h, tests, k, gain, rand, pos).value[i].1;
      && |trees| == k && ClassifyAll(trees, tests[i]).Ok? && |votes| == k
      && w in votes
      && (forall t :: 0 <= t < k ==> multiset(votes)[votes[t]] <= multiset(votes)[w])
      && (forall t :: 0 <= t < k && IndexOf(votes, votes[t]) < IndexOf(votes, w) ==>
            multiset(votes)[votes[t]] < multiset(votes)[w])
  {
    var trees := Forest(h, k, gain, rand, pos).value;
    assert ForestOne(trees, tests[i]).Ok?;
  }
}

=== FILE: cells.dfy ===
/** Cell values of the tabular data (data/handler.py, `__process_raw_data_value`)
    and the two pieces of number text the model needs: the threshold text
    that discretization writes (`str(average)`) and the comparison text that
    classification evaluates (`eval(str(value) + key)`). */
module Cells {
  import opened Results
  import opened Seqs

  /** A coerced cell: a float when its stripped text parses as one, else
      that stripped text. Floats are modelled as exact rationals. */
  datatype Value = Num(x: real) | Text(s: string)

  // ---------------------------------------------------------------------
  // str.strip()

  /** Python's `str.isspace` for one character. */
  predicate IsSpace(c: char) {
    || ('\t' <= c <= '\r')
    || ('\U{1C}' <= c <= ' ')
    || c == '\U{85}' || c == '\U{A0}' || c == '\U{1680}'
    || ('\U{2000}' <= c <= '\U{200A}')
    || c == '\U{2028}' || c == '\U{2029}' || c == '\U{202F}'
    || c == '\U{205F}' || c == '\U{3000}'
  }

  predicate NoSpace(s: string) {
    forall i :: 0 <= i < |s| ==> !IsSpace(s[i])
  }

  function StripLeft(s: string): (r: string)
    ensures |r| <= |s| && r == s[|s| - |r|..]
    ensures forall i :: 0 <= i < |s| - |r| ==> IsSpace(s[i])
    ensures |r| > 0 ==> !IsSpace(r[0])
  {
    if |s| > 0 && IsSpace(s[0]) then StripLeft(s[1..]) else s
  }

  function StripRight(s: string): (r: string)
    ensures |r| <= |s| && r == s[..|r|]
    ensures forall i :: |r| <= i < |s| ==> IsSpace(s[i])
    ensures |r| > 0 ==> !IsSpace(r[|r| - 1])
  {
    if |s| > 0 && IsSpace(s[|s| - 1]) then StripRight(s[..|s| - 1]) else s
  }

  /** Python's `str.strip()`: leading and trailing white space removed. */
  function Strip(s: string): string {
    StripRight(StripLeft(s))
  }

  /** Text whose ends are not white space is its own strip. */
  lemma {:induction false} StripKeeps(s: string)
    requires |s| > 0 ==> !IsSpace(s[0]) && !IsSpace(s[|s| - 1])
    ensures Strip(s) == s
  {
  }

  /** Strip returns text with no white space at either end, cut from the
      middle of the input with only white space removed around it. */
  lemma StripShape(s: string)
    ensures |Strip(s)| > 0 ==> !IsSpace(Strip(s)[0]) && !IsSpace(Strip(s)[|Strip(s)| - 1])
    ensures var a := |s| - |StripLeft(s)|;
      && a + |Strip(s)| <= |s|
      && Strip(s) == s[a..a + |Strip(s)|]
      && (forall i :: 0 <= i < a ==> IsSpace(s[i]))
      && (forall i :: a + |Strip(s)| <= i < |s| ==> IsSpace(s[i]))
  {
    StripEnds(s);
    StripSlice(s);
    StripTrailing(s);
  }

  lemma StripEnds(s: string)
    ensures |Strip(s)| > 0 ==> !IsSpace(Strip(s)[0]) && !IsSpace(Strip(s)[|Strip(s)| - 1])
  {
    var l := StripLeft(s);
    var r := StripRight(l);
    if |r| > 0 {
      assert r[0] == l[0];
    }
  }

  lemma StripSlice(s: string)
    ensures var a := |s| - |StripLeft(s)|; a + |Strip(s)| <= |s| && Strip(s) == s[a..a + |Strip(s)|]
  {
    var l := StripLeft(s);
    var r := StripRight(l);
    var a := |s| - |l|;
    SliceOfSuffix(s, a, |r|);
  }

  lemma SliceOfSuffix<T>(s: seq<T>, a: nat, n: nat)
    requires a + n <= |s|
    ensures s[a..][..n] == s[a..a + n]
  {
  }

  lemma StripTrailing(s: string)
    ensures var a := |s| - |StripLeft(s)|; forall i :: a + |Strip(s)| <= i < |s| ==> IsSpace(s[i])
  {
    var l := StripLeft(s);
    var r := StripRight(l);
    var a := |s| - |l|;
    forall i | a + |r| <= i < |s|
      ensures IsSpace(s[i])
    {
      assert s[i] == l[i - a];
    }
  }


  /** Stripping twice is stripping once. */
  lemma {:induction false} StripIdempotent(s: string)
    ensures Strip(Strip(s)) == Strip(s)
  {
    StripShape(s);
    StripKeeps(Strip(s));
  }

  // ---------------------------------------------------------------------
  // float(text)

  predicate IsDigit(c: char) { '0' <= c <= '9' }

  predicate AllDigits(s: string) {
    forall i :: 0 <= i < |s| ==> IsDigit(s[i])
  }

  function DigitValue(c: char): nat
    requires IsDigit(c)
  {
    c as int - '0' as int
  }

  /** The natural number written by a string of decimal digits. */
  function DigitsValue(s: string): nat
    requires AllDigits(s)
  {
    if |s| == 0 then 0 else DigitsValue(s[..|s| - 1]) * 10 + DigitValue(s[|s| - 1])
  }

  function Pow10(k: nat): (p: nat)
    ensures p >= 1
  {
    if k == 0 then 1 else 10 * Pow10(k - 1)
  }

  /** `digits`, `digits.`, `digits.digits` or `.digits`: the digits as one
      integer mantissa, and the number of fraction digits. */
  function ParseMantissa(s: string): Option<(nat, nat)> {
    if '.' in s then
      var k := IndexOf(s, '.');
      var ip := s[..k];
      var fp := s[k + 1..];
      if AllDigits(ip) && AllDigits(fp) && |ip| + |fp| > 0 then
        assert AllDigits(ip + fp) by {
          forall i | 0 <= i < |ip + fp| ensures IsDigit((ip + fp)[i]) {
            if i >= |ip| { assert (ip + fp)[i] == fp[i - |ip|]; }
          }
        }
        Some((DigitsValue(ip + fp), |fp|))
      else None
    else if AllDigits(s) && |s| > 0 then Some((DigitsValue(s), 0))
    else None
  }

  /** An exponent after `e`/`E`: an optional sign and at least one digit. */
  function ParseExponent(s: string): Option<int> {
    var neg := |s| > 0 && s[0] == '-';
    var ds := if |s| > 0 && (s[0] == '+' || s[0] == '-') then s[1..] else s;
    if |ds| > 0 && AllDigits(ds) then
      Some(if neg then -(DigitsValue(ds) as int) else DigitsValue(ds) as int)
    else None
  }

  /** Position of the first `e` or `E`, or the length when there is none. */
  function ExponentMarker(s: string): (k: nat)
    ensures k <= |s|
    ensures k < |s| ==> s[k] == 'e' || s[k] == 'E'
    ensures forall i :: 0 <= i < k ==> s[i] != 'e' && s[i] != 'E'
  {
    if |s| == 0 then 0
    else if s[0] == 'e' || s[0] == 'E' then 0
    else 1 + ExponentMarker(s[1..])
  }

  function Scale(m: nat, e: int): real {
    if e >= 0 then (m * Pow10(e)) as real else m as real / Pow10(-e) as real
  }

  /** The unsigned part of a float text: mantissa and optional exponent. */
  function ParseUnsigned(body: string): Option<real> {
    var e := ExponentMarker(body);
    var mant :- ParseMantissa(body[..e]);
    var exp :- if e == |body| then Some(0) else ParseExponent(body[e + 1..]);
    Some(Scale(mant.0, exp - mant.1))
  }

  /** Python's `float(t)` on already stripped text, for decimal notation
      with an optional sign, fraction and exponent. */
  function ParseNumber(t: string): (r: Option<real>)
    ensures r.Some? ==> |t| > 0
  {
    if |t| > 0 && t[0] == '-' then
      var mag :- ParseUnsigned(t[1..]);
      Some(-mag)
    else if |t| > 0 && t[0] == '+' then ParseUnsigned(t[1..])
    else ParseUnsigned(t)
  }

  /** A plain string of digits is read as the integer it writes. */
  lemma DigitsParse(t: string)
    requires |t| > 0 && AllDigits(t)
    ensures ParseNumber(t) == Some(DigitsValue(t) as real)
  {
    assert forall i :: 0 <= i < |t| ==> t[i] != 'e' && t[i] != 'E' && t[i] != '.' && t[i] != '-' && t[i] != '+';
    var e := ExponentMarker(t);
    assert e == |t|;
    assert t[..e] == t;
    assert '.' !in t;
  }

  /** `__process_raw_data_value`: the stripped text as a float when it
      parses, otherwise the stripped text itself, so a text value is never
      number text. */
  function Coerce(raw: string): (v: Value)
    ensures v.Num? <==> ParseNumber(Strip(raw)).Some?
    ensures v.Num? ==> ParseNumber(Strip(raw)) == Some(v.x)
    ensures v.Text? ==> v.s == Strip(raw) && ParseNumber(v.s) == None
  {
    var t := Strip(raw);
    match ParseNumber(t)
    case Some(x) => Num(x)
    case None => Text(t)
  }

  /** Coercion only looks at the stripped text. */
  lemma {:induction false} CoerceStripped(raw: string)
    ensures Coerce(Strip(raw)) == Coerce(raw)
  {
    StripIdempotent(raw);
  }

  /** Text that starts with a comparison sign is never a number. */
  lemma {:induction false} OperatorTextIsNotNumber(s: string)
    requires |s| > 0 && (s[0] == '<' || s[0] == '>')
    ensures ParseNumber(s) == None
  {
    var e := ExponentMarker(s);
    assert e > 0;
    var m := s[..e];
    assert m[0] == '<' || m[0] == '>';
    if '.' in m {
      var k := IndexOf(m, '.');
      assert k > 0;
      assert !IsDigit(m[..k][0]);
    } else {
      assert !IsDigit(m[0]);
    }
  }

  // ---------------------------------------------------------------------
  // str(float) for the three-decimal thresholds

  function DigitChar(d: nat): (c: char)
    requires d < 10
    ensures IsDigit(c) && DigitValue(c) == d
  {
    ('0' as int + d) as char
  }

  lemma {:induction false} DigitsValueSnoc(s: string, c: char)
    requires AllDigits(s) && IsDigit(c)
    ensures AllDigits(s + [c]) && DigitsValue(s + [c]) == DigitsValue(s) * 10 + DigitValue(c)
  {
    assert (s + [c])[..|s|] == s;
  }

  /** Decimal text of a natural number, without leading zeros. */
  function NatText(n: nat): (s: string)
    ensures |s| > 0 && AllDigits(s) && DigitsValue(s) == n
  {
    if n < 10 then
      assert [DigitChar(n)][..0] == [];
      [DigitChar(n)]
    else
      var p := NatText(n / 10);
      DigitsValueSnoc(p, DigitChar(n % 10));
      p + [DigitChar(n % 10)]
  }

  /** The three decimals of `r` with trailing zeros dropped, keeping one. */
  function FractionText(r: nat): (s: string)
    requires r < 1000
    ensures 1 <= |s| <= 3 && AllDigits(s)
    ensures DigitsValue(s) * Pow10(3 - |s|) == r
  {
    var a := DigitChar(r / 100);
    var b := DigitChar(r / 10 % 10);
    var c := DigitChar(r % 10);
    FractionDigits(r, a, b, c);
    if r % 100 == 0 then [a]
    else if r % 10 == 0 then [a, b]
    else [a, b, c]
  }

  /** The one, two or three leading digits of a three-digit fraction, read
      back and scaled to thousandths. */
  lemma FractionDigits(r: nat, a: char, b: char, c: char)
    requires r < 1000 && a == DigitChar(r / 100) && b == DigitChar(r / 10 % 10) && c == DigitChar(r % 10)
    ensures AllDigits([a]) && AllDigits([a, b]) && AllDigits([a, b, c])
    ensures r % 100 == 0 ==> DigitsValue([a]) * Pow10(2) == r
    ensures r % 10 == 0 ==> DigitsValue([a, b]) * Pow10(1) == r
    ensures DigitsValue([a, b, c]) * Pow10(0) == r
  {
    ThreeDigits(a, b, c);
    ThousandthsSplit(r);
    assert Pow10(2) == 100 && Pow10(1) == 10 && Pow10(0) == 1;
  }

  lemma ThreeDigits(a: char, b: char, c: char)
    requires IsDigit(a) && IsDigit(b) && IsDigit(c)
    ensures AllDigits([a]) && AllDigits([a, b]) && AllDigits([a, b, c])
    ensures DigitsValue([a]) == DigitValue(a)
    ensures DigitsValue([a, b]) == DigitValue(a) * 10 + DigitValue(b)
    ensures DigitsValue([a, b, c]) == (DigitValue(a) * 10 + DigitValue(b)) * 10 + DigitValue(c)
  {
    DigitsValueSnoc([], a);
    DigitsValueSnoc([a], b);
    DigitsValueSnoc([a, b], c);
    assert [] + [a] == [a] && [a] + [b] == [a, b] && [a, b] + [c] == [a, b, c];
  }

  lemma ThousandthsSplit(r: nat)
    requires r < 1000
    ensures r % 100 == 0 ==> (r / 100) * 100 == r
    ensures r % 10 == 0 ==> ((r / 100) * 10 + r / 10 % 10) * 10 == r
    ensures ((r / 100) * 10 + r / 10 % 10) * 10 + r % 10 == r
  {
  }



  /** The text of the non-negative float a / 1000. */
  function MillisText(a: nat): (s: string)
    ensures |s| > 0 && IsDigit(s[0])
  {
    NatText(a / 1000) + "." + FractionText(a % 1000)
  }

  /** `str(x)` for the float x = m / 1000: shortest decimals, at least one
      after the point. This is Python's text of the nearest double while the
      decimal has at most 15 significant digits (|x| < 10^12); Python's
      `-0.0` for a small negative x is written here as `0.0`. */
  function FormatMillis(m: int): (s: string)
    ensures |s| > 0 && (s[0] == '-' || IsDigit(s[0])) && (s[0] == '-' <==> m < 0)
  {
    if m < 0 then "-" + MillisText(-m) else MillisText(m)
  }

  lemma ShiftDigit(x: nat, p: nat, y: nat, d: nat)
    ensures (x * p + y) * 10 + d == x * (10 * p) + (y * 10 + d)
  {
  }

  lemma AllDigitsAppend(a: string, b: string)
    requires AllDigits(a) && AllDigits(b)
    ensures AllDigits(a + b)
  {
    forall i | 0 <= i < |a + b| ensures IsDigit((a + b)[i]) {
      if i >= |a| { assert (a + b)[i] == b[i - |a|]; }
    }
  }

  lemma {:induction false} DigitsValueAppend(a: string, b: string)
    requires AllDigits(a) && AllDigits(b)
    ensures AllDigits(a + b)
    ensures DigitsValue(a + b) == DigitsValue(a) * Pow10(|b|) + DigitsValue(b)
  {
    AllDigitsAppend(a, b);
    if |b| == 0 {
      assert a + b == a;
    } else {
      var b' := b[..|b| - 1];
      var c := b[|b| - 1];
      assert AllDigits(b');
      DigitsValueAppend(a, b');
      var ab' := a + b';
      assert a + b == ab' + [c];
      assert b == b' + [c];
      DigitsValueSnoc(ab', c);
      DigitsValueSnoc(b', c);
      ShiftDigit(DigitsValue(a), Pow10(|b'|), DigitsValue(b'), DigitValue(c));
    }
  }

  lemma ExponentMarkerAbsent(s: string)
    requires forall i :: 0 <= i < |s| ==> s[i] != 'e' && s[i] != 'E'
    ensures ExponentMarker(s) == |s|
  {
  }

  /** `M / 10^L` is the thousandths value when `M * 10^(3-L)` is. */
  lemma {:induction false} MillisScale(q: nat, f: nat, len: nat, r: nat)
    requires 1 <= len <= 3 && f * Pow10(3 - len) == r && r < 1000
    ensures Scale(q * Pow10(len) + f, -(len as int)) == (1000 * q + r) as real / 1000.0
  {
    assert Pow10(0) == 1 && Pow10(1) == 10 && Pow10(2) == 100 && Pow10(3) == 1000;
    var p := Pow10(len) as real;
    var big := (q * Pow10(len) + f) as real;
    assert Scale(q * Pow10(len) + f, -(len as int)) == big / p;
    assert Pow10(len) * Pow10(3 - len) == 1000;
    assert big * (Pow10(3 - len) as real) == (1000 * q + r) as real;
  }

  /** The mantissa of `ip.fp` without exponent. */
  lemma {:induction false} ParsePlainDecimal(ip: string, fp: string)
    requires AllDigits(ip) && AllDigits(fp) && |ip| > 0
    ensures var body := ip + "." + fp;
      && ExponentMarker(body) == |body|
      && AllDigits(ip + fp)
      && ParseMantissa(body) == Some((DigitsValue(ip + fp), |fp|))
  {
    var body := ip + "." + fp;
    forall i | 0 <= i < |body| ensures body[i] != 'e' && body[i] != 'E' {
      if i < |ip| { assert body[i] == ip[i]; }
      else if i > |ip| { assert body[i] == fp[i - |ip| - 1]; }
    }
    ExponentMarkerAbsent(body);
    assert body[|ip|] == '.';
    assert IndexOf(body, '.') == |ip| by {
      forall i | 0 <= i < |ip| ensures body[i] != '.' { assert body[i] == ip[i]; }
    }
    assert body[..|ip|] == ip && body[|ip| + 1..] == fp;
    DigitsValueAppend(ip, fp);
  }

  /** `ip.fp` parses to its digits scaled down by the fraction length. */
  lemma PlainDecimalParses(ip: string, fp: string)
    requires AllDigits(ip) && AllDigits(fp) && |ip| > 0
    ensures AllDigits(ip + fp)
    ensures ParseUnsigned(ip + "." + fp) == Some(Scale(DigitsValue(ip + fp), 0 - |fp|))
  {
    var body := ip + "." + fp;
    ParsePlainDecimal(ip, fp);
    assert body[..|body|] == body;
  }

  /** The unsigned threshold text parses to its value. */
  lemma {:induction false} MillisTextParses(a: nat)
    ensures ParseUnsigned(MillisText(a)) == Some(a as real / 1000.0)
  {
    var ip := NatText(a / 1000);
    var fp := FractionText(a % 1000);
    var body := MillisText(a);
    assert body == ip + "." + fp;
    PlainDecimalParses(ip, fp);
    DigitsValueAppend(ip, fp);
    MillisScale(a / 1000, DigitsValue(fp), |fp|, a % 1000);
    assert 1000 * (a / 1000) + a % 1000 == a;
  }

  /** A leading minus sign negates whatever the rest parses to. */
  lemma DropSign(body: string)
    ensures ("-" + body)[0] == '-' && ("-" + body)[1..] == body
  {
  }

  lemma {:induction false} NegativeMillisParses(m: int)
    requires m < 0
    ensures ParseNumber(FormatMillis(m)) == Some(m as real / 1000.0)
  {
    var a: nat := -m;
    var body := MillisText(a);
    DropSign(body);
    assert FormatMillis(m) == "-" + body;
    MillisTextParses(a);
    NegateMillis(m, a);
  }

  lemma NegateMillis(m: int, a: nat)
    requires a == -m
    ensures -(a as real / 1000.0) == m as real / 1000.0
  {
    assert a as real == -(m as real);
  }


  lemma {:induction false} NonNegativeMillisParses(m: int)
    requires m >= 0
    ensures ParseNumber(FormatMillis(m)) == Some(m as real / 1000.0)
  {
    var t := MillisText(m);
    assert t[0] == NatText(m / 1000)[0];
    MillisTextParses(m);
  }

  /** Parsing the printed threshold gives back the threshold: the number
      text of discretized labels survives `float(...)` and `eval`. */
  lemma {:induction false} FormatMillisRoundTrip(m: int)
    ensures ParseNumber(FormatMillis(m)) == Some(m as real / 1000.0)
  {
    if m < 0 {
      NegativeMillisParses(m);
    } else {
      NonNegativeMillisParses(m);
    }
  }

  /** The threshold text is a number when coerced. */
  lemma {:induction false} CoerceFormatMillis(m: int)
    ensures Coerce(FormatMillis(m)) == Num(m as real / 1000.0)
  {
    FormatMillisEnds(m);
    FormatMillisRoundTrip(m);
  }

  // ---------------------------------------------------------------------
  // eval(str(value) + key) as a closed set of comparisons

  datatype CmpOp = Eq | Ne | Le | Lt | Ge | Gt

  function OpText(op: CmpOp): string {
    match op
    case Eq => "=="
    case Ne => "!="
    case Le => "<="
    case Lt => "<"
    case Ge => ">="
    case Gt => ">"
  }

  /** `x <op> t`. */
  predicate Holds(op: CmpOp, x: real, t: real) {
    match op
    case Eq => x == t
    case Ne => x != t
    case Le => x <= t
    case Lt => x < t
    case Ge => x >= t
    case Gt => x > t
  }

  /** The operator a key text starts with, the longest one first as
      Python's tokenizer reads it. */
  function OperatorPrefix(s: string): (r: Option<CmpOp>)
    ensures r.Some? ==> |OpText(r.value)| <= |s| && s[..|OpText(r.value)|] == OpText(r.value)
  {
    if |s| >= 2 && s[..2] == "<=" then Some(Le)
    else if |s| >= 2 && s[..2] == ">=" then Some(Ge)
    else if |s| >= 2 && s[..2] == "==" then Some(Eq)
    else if |s| >= 2 && s[..2] == "!=" then Some(Ne)
    else if |s| >= 1 && s[0] == '<' then Some(Lt)
    else if |s| >= 1 && s[0] == '>' then Some(Gt)
    else None
  }

  /** A branch key read as `<operator><number>`; a number key, or text that
      does not start with an operator sign, is no comparison. */
  function Comparison(key: Value): (r: Option<(CmpOp, real)>)
    ensures key.Num? ==> r == None
    ensures r.Some? ==> key.Text? && OperatorPrefix(key.s) == Some(r.value.0)
  {
    if key.Num? then None
    else
      var op :- OperatorPrefix(key.s);
      var t :- ParseNumber(Strip(key.s[|OpText(op)|..]));
      Some((op, t))
  }

  /** The last character of a threshold text is a digit. */
  lemma {:induction false} FormatMillisEnds(m: int)
    ensures |FormatMillis(m)| > 0
    ensures FormatMillis(m)[0] == '-' || IsDigit(FormatMillis(m)[0])
    ensures IsDigit(FormatMillis(m)[|FormatMillis(m)| - 1])
    ensures Strip(FormatMillis(m)) == FormatMillis(m)
  {
    var a: nat := if m < 0 then -m else m;
    var ip := NatText(a / 1000);
    var fp := FractionText(a % 1000);
    var body := MillisText(a);
    var t := FormatMillis(m);
    assert t == (if m < 0 then "-" else "") + body;
    assert body[|body| - 1] == fp[|fp| - 1];
    assert body[0] == ip[0];
    StripKeeps(t);
  }

  /** The "<=" label text reads back as `<=` against the threshold. */
  lemma {:induction false} AtMostLabelCompares(m: int)
    ensures Comparison(Text("<=" + FormatMillis(m))) == Some((Le, m as real / 1000.0))
  {
    var t := FormatMillis(m);
    FormatMillisEnds(m);
    FormatMillisRoundTrip(m);
    var s := "<=" + t;
    assert s[..2] == "<=" && s[2..] == t;
    assert OperatorPrefix(s) == Some(Le);
  }

  /** The ">" label text reads back as `>` against the threshold. */
  lemma {:induction false} AboveLabelCompares(m: int)
    ensures Comparison(Text(">" + FormatMillis(m))) == Some((Gt, m as real / 1000.0))
  {
    var t := FormatMillis(m);
    FormatMillisEnds(m);
    FormatMillisRoundTrip(m);
    AbovePrefix(t);
  }

  /** `>` before text that does not start with `=` is the operator `>`. */
  lemma AbovePrefix(t: string)
    requires |t| > 0 && t[0] != '='
    ensures OperatorPrefix(">" + t) == Some(Gt) && (">" + t)[1..] == t
  {
    var s := ">" + t;
    assert s[..2][1] == t[0];
  }

  /** Either label text reads back as its operator against the threshold. */
  lemma LabelCompares(op: CmpOp, m: int)
    requires op == Le || op == Gt
    ensures Comparison(Text(OpText(op) + FormatMillis(m))) == Some((op, m as real / 1000.0))
  {
    if op == Le {
      AtMostLabelCompares(m);
    } else {
      AboveLabelCompares(m);
    }
  }

  /** Label texts are never coerced to numbers. */
  lemma {:induction false} LabelIsText(op: string, m: int)
    requires op == "<=" || op == ">"
    ensures Coerce(op + FormatMillis(m)) == Text(op + FormatMillis(m))
  {
    var t := FormatMillis(m);
    var s := op + t;
    FormatMillisEnds(m);
    assert s[|s| - 1] == t[|t| - 1];
    assert s[0] == op[0];
    StripKeeps(s);
    OperatorTextIsNotNumber(s);
  }

  // ---------------------------------------------------------------------
  // round()

  /** Python 3's `round(x)`: the nearest integer, halves to the even one. */
  function RoundHalfEven(x: real): (r: int)
    ensures x - 0.5 <= r as real <= x + 0.5
    ensures (r as real - x == 0.5 || x - r as real == 0.5) ==> r % 2 == 0
  {
    var f := x.Floor;
    var d := x - f as real;
    if d < 0.5 then f
    else if d > 0.5 then f + 1
    else if f % 2 == 0 then f
    else f + 1
  }
}

=== FILE: evaluation.dfy ===
/** Scoring of the classifiers (ml/supervised/evaluation.py): the k-fold
    cross-validation of kNN with its binary counters, and `validate` with
    its per-class confusion counters and micro-averaged measures. */
module Evaluation {
  import opened Results
  import opened Seqs
  import opened Cells
  import opened DataHandler
  import opened Resampling
  import opened Algorithms

  /** Python 3's true division `a / b`. */
  function Divide(a: real, b: real): (r: Result<real>)
    ensures r.Err? <==> b == 0.0
    ensures r.Err? ==> r.error == DivisionByZero
    ensures r.Ok? && 0.0 <= a <= b ==> 0.0 <= r.value <= 1.0
  {
    if b == 0.0 then Err(DivisionByZero) else Ok(a / b)
  }

  /** How one compared pair counts towards a class's confusion counters. */
  datatype Cell = TP | TN | FP | FN | Uncounted

  /** The positions of `cell` among `cells`. */
  function Occurs(cells: seq<Cell>, cell: Cell): nat {
    multiset(cells)[cell]
  }

  // ---------------------------------------------------------------------
  // knn_kcrossvalidation

  /** `knn_kcrossvalidation`: the attribute tuples of fold `i` to classify, and the
      other folds joined in order to train on. */
  function Split(folds: seq<seq<Instance>>, i: nat): (sp: (seq<seq<Value>>, seq<Instance>))
    requires i < |folds|
    ensures |sp.0| == |folds[i]| && forall q :: 0 <= q < |folds[i]| ==> sp.0[q] == folds[i][q].values
  {
    (seq(|folds[i]|, q requires 0 <= q < |folds[i]| => folds[i][q].values), Flatten(folds[..i] + folds[i + 1..]))
  }

  lemma {:induction false} FlattenConcat<T>(a: seq<seq<T>>, b: seq<seq<T>>)
    ensures Flatten(a + b) == Flatten(a) + Flatten(b)
  {
    if |a| > 0 {
      assert (a + b)[0] == a[0];
      assert (a + b)[1..] == a[1..] + b;
      FlattenConcat(a[1..], b);
    } else {
      assert a + b == b;
    }
  }

  lemma Around<T>(s: seq<T>, i: nat)
    requires i < |s|
    ensures s == s[..i] + ([s[i]] + s[i + 1..])
  {
  }

  /** The training part is the folds before `i` followed by those after it,
      so training part and test fold together hold every instance of every
      fold exactly as often as the folds do. */
  lemma SplitCovers(folds: seq<seq<Instance>>, i: nat)
    requires i < |folds|
    ensures Split(folds, i).1 == Flatten(folds[..i]) + Flatten(folds[i + 1..])
    ensures multiset(Split(folds, i).1) + multiset(folds[i]) == multiset(Flatten(folds))
  {
    var before, after := folds[..i], folds[i + 1..];
    FlattenConcat(before, after);
    var rest := [folds[i]] + after;
    Around(folds, i);
    FlattenConcat(before, rest);
    assert rest[1..] == after;
    assert Flatten(rest) == folds[i] + Flatten(after);
    assert Flatten(folds) == Flatten(before) + (folds[i] + Flatten(after));
  }

  /** `knn_kcrossvalidation`: a right prediction is a true positive when it is `1`
      and a true negative otherwise; a wrong `1` is a false positive, a
      wrong `0` a false negative, and any other wrong label counts nowhere. */
  function BinaryCell(pred: Value, actual: Value): Cell {
    if pred == actual then (if pred == Num(1.0) then TP else TN)
    else if pred == Num(1.0) then FP
    else if pred == Num(0.0) then FN
    else Uncounted
  }

  function BinaryCells(preds: seq<Value>, actuals: seq<Value>): (cells: seq<Cell>)
    requires |preds| == |actuals|
    ensures |cells| == |preds|
    ensures forall q :: 0 <= q < |preds| ==> cells[q] == BinaryCell(preds[q], actuals[q])
  {
    seq(|preds|, q requires 0 <= q < |preds| => BinaryCell(preds[q], actuals[q]))
  }

  datatype Binary = Binary(correct: nat, tp: nat, tn: nat, fp: nat, fn: nat)

  /** The counting loop of `knn_kcrossvalidation` over the zipped
      predictions and fold labels. */
  function BinaryCounts(preds: seq<Value>, actuals: seq<Value>): (c: Binary)
    requires |preds| == |actuals|
    ensures c.tp + c.tn == c.correct
    ensures c.correct + c.fp + c.fn <= |preds|
  {
    if |preds| == 0 then Binary(0, 0, 0, 0, 0)
    else
      var c := BinaryCounts(preds[..|preds| - 1], actuals[..|actuals| - 1]);
      var pred := preds[|preds| - 1];
      var actual := actuals[|actuals| - 1];
      BinaryBump(c, preds[|preds| - 1], actuals[|actuals| - 1])
  }

  /** One iteration of the counting loop. */
  function BinaryBump(c: Binary, pred: Value, actual: Value): (c': Binary)
    ensures c'.correct == c.correct + if pred == actual then 1 else 0
  {
    if pred == actual then
      if pred == Num(1.0) then c.(correct := c.correct + 1, tp := c.tp + 1)
      else c.(correct := c.correct + 1, tn := c.tn + 1)
    else if pred == Num(1.0) then c.(fp := c.fp + 1)
    else if pred == Num(0.0) then c.(fn := c.fn + 1)
    else c
  }

  /** The counters of `c` count the cells of their kind. */
  predicate BinaryCounted(c: Binary, cells: seq<Cell>) {
    && c.tp == Occurs(cells, TP) && c.tn == Occurs(cells, TN)
    && c.fp == Occurs(cells, FP) && c.fn == Occurs(cells, FN)
  }

  /** One iteration counts the pair's cell. */
  lemma BinaryBumpCounts(c: Binary, cells: seq<Cell>, pred: Value, actual: Value)
    requires BinaryCounted(c, cells)
    ensures BinaryCounted(BinaryBump(c, pred, actual), cells + [BinaryCell(pred, actual)])
  {
    OccursLast(cells, BinaryCell(pred, actual));
  }

  /** Each counter counts the pairs of its kind. */
  lemma {:induction false} BinaryCountsCells(preds: seq<Value>, actuals: seq<Value>)
    requires |preds| == |actuals|
    ensures BinaryCounted(BinaryCounts(preds, actuals), BinaryCells(preds, actuals))
  {
    if |preds| > 0 {
      var n := |preds| - 1;
      BinaryCountsCells(preds[..n], actuals[..n]);
      var prev := BinaryCounts(preds[..n], actuals[..n]);
      var cells := BinaryCells(preds[..n], actuals[..n]);
      assert BinaryCells(preds, actuals) == cells + [BinaryCell(preds[n], actuals[n])];
      assert BinaryCounts(preds, actuals) == BinaryBump(prev, preds[n], actuals[n]);
      BinaryBumpCounts(prev, cells, preds[n], actuals[n]);
    }
  }

  /** The counters of `knn_kcrossvalidation` over the classified tuples and
      the fold's labels. */
  function FoldCounts(classified: seq<(seq<Value>, Value)>, fold: seq<Instance>): (c: Binary)
    requires |classified| == |fold|
    ensures c.correct + c.fp + c.fn <= |fold|
  {
    var preds := seq(|classified|, q requires 0 <= q < |classified| => classified[q].1);
    var actuals := seq(|fold|, q requires 0 <= q < |fold| => fold[q].cls);
    BinaryCounts(preds, actuals)
  }

  /** The F-measure `2pr / (p + r)` of precision `p = tp / (tp + fp)` and
      recall `r = tp / (tp + fn)`, in closed form. */
  function FMeasureOf(tp: nat, fp: nat, fn: nat): (f: real)
    requires tp > 0
    ensures 0.0 < f <= 1.0
  {
    2.0 * tp as real / (2 * tp + fp + fn) as real
  }

  /** The harmonic mean of `t / b` and `t / a` is `2t / (a + b)`. */
  lemma Harmonic(p: real, r: real, t: real, a: real, b: real)
    requires a > 0.0 && b > 0.0 && t > 0.0 && p * b == t && r * a == t
    ensures p + r > 0.0 && 2.0 * (p * r) / (p + r) == 2.0 * t / (a + b)
  {
    HarmonicScaled(p, r, a, b, t);
  }

  lemma HarmonicMeasure(p: real, r: real, t: real, a: real, b: real)
    requires a > 0.0 && b > 0.0 && t > 0.0 && p * b == t && r * a == t
    ensures FMeasure(p, r) == Ok(2.0 * t / (a + b))
  {
    Harmonic(p, r, t, a, b);
  }

  lemma HarmonicScaled(p: real, r: real, a: real, b: real, t: real)
    requires a > 0.0 && b > 0.0 && t > 0.0 && p * b == t && r * a == t
    ensures p * r * (a * b) == t * t && (p + r) * (a * b) == t * (a + b)
  {
    assert p * r * (a * b) == (p * b) * (r * a);
  }

  /** `2 * (prec * rev) / (prec + rev)`, a division by zero when both are 0. */
  function FMeasure(prec: real, rev: real): (r: Result<real>)
    ensures r.Err? <==> prec + rev == 0.0
    ensures r.Err? ==> r.error == DivisionByZero
  {
    Divide(2.0 * (prec * rev), prec + rev)
  }

  /** With a true positive, the F-measure of the source's precision and
      recall is the closed form. */
  lemma FMeasureClosed(tp: nat, fp: nat, fn: nat)
    ensures tp > 0 ==>
      FMeasure(tp as real / (tp + fp) as real, tp as real / (tp + fn) as real) == Ok(FMeasureOf(tp, fp, fn))
  {
    if tp > 0 {
      var t, a, b := tp as real, (tp + fn) as real, (tp + fp) as real;
      assert a + b == (2 * tp + fp + fn) as real;
      HarmonicMeasure(t / b, t / a, t, a, b);
    }
  }

  /** The accuracy and F-measure of one fold (`knn_kcrossvalidation`, the
      loop body): a fold scores exactly when kNN classifies it and it has a
      true positive; otherwise recall, precision or the F-measure divides
      by zero. */
  function KnnFold(folds: seq<seq<Instance>>, i: nat, k: int, root: Root): (r: Result<(real, real)>)
    requires i < |folds|
    ensures r.Ok? ==> 0.0 <= r.value.0 <= 1.0 && 0.0 < r.value.1 <= 1.0
    ensures |folds[i]| == 0 ==> r == Err(DivisionByZero)
    ensures var kr := Knn(Split(folds, i).1, Split(folds, i).0, k, root);
      && (kr.Err? ==> r == Err(kr.error))
      && (kr.Ok? ==>
            var c := FoldCounts(kr.value, folds[i]);
            && (r.Ok? <==> c.tp > 0)
            && (r.Err? ==> r.error == DivisionByZero)
            && (r.Ok? ==> r.value == (c.correct as real / |folds[i]| as real, FMeasureOf(c.tp, c.fp, c.fn))))
  {
    var (test, train) := Split(folds, i);
    var classified :- Knn(train, test, k, root);
    var c := FoldCounts(classified, folds[i]);
    var acc :- Divide(c.correct as real, |classified| as real);
    var f :- FoldMeasure(c.tp, c.fp, c.fn);
    Ok((acc, f))
  }

  /** Recall `tp / (tp + fn)` and precision `tp / (tp + fp)`, each
      division as written. Their F-measure divides by zero exactly when
      there is no true positive. */
  function Rates(tp: nat, fp: nat, fn: nat): (r: Result<(real, real)>)
    ensures r.Ok? <==> tp + fn > 0 && tp + fp > 0
    ensures r.Err? ==> r.error == DivisionByZero
    ensures r.Ok? ==> r.value == (tp as real / (tp + fn) as real, tp as real / (tp + fp) as real)
    ensures r.Ok? ==> 0.0 <= r.value.0 <= 1.0 && 0.0 <= r.value.1 <= 1.0
  {
    var rev :- Divide(tp as real, (tp + fn) as real);
    var prec :- Divide(tp as real, (tp + fp) as real);
    Ok((rev, prec))
  }

  /** The F-measure of the rates fails exactly without a true positive, and
      is the closed form otherwise. */
  lemma RatesMeasure(tp: nat, fp: nat, fn: nat)
    requires Rates(tp, fp, fn).Ok?
    ensures var (rev, prec) := Rates(tp, fp, fn).value;
      && (FMeasure(prec, rev).Ok? <==> tp > 0)
      && (tp > 0 ==> FMeasure(prec, rev) == Ok(FMeasureOf(tp, fp, fn)))
  {
    FMeasureClosed(tp, fp, fn);
  }

  /** Recall, precision and the F-measure of one fold's counters: they all
      succeed exactly when there is a true positive, for otherwise recall
      or precision has a zero divisor or both are 0 and the F-measure
      divides 0 by 0. */
  function FoldMeasure(tp: nat, fp: nat, fn: nat): (r: Result<real>)
    ensures r.Ok? <==> tp > 0
    ensures r.Err? ==> r.error == DivisionByZero
    ensures r.Ok? ==> r.value == FMeasureOf(tp, fp, fn)
  {
    var rates :- Rates(tp, fp, fn);
    RatesMeasure(tp, fp, fn);
    FMeasure(rates.1, rates.0)
  }

  /** Every fold's score, in fold order. */
  function FoldScores(folds: seq<seq<Instance>>, k: int, root: Root): (rs: seq<Result<(real, real)>>)
    ensures |rs| == |folds| && forall q :: 0 <= q < |folds| ==> rs[q] == KnnFold(folds, q, k, root)
  {
    seq(|folds|, q requires 0 <= q < |folds| => KnnFold(folds, q, k, root))
  }

  /** The loop over the folds: entry `q` of each list is fold `q`'s score,
      and the first fold that fails ends the loop with its error. */
  function KnnFolds(folds: seq<seq<Instance>>, k: int, root: Root): (r: Result<(seq<real>, seq<real>)>)
    ensures r.Ok? ==> |r.value.0| == |folds| && |r.value.1| == |folds|
    ensures r.Ok? ==> forall q :: 0 <= q < |folds| ==> KnnFold(folds, q, k, root) == Ok((r.value.0[q], r.value.1[q]))
    ensures r.Err? ==> exists q :: 0 <= q < |folds| && KnnFold(folds, q, k, root) == Err(r.error)
                                   && forall u :: 0 <= u < q ==> KnnFold(folds, u, k, root).Ok?
  {
    var scores :- Collect(FoldScores(folds, k, root));
    Ok((seq(|scores|, q requires 0 <= q < |scores| => scores[q].0),
        seq(|scores|, q requires 0 <= q < |scores| => scores[q].1)))
  }

  /** The folds are all scored exactly when no fold fails. */
  lemma KnnFoldsOk(folds: seq<seq<Instance>>, k: int, root: Root)
    ensures KnnFolds(folds, k, root).Ok? <==> forall q :: 0 <= q < |folds| ==> KnnFold(folds, q, k, root).Ok?
  {
    CollectOk(FoldScores(folds, k, root));
  }

  /** `knn_kcrossvalidation(data_handler, knn_factor, k_folds)`: the lists
      of accuracies and F-measures, one per stratified fold. */
  function KnnCrossValidation(h: Handler, k: int, kFolds: int, root: Root, rand: Source, pos: nat)
    : (r: Result<(seq<real>, seq<real>)>)
    requires Valid(h)
    ensures kFolds == 0 ==> r == Err(DivisionByZero)
    ensures var s := Stratify(h, kFolds, rand, pos);
      && (s.Err? ==> r == Err(s.error))
      && (r.Ok? ==> s.Ok? && |r.value.0| == Max0(kFolds) && |r.value.1| == Max0(kFolds)
                    && forall q :: 0 <= q < |s.value| ==> KnnFold(s.value, q, k, root) == Ok((r.value.0[q], r.value.1[q])))
      && (r.Err? && s.Ok? ==> exists q :: 0 <= q < |s.value| && KnnFold(s.value, q, k, root) == Err(r.error)
                                          && forall u :: 0 <= u < q ==> KnnFold(s.value, u, k, root).Ok?)
    ensures r.Ok? ==> forall q :: 0 <= q < |r.value.0| ==> 0.0 <= r.value.0[q] <= 1.0 && 0.0 < r.value.1[q] <= 1.0
  {
    var folds :- Stratify(h, kFolds, rand, pos);
    KnnFolds(folds, k, root)
  }

  /** Cross-validation succeeds exactly when stratifying does and every fold
      is scored. */
  lemma KnnCrossValidationOk(h: Handler, k: int, kFolds: int, root: Root, rand: Source, pos: nat)
    requires Valid(h)
    ensures KnnCrossValidation(h, k, kFolds, root, rand, pos).Ok? <==>
      var s := Stratify(h, kFolds, rand, pos);
      s.Ok? && forall q :: 0 <= q < |s.value| ==> KnnFold(s.value, q, k, root).Ok?
  {
    var s := Stratify(h, kFolds, rand, pos);
    if s.Ok? {
      KnnFoldsOk(s.value, k, root);
    }
  }

  // ---------------------------------------------------------------------
  // validate

  /** The four per-class counter dictionaries and the count of right
      predictions. */
  datatype Confusion = Confusion(
    correct: nat,
    tp: map<Value, nat>, tn: map<Value, nat>, fp: map<Value, nat>, fn: map<Value, nat>)

  /** The listed classes as a set. */
  function ClassSet(classes: seq<Value>): (s: set<Value>)
    ensures forall x :: x in s <==> x in classes
  {
    set x | x in classes
  }

  /** Every counter dictionary has exactly the classes as keys. */
  predicate Keyed(classes: seq<Value>, c: Confusion) {
    var s := ClassSet(classes);
    c.tp.Keys == s && c.tn.Keys == s && c.fp.Keys == s && c.fn.Keys == s
  }

  /** `validate`: every class's counter starts at 0. */
  function Start(classes: seq<Value>): (c: Confusion)
    ensures Keyed(classes, c) && c.correct == 0
    ensures forall x :: x in classes ==> c.tp[x] == 0 && c.tn[x] == 0 && c.fp[x] == 0 && c.fn[x] == 0
  {
    var zero := map x | x in classes :: 0;
    Confusion(0, zero, zero, zero, zero)
  }

  /** One `for a_class in classes` loop: the counter of each listed class
      `a` with `(a == pred) == same` goes up by one, as often as `a` is
      listed. */
  function Bump(classes: seq<Value>, m: map<Value, nat>, pred: Value, same: bool): (m': map<Value, nat>)
    requires forall a :: a in classes ==> a in m
    ensures m'.Keys == m.Keys
    ensures forall x :: x in m ==> m'[x] == m[x] + if (x == pred) == same then multiset(classes)[x] else 0
  {
    if |classes| == 0 then m
    else
      var a := classes[0];
      assert classes == [a] + classes[1..];
      var m1 := if (a == pred) == same then m[a := m[a] + 1] else m;
      Bump(classes[1..], m1, pred, same)
  }

  /** `validate` for one compared pair `(pred, actual)`. A right
      prediction bumps its class's true positives (a `KeyError` when it is
      not a class) and the true negatives of every other class; a wrong one
      bumps the false positives of the predicted class and the false
      negatives of every other class, whatever the actual label. */
  function Step(classes: seq<Value>, c: Confusion, pred: Value, actual: Value): (r: Result<Confusion>)
    requires Keyed(classes, c)
    ensures r.Err? <==> pred == actual && pred !in classes
    ensures r.Err? ==> r.error == MissingKey
    ensures r.Ok? ==> Keyed(classes, r.value)
    ensures r.Ok? ==> r.value.correct == c.correct + if pred == actual then 1 else 0
    ensures r.Ok? ==> forall x :: x in classes ==>
      var n := multiset(classes)[x];
      && r.value.tp[x] == c.tp[x] + (if pred == actual && x == pred then 1 else 0)
      && r.value.tn[x] == c.tn[x] + (if pred == actual && x != pred then n else 0)
      && r.value.fp[x] == c.fp[x] + (if pred != actual && x == pred then n else 0)
      && r.value.fn[x] == c.fn[x] + (if pred != actual && x != pred then n else 0)
  {
    if pred == actual then
      if pred !in c.tp then Err(MissingKey)
      else Ok(c.(correct := c.correct + 1, tp := c.tp[pred := c.tp[pred] + 1], tn := Bump(classes, c.tn, pred, false)))
    else
      Ok(c.(fp := Bump(classes, c.fp, pred, true), fn := Bump(classes, c.fn, pred, false)))
  }

  /** The whole comparison loop over the compared pairs, in order. */
  function Tabulate(classes: seq<Value>, pairs: seq<(Value, Value)>): (r: Result<Confusion>)
    ensures r.Err? ==> r.error == MissingKey
    ensures r.Ok? ==> Keyed(classes, r.value) && r.value.correct <= |pairs|
  {
    if |pairs| == 0 then Ok(Start(classes))
    else
      var n := |pairs| - 1;
      var c :- Tabulate(classes, pairs[..n]);
      Step(classes, c, pairs[n].0, pairs[n].1)
  }

  /** The loop raises a `KeyError` exactly when some right prediction's
      label is not a class. */
  lemma {:induction false} TabulateOk(classes: seq<Value>, pairs: seq<(Value, Value)>)
    ensures Tabulate(classes, pairs).Ok? <==>
      forall q :: 0 <= q < |pairs| && pairs[q].0 == pairs[q].1 ==> pairs[q].0 in classes
  {
    if |pairs| > 0 {
      var n := |pairs| - 1;
      TabulateOk(classes, pairs[..n]);
      assert forall q :: 0 <= q < n ==> pairs[..n][q] == pairs[q];
    }
  }

  /** The number of compared pairs whose two labels are equal. */
  function RightCount(pairs: seq<(Value, Value)>): (n: nat)
    ensures n <= |pairs|
  {
    if |pairs| == 0 then 0
    else RightCount(pairs[..|pairs| - 1]) + if pairs[|pairs| - 1].0 == pairs[|pairs| - 1].1 then 1 else 0
  }

  /** In `validate`, the right predictions are the compared pairs with
      equal labels. */
  lemma {:induction false} TabulateRight(classes: seq<Value>, pairs: seq<(Value, Value)>)
    requires Tabulate(classes, pairs).Ok?
    ensures Tabulate(classes, pairs).value.correct == RightCount(pairs)
  {
    if |pairs| > 0 {
      TabulateLast(classes, pairs);
      TabulateRight(classes, pairs[..|pairs| - 1]);
    }
  }

  /** `zip(predicted_samples, test_samples)`, reduced to the two labels. */
  function Compared(predicted: seq<(seq<Value>, Value)>, test: seq<Instance>): (pairs: seq<(Value, Value)>)
    ensures |pairs| == Min(|predicted|, |test|)
    ensures forall q :: 0 <= q < |pairs| ==> pairs[q] == (predicted[q].1, test[q].cls)
  {
    seq(Min(|predicted|, |test|), q requires 0 <= q < Min(|predicted|, |test|) => (predicted[q].1, test[q].cls))
  }

  /** The sum of a counter over the listed classes. */
  function SumOver(classes: seq<Value>, m: map<Value, nat>): nat
    requires forall a :: a in classes ==> a in m
  {
    if |classes| == 0 then 0 else m[classes[0]] + SumOver(classes[1..], m)
  }

  /** `validate`: a counter's total, summed over the classes, except
      that with at most two classes the loop stops after the first. */
  function Total(classes: seq<Value>, m: map<Value, nat>): nat
    requires forall a :: a in classes ==> a in m
  {
    if |classes| == 0 then 0
    else if |classes| <= 2 then m[classes[0]]
    else SumOver(classes, m)
  }

  /** The total never exceeds the sum over all classes, and falls short of
      it exactly when there are two classes and the second one's counter is
      not zero. */
  lemma TotalTruncates(classes: seq<Value>, m: map<Value, nat>)
    requires forall a :: a in classes ==> a in m
    ensures Total(classes, m) <= SumOver(classes, m)
    ensures Total(classes, m) < SumOver(classes, m) <==> |classes| == 2 && m[classes[1]] > 0
  {
  }

  datatype Measures = Measures(acc: real, recall: real, precision: real, f: real)

  /** `m` holds the statistics of `correct` right out of `n` predictions
      with true-positive, false-positive and false-negative totals `tp`,
      `fp` and `fn`: accuracy, micro recall and precision, and an F-measure
      that is 0 when `zeroF` and the harmonic mean of recall and precision
      otherwise, which needs a true positive. */
  predicate Measured(m: Measures, correct: nat, n: nat, tp: nat, fp: nat, fn: nat, zeroF: bool) {
    && n > 0 && tp + fn > 0 && tp + fp > 0
    && m.acc == correct as real / n as real
    && m.recall == tp as real / (tp + fn) as real
    && m.precision == tp as real / (tp + fp) as real
    && (if zeroF then m.f == 0.0 else tp > 0 && m.f == FMeasureOf(tp, fp, fn))
  }

  /** The statistics of `validate` over the counters of `n` predictions:
      accuracy, micro recall and precision, and the F-measure, which is 0
      when the guard holds. `validate` guards on no right prediction at
      all; the corrected guard is on a zero true-positive total. The
      written guard lets a right prediction through with a zero
      true-positive total, and then divides 0 by 0. */
  function Score(c: Confusion, classes: seq<Value>, n: nat, guardTp: bool): (r: Result<Measures>)
    requires Keyed(classes, c) && c.correct <= n
    ensures r.Err? ==> r.error == DivisionByZero
    ensures var ttp, tfp, tfn := Total(classes, c.tp), Total(classes, c.fp), Total(classes, c.fn);
      && (r.Ok? <==> n > 0 && ttp + tfn > 0 && ttp + tfp > 0 && (guardTp || c.correct == 0 || ttp > 0))
      && (r.Ok? ==> Measured(r.value, c.correct, n, ttp, tfp, tfn, if guardTp then ttp == 0 else c.correct == 0))
    ensures r.Ok? ==> && 0.0 <= r.value.acc <= 1.0 && 0.0 <= r.value.recall <= 1.0
                      && 0.0 <= r.value.precision <= 1.0 && 0.0 <= r.value.f <= 1.0
  {
    var acc :- Divide(c.correct as real, n as real);
    var ttp := Total(classes, c.tp);
    var tfp := Total(classes, c.fp);
    var tfn := Total(classes, c.fn);
    var rates :- Rates(ttp, tfp, tfn);
    RatesMeasure(ttp, tfp, tfn);
    var (rev, prec) := rates;
    var f :- if (if guardTp then ttp == 0 else c.correct == 0) then Ok(0.0)
             else FMeasure(prec, rev);
    Ok(Measures(acc, rev, prec, f))
  }

  /** `validate(predicted_samples, test_samples, classes)` as written: a
      right prediction whose label is not a class is a `KeyError`; no
      prediction, a zero recall or precision divisor, or a right prediction
      with no true-positive total is a division by zero; the accuracy is the
      share of right predictions, and the F-measure is 0 without one. */
  function Validate(predicted: seq<(seq<Value>, Value)>, test: seq<Instance>, classes: seq<Value>)
    : (r: Result<Measures>)
    ensures |predicted| == 0 ==> r == Err(DivisionByZero)
    ensures Tabulate(classes, Compared(predicted, test)).Err? ==> r == Err(MissingKey)
    ensures Tabulate(classes, Compared(predicted, test)).Ok? ==>
      var c := Tabulate(classes, Compared(predicted, test)).value;
      var ttp, tfp, tfn := Total(classes, c.tp), Total(classes, c.fp), Total(classes, c.fn);
      && (r.Ok? <==> |predicted| > 0 && ttp + tfn > 0 && ttp + tfp > 0 && (c.correct == 0 || ttp > 0))
      && (r.Ok? ==> Measured(r.value, c.correct, |predicted|, ttp, tfp, tfn, c.correct == 0))
    ensures r.Ok? ==> && 0.0 <= r.value.acc <= 1.0 && 0.0 <= r.value.recall <= 1.0
                      && 0.0 <= r.value.precision <= 1.0 && 0.0 <= r.value.f <= 1.0
  {
    var c :- Tabulate(classes, Compared(predicted, test));
    Score(c, classes, |predicted|, false)
  }

  /** `validate` with the F-measure guarded by the true-positive total, so
      that it fails only where accuracy, recall or precision divide by
      zero. */
  function ValidateGuarded(predicted: seq<(seq<Value>, Value)>, test: seq<Instance>, classes: seq<Value>)
    : (r: Result<Measures>)
    ensures |predicted| == 0 ==> r == Err(DivisionByZero)
    ensures Tabulate(classes, Compared(predicted, test)).Err? ==> r == Err(MissingKey)
    ensures Tabulate(classes, Compared(predicted, test)).Ok? ==>
      var c := Tabulate(classes, Compared(predicted, test)).value;
      var ttp, tfp, tfn := Total(classes, c.tp), Total(classes, c.fp), Total(classes, c.fn);
      && (r.Ok? <==> |predicted| > 0 && ttp + tfn > 0 && ttp + tfp > 0)
      && (r.Ok? ==> Measured(r.value, c.correct, |predicted|, ttp, tfp, tfn, ttp == 0))
    ensures r.Ok? ==> && 0.0 <= r.value.acc <= 1.0 && 0.0 <= r.value.recall <= 1.0
                      && 0.0 <= r.value.precision <= 1.0 && 0.0 <= r.value.f <= 1.0
  {
    var c :- Tabulate(classes, Compared(predicted, test));
    Score(c, classes, |predicted|, true)
  }

  /** How a compared pair counts for class `x`: a right prediction is a
      true positive of its own class and a true negative of every other; a
      wrong one is a false positive of the predicted class and a false
      negative of every other. */
  function ValidateCell(x: Value, pred: Value, actual: Value): Cell {
    if pred == actual then (if pred == x then TP else TN)
    else if pred == x then FP else FN
  }

  function ValidateCells(x: Value, pairs: seq<(Value, Value)>): (cells: seq<Cell>)
    ensures |cells| == |pairs|
    ensures forall q :: 0 <= q < |pairs| ==> cells[q] == ValidateCell(x, pairs[q].0, pairs[q].1)
  {
    seq(|pairs|, q requires 0 <= q < |pairs| => ValidateCell(x, pairs[q].0, pairs[q].1))
  }

  lemma NoDupOnce(classes: seq<Value>, x: Value)
    requires NoDup(classes) && x in classes
    ensures multiset(classes)[x] == 1
  {
    NoDupCounts(classes);
  }

  /** The last compared pair is one more step of the loop. */
  lemma TabulateLast(classes: seq<Value>, pairs: seq<(Value, Value)>)
    requires |pairs| > 0 && Tabulate(classes, pairs).Ok?
    ensures var n := |pairs| - 1; var prev := Tabulate(classes, pairs[..n]);
      && prev.Ok? && Keyed(classes, prev.value)
      && Tabulate(classes, pairs) == Step(classes, prev.value, pairs[n].0, pairs[n].1)
  {
  }

  lemma ValidateCellsLast(x: Value, pairs: seq<(Value, Value)>)
    requires |pairs| > 0
    ensures var n := |pairs| - 1;
      ValidateCells(x, pairs) == ValidateCells(x, pairs[..n]) + [ValidateCell(x, pairs[n].0, pairs[n].1)]
  {
  }

  lemma OccursLast(cells: seq<Cell>, last: Cell)
    ensures forall cell :: Occurs(cells + [last], cell) == Occurs(cells, cell) + if last == cell then 1 else 0
  {
  }

  /** The counts of class `x` after `cells`: each counter counts the cells
      of its kind, the right predictions are the true positives and
      negatives, and the four counters together count every cell once. */
  predicate CountsAre(c: Confusion, x: Value, cells: seq<Cell>)
    requires x in c.tp && x in c.tn && x in c.fp && x in c.fn
  {
    && c.tp[x] == Occurs(cells, TP) && c.tn[x] == Occurs(cells, TN)
    && c.fp[x] == Occurs(cells, FP) && c.fn[x] == Occurs(cells, FN)
    && c.correct == Occurs(cells, TP) + Occurs(cells, TN)
    && c.tp[x] + c.tn[x] + c.fp[x] + c.fn[x] == |cells|
  }

  /** One step of the loop counts the pair for a class listed once. */
  lemma CountsStep(classes: seq<Value>, prev: Confusion, next: Confusion, pred: Value, actual: Value,
                   x: Value, cells: seq<Cell>)
    requires Keyed(classes, prev) && Step(classes, prev, pred, actual) == Ok(next)
    requires multiset(classes)[x] == 1 && x in classes
    requires CountsAre(prev, x, cells)
    ensures Keyed(classes, next) && CountsAre(next, x, cells + [ValidateCell(x, pred, actual)])
  {
    var cell := ValidateCell(x, pred, actual);
    OccursLast(cells, cell);
    assert x in classes;
    if pred == actual && x == pred {
      assert next.tp[x] == prev.tp[x] + 1 && next.tn[x] == prev.tn[x];
    } else if pred == actual {
      assert next.tn[x] == prev.tn[x] + 1 && next.tp[x] == prev.tp[x];
    } else if x == pred {
      assert next.fp[x] == prev.fp[x] + 1 && next.fn[x] == prev.fn[x];
    } else {
      assert next.fn[x] == prev.fn[x] + 1 && next.fp[x] == prev.fp[x];
    }
  }

  /** For a class listed once, each counter counts the pairs of its kind,
      the right predictions are its true positives and negatives, and the
      four counters together count every compared pair once. */
  lemma {:induction false} TabulateCells(classes: seq<Value>, pairs: seq<(Value, Value)>, x: Value)
    requires Tabulate(classes, pairs).Ok? && NoDup(classes) && x in classes
    ensures CountsAre(Tabulate(classes, pairs).value, x, ValidateCells(x, pairs))
  {
    NoDupOnce(classes, x);
    if |pairs| == 0 {
      assert ValidateCells(x, pairs) == [];
    } else {
      var n := |pairs| - 1;
      TabulateLast(classes, pairs);
      TabulateCells(classes, pairs[..n], x);
      ValidateCellsLast(x, pairs);
      var cells := ValidateCells(x, pairs[..n]);
      var last := ValidateCell(x, pairs[n].0, pairs[n].1);
      CountsStep(classes, Tabulate(classes, pairs[..n]).value, Tabulate(classes, pairs).value,
        pairs[n].0, pairs[n].1, x, cells);
      OccursLast(cells, last);
    }
  }

  /** One step of the loop keeps the true positives summing to the right
      predictions, over classes listed once. */
  lemma CorrectStep(classes: seq<Value>, prev: Confusion, next: Confusion, pred: Value, actual: Value)
    requires Keyed(classes, prev) && Step(classes, prev, pred, actual) == Ok(next) && NoDup(classes)
    requires SumOver(classes, prev.tp) == prev.correct
    ensures SumOver(classes, next.tp) == next.correct
  {
    SumOverStep(classes, prev.tp, next.tp, pred, pred == actual);
    if pred == actual {
      NoDupOnce(classes, pred);
    }
  }

  /** Adding one to the entry of `x` (when `bump` holds) adds the number of
      times `x` is listed to the sum. */
  lemma {:induction false} SumOverStep(classes: seq<Value>, m: map<Value, nat>, m': map<Value, nat>, x: Value, bump: bool)
    requires forall a :: a in classes ==> a in m && a in m' && m'[a] == m[a] + if bump && a == x then 1 else 0
    ensures SumOver(classes, m') == SumOver(classes, m) + if bump then multiset(classes)[x] else 0
  {
    if |classes| > 0 {
      assert classes == [classes[0]] + classes[1..];
      SumOverStep(classes[1..], m, m', x, bump);
    }
  }

  /** In `validate`, over classes listed once, the true positives add up
      to the right predictions. */
  lemma {:induction false} TabulateCorrect(classes: seq<Value>, pairs: seq<(Value, Value)>)
    requires Tabulate(classes, pairs).Ok? && NoDup(classes)
    ensures SumOver(classes, Tabulate(classes, pairs).value.tp) == Tabulate(classes, pairs).value.correct
  {
    if |pairs| == 0 {
      StartSum(classes, classes);
    } else {
      var n := |pairs| - 1;
      TabulateCorrect(classes, pairs[..n]);
      TabulateLast(classes, pairs);
      CorrectStep(classes, Tabulate(classes, pairs[..n]).value, Tabulate(classes, pairs).value,
        pairs[n].0, pairs[n].1);
    }
  }

  lemma {:induction false} StartSum(classes: seq<Value>, listed: seq<Value>)
    requires forall a :: a in listed ==> a in classes
    ensures SumOver(listed, Start(classes).tp) == 0
  {
    if |listed| > 0 {
      assert listed[0] in classes;
      StartSum(classes, listed[1..]);
    }
  }

  /** While no prediction was right, no class has a true positive. */
  lemma {:induction false} NoneRight(classes: seq<Value>, pairs: seq<(Value, Value)>)
    requires Tabulate(classes, pairs).Ok? && Tabulate(classes, pairs).value.correct == 0
    ensures forall x :: x in classes ==> Tabulate(classes, pairs).value.tp[x] == 0
  {
    if |pairs| > 0 {
      var n := |pairs| - 1;
      TabulateLast(classes, pairs);
      NoneRight(classes, pairs[..n]);
    }
  }

  lemma {:induction false} SumOverZero(classes: seq<Value>, m: map<Value, nat>)
    requires forall a :: a in classes ==> a in m && m[a] == 0
    ensures SumOver(classes, m) == 0
  {
    if |classes| > 0 {
      SumOverZero(classes[1..], m);
    }
  }

  /** Without a right prediction the true-positive total is zero, so the
      two guards agree there. */
  lemma NoneRightTotal(classes: seq<Value>, pairs: seq<(Value, Value)>)
    requires Tabulate(classes, pairs).Ok? && Tabulate(classes, pairs).value.correct == 0
    ensures Total(classes, Tabulate(classes, pairs).value.tp) == 0
  {
    NoneRight(classes, pairs);
    SumOverZero(classes, Tabulate(classes, pairs).value.tp);
  }

  /** The two guards give the same scores except where the written one
      divides zero by zero: there the guarded F-measure is 0. */
  lemma ScoreGuards(c: Confusion, classes: seq<Value>, n: nat)
    requires Keyed(classes, c) && c.correct <= n
    requires c.correct == 0 ==> Total(classes, c.tp) == 0
    ensures Score(c, classes, n, false).Ok? ==> Score(c, classes, n, true) == Score(c, classes, n, false)
    ensures Score(c, classes, n, true).Err? ==> Score(c, classes, n, false) == Score(c, classes, n, true)
    ensures Score(c, classes, n, false).Err? && Score(c, classes, n, true).Ok? ==>
      c.correct > 0 && Total(classes, c.tp) == 0 && Score(c, classes, n, true).value.f == 0.0
  {
  }

  /** Wherever `validate` returns scores the corrected version returns the
      same ones, and wherever the corrected version fails `validate` fails
      the same way; they differ only where `validate` divides zero by zero
      in its F-measure, which the corrected version reports as 0. */
  lemma GuardedAgrees(predicted: seq<(seq<Value>, Value)>, test: seq<Instance>, classes: seq<Value>)
    ensures Validate(predicted, test, classes).Ok? ==>
      ValidateGuarded(predicted, test, classes) == Validate(predicted, test, classes)
    ensures ValidateGuarded(predicted, test, classes).Err? ==>
      Validate(predicted, test, classes) == ValidateGuarded(predicted, test, classes)
    ensures Validate(predicted, test, classes).Err? && ValidateGuarded(predicted, test, classes).Ok? ==>
      ValidateGuarded(predicted, test, classes).value.f == 0.0
  {
    var pairs := Compared(predicted, test);
    if Tabulate(classes, pairs).Ok? {
      var c := Tabulate(classes, pairs).value;
      if c.correct == 0 {
        NoneRightTotal(classes, pairs);
      }
      ScoreGuards(c, classes, |predicted|);
    }
  }

  /** With three or more classes listed once, the true-positive total is
      the number of right predictions, so the two guards coincide. */
  lemma ManyClassesAgree(predicted: seq<(seq<Value>, Value)>, test: seq<Instance>, classes: seq<Value>)
    requires NoDup(classes) && |classes| >= 3
    ensures Validate(predicted, test, classes) == ValidateGuarded(predicted, test, classes)
  {
    var pairs := Compared(predicted, test);
    if Tabulate(classes, pairs).Ok? {
      var c := Tabulate(classes, pairs).value;
      TabulateCorrect(classes, pairs);
      assert Total(classes, c.tp) == c.correct;
      ScoreSameGuard(c, classes, |predicted|);
    }
  }

  /** When the true-positive total is the number of right predictions, the
      two guards are the same test. */
  lemma ScoreSameGuard(c: Confusion, classes: seq<Value>, n: nat)
    requires Keyed(classes, c) && c.correct <= n && Total(classes, c.tp) == c.correct
    ensures Score(c, classes, n, false) == Score(c, classes, n, true)
  {
  }

  /** Two classes `a` and `b`, one right prediction of `b` and two wrong
      ones: class `a` has no true positive, one false positive and one
      false negative, so recall and precision are both 0 while one
      prediction is right. `validate` then divides 0 by 0 for the
      F-measure; the corrected version scores F = 0. */
  lemma ValidateCounterexample(a: Value, b: Value)
    requires a != b
    ensures var predicted := [([], b), ([], b), ([], a)];
      var test := [Instance([], b), Instance([], a), Instance([], b)];
      && Validate(predicted, test, [a, b]) == Err(DivisionByZero)
      && ValidateGuarded(predicted, test, [a, b]).Ok?
      && ValidateGuarded(predicted, test, [a, b]).value.f == 0.0
  {
    var predicted: seq<(seq<Value>, Value)> := [([], b), ([], b), ([], a)];
    var test := [Instance([], b), Instance([], a), Instance([], b)];
    assert Compared(predicted, test) == [(b, b), (b, a), (a, b)];
    CounterTable(a, b);
    CounterScore(Tabulate([a, b], [(b, b), (b, a), (a, b)]).value, a, b);
  }

  /** The counters of the counterexample's comparison loop. */
  lemma CounterTable(a: Value, b: Value)
    requires a != b
    ensures var r := Tabulate([a, b], [(b, b), (b, a), (a, b)]);
      r.Ok? && r.value.tp[a] == 0 && r.value.fp[a] == 1 && r.value.fn[a] == 1 && r.value.correct == 1
  {
    var classes := [a, b];
    assert multiset(classes)[a] == 1;
    var p1 := [(b, b)];
    var p2 := p1 + [(b, a)];
    var p3 := p2 + [(a, b)];
    TabulateSnoc(classes, [], (b, b));
    assert [] + [(b, b)] == p1;
    StepAt(classes, Tabulate(classes, []).value, b, b, a);
    var c1 := Tabulate(classes, p1).value;
    TabulateSnoc(classes, p1, (b, a));
    StepAt(classes, c1, b, a, a);
    var c2 := Tabulate(classes, p2).value;
    TabulateSnoc(classes, p2, (a, b));
    StepAt(classes, c2, a, b, a);
    Three((b, b), (b, a), (a, b));
  }

  /** One step, seen from a class `x` listed once. */
  lemma StepAt(classes: seq<Value>, c: Confusion, pred: Value, actual: Value, x: Value)
    requires Keyed(classes, c) && x in classes && multiset(classes)[x] == 1
    requires pred == actual ==> pred in classes
    ensures var r := Step(classes, c, pred, actual);
      && r.Ok?
      && r.value.tp[x] == c.tp[x] + (if pred == actual && x == pred then 1 else 0)
      && r.value.fp[x] == c.fp[x] + (if pred != actual && x == pred then 1 else 0)
      && r.value.fn[x] == c.fn[x] + (if pred != actual && x != pred then 1 else 0)
      && r.value.correct == c.correct + (if pred == actual then 1 else 0)
  {
  }

  lemma Three<T>(x: T, y: T, z: T)
    ensures [x] + [y] + [z] == [x, y, z]
  {
  }

  /** The loop over `pairs + [p]` is the loop over `pairs` and one more step. */
  lemma TabulateSnoc(classes: seq<Value>, pairs: seq<(Value, Value)>, p: (Value, Value))
    ensures var prev := Tabulate(classes, pairs);
      Tabulate(classes, pairs + [p]) == if prev.Ok? then Step(classes, prev.value, p.0, p.1) else prev
  {
    assert (pairs + [p])[..|pairs|] == pairs;
  }

  /** The scores of the counterexample's counters. */
  lemma CounterScore(c: Confusion, a: Value, b: Value)
    requires Keyed([a, b], c)
    requires c.tp[a] == 0 && c.fp[a] == 1 && c.fn[a] == 1 && c.correct == 1
    ensures Score(c, [a, b], 3, false) == Err(DivisionByZero)
    ensures Score(c, [a, b], 3, true).Ok? && Score(c, [a, b], 3, true).value.f == 0.0
  {
  }

  /** The counterexample with the binary labels 0 and 1. */
  lemma BinaryCounterexample()
    ensures var predicted := [([], Num(1.0)), ([], Num(1.0)), ([], Num(0.0))];
      var test := [Instance([], Num(1.0)), Instance([], Num(0.0)), Instance([], Num(1.0))];
      && Validate(predicted, test, [Num(0.0), Num(1.0)]) == Err(DivisionByZero)
      && ValidateGuarded(predicted, test, [Num(0.0), Num(1.0)]).Ok?
  {
    ValidateCounterexample(Num(0.0), Num(1.0));
  }
}

=== FILE: handler.dfy ===
/** The tabular data set (data/handler.py, class `DataHandler`): a header,
    the data records as raw text and the class attribute. The original
    keeps both the raw records and their coerced columns; this model keeps
    the raw records and derives every coerced view from them, which is
    what each operation of the original does when it rebuilds a handler
    from `as_raw_data()`. */
module DataHandler {
  import opened Results
  import opened Seqs
  import opened Cells

  /** The text cells of one line of the table. */
  type Row = seq<string>

  datatype Handler = Handler(header: Row, rows: seq<Row>, classAttr: string)

  /** One entry of `as_instances`: attribute values and classification. */
  datatype Instance = Instance(values: seq<Value>, cls: Value)

  /** Every record has a cell under every header position. */
  predicate Covers(rows: seq<Row>, width: nat) {
    forall i :: 0 <= i < |rows| ==> width <= |rows[i]|
  }

  /** What a successful constructor call establishes. */
  predicate Valid(h: Handler) {
    h.classAttr in h.header && Covers(h.rows, |h.header|)
  }

  // ---------------------------------------------------------------------
  // Construction and the raw view

  /** `as_raw_data`: the header line followed by the records. */
  function AsRawData(h: Handler): (raw: seq<Row>)
    ensures |raw| == |h.rows| + 1
  {
    [h.header] + h.rows
  }

  /** The constructor: the first line is the header, the class attribute
      must be one of its names and every record must reach the last header
      position (extra trailing cells are kept but never read). */
  function New(raw: seq<Row>, classAttr: string): (r: Result<Handler>)
    ensures r.Ok? <==> |raw| > 0 && classAttr in raw[0] && Covers(raw[1..], |raw[0]|)
    ensures r.Ok? ==> Valid(r.value) && r.value.classAttr == classAttr && AsRawData(r.value) == raw
    ensures |raw| == 0 ==> r == Err(EmptyTable)
    ensures |raw| > 0 && classAttr !in raw[0] ==> r == Err(UnknownClassAttribute)
    ensures |raw| > 0 && classAttr in raw[0] && r.Err? ==> r == Err(ShortRow)
  {
    if |raw| == 0 then Err(EmptyTable)
    else if classAttr !in raw[0] then Err(UnknownClassAttribute)
    else if !Covers(raw[1..], |raw[0]|) then Err(ShortRow)
    else Ok(Handler(raw[0], raw[1..], classAttr))
  }

  /** Rebuilding a handler from its raw data gives the same handler. */
  lemma RawDataRoundTrip(h: Handler)
    requires Valid(h)
    ensures New(AsRawData(h), h.classAttr) == Ok(h)
  {
    assert AsRawData(h)[1..] == h.rows;
  }

  /** The header position of the class attribute (its first occurrence). */
  function ClassIndex(h: Handler): (k: nat)
    requires Valid(h)
    ensures k < |h.header| && h.header[k] == h.classAttr
    ensures forall j :: 0 <= j < k ==> h.header[j] != h.classAttr
  {
    IndexOf(h.header, h.classAttr)
  }

  /** `attributes()`: the header with the first occurrence of the class
      attribute removed. */
  function Attributes(h: Handler): (a: seq<string>)
    requires Valid(h)
    ensures |a| == |h.header| - 1
    ensures h.header == a[..ClassIndex(h)] + [h.classAttr] + a[ClassIndex(h)..]
  {
    RemoveFirst(h.header, h.classAttr)
  }

  /** With the class attribute in the last position, the attributes are
      the other header names in header order. */
  lemma AttributesClassLast(h: Handler)
    requires Valid(h) && ClassIndex(h) == |h.header| - 1
    ensures Attributes(h) == h.header[..|h.header| - 1]
  {
    var a := Attributes(h);
    assert a[..ClassIndex(h)] == a;
    assert h.header == a + [h.classAttr];
  }

  // ---------------------------------------------------------------------
  // Coerced views

  /** The coerced column at header position `j` (one tuple of `by_attributes()`). */
  function Column(h: Handler, j: nat): (c: seq<Value>)
    requires Valid(h) && j < |h.header|
    ensures |c| == |h.rows|
    ensures forall i :: 0 <= i < |c| ==> c[i] == Coerce(h.rows[i][j])
  {
    seq(|h.rows|, i requires 0 <= i < |h.rows| => Coerce(h.rows[i][j]))
  }

  /** `by_attributes()`: one coerced column per header position. */
  function ByAttributes(h: Handler): (cols: seq<seq<Value>>)
    requires Valid(h)
    ensures |cols| == |h.header|
    ensures forall j :: 0 <= j < |cols| ==> cols[j] == Column(h, j)
  {
    seq(|h.header|, j requires 0 <= j < |h.header| => Column(h, j))
  }

  /** Coercion only ever sees stripped text: a record cell padded with white
      space gives the same column entry as the stripped cell. */
  lemma ColumnIgnoresPadding(h: Handler, i: nat, j: nat)
    requires Valid(h) && i < |h.rows| && j < |h.header|
    ensures Column(h, j)[i] == Coerce(Strip(h.rows[i][j]))
  {
    CoerceStripped(h.rows[i][j]);
  }

  /** `as_instances()` for one record. The values are the columns at header
      positions 0 .. |attributes()| - 1, exactly as the original indexes
      `by_attributes()` with attribute positions; the label is the class
      column. */
  function InstanceAt(h: Handler, i: nat): (x: Instance)
    requires Valid(h) && i < |h.rows|
    ensures RecordInstance(h, i, x)
  {
    var n := |h.header| - 1;
    Instance(seq(n, a requires 0 <= a < n => Coerce(h.rows[i][a])), Coerce(h.rows[i][ClassIndex(h)]))
  }

  /** `x` is record `i` as an instance: one value per attribute, value `a`
      taken from column `a`, and the label from the class column. */
  predicate RecordInstance(h: Handler, i: nat, x: Instance)
    requires Valid(h) && i < |h.rows|
  {
    && |x.values| == |Attributes(h)|
    && (forall a :: 0 <= a < |x.values| ==> x.values[a] == Column(h, a)[i])
    && x.cls == Column(h, ClassIndex(h))[i]
  }

  function AsInstances(h: Handler): (r: seq<Instance>)
    requires Valid(h)
    ensures |r| == |h.rows|
    ensures forall i :: 0 <= i < |r| ==> RecordInstance(h, i, r[i])
  {
    seq(|h.rows|, i requires 0 <= i < |h.rows| => InstanceAt(h, i))
  }

  /** The labels of the instances, in record order. */
  function Labels(h: Handler): (ls: seq<Value>)
    requires Valid(h)
    ensures |ls| == |h.rows|
    ensures forall i :: 0 <= i < |ls| ==> ls[i] == AsInstances(h)[i].cls
  {
    Column(h, ClassIndex(h))
  }

  /** With the class attribute last, instance value `a` is the record's value
      for attribute `a`. */
  lemma InstancesClassLast(h: Handler, i: nat, a: nat)
    requires Valid(h) && ClassIndex(h) == |h.header| - 1
    requires i < |h.rows| && a < |Attributes(h)|
    ensures Attributes(h)[a] == h.header[a]
    ensures AsInstances(h)[i].values[a] == Column(h, a)[i]
  {
    AttributesClassLast(h);
  }

  /** With the class attribute anywhere but last, every instance carries its
      own label among its values and the last header column is never read. */
  lemma InstancesRepeatLabel(h: Handler, i: nat)
    requires Valid(h) && ClassIndex(h) < |h.header| - 1 && i < |h.rows|
    ensures AsInstances(h)[i].values[ClassIndex(h)] == AsInstances(h)[i].cls
    ensures |AsInstances(h)[i].values| == |h.header| - 1
  {
  }

  // ---------------------------------------------------------------------
  // by_class_attr_values

  function Keys<K, V>(groups: seq<(K, V)>): (ks: seq<K>)
    ensures |ks| == |groups|
    ensures forall g :: 0 <= g < |groups| ==> ks[g] == groups[g].0
  {
    seq(|groups|, g requires 0 <= g < |groups| => groups[g].0)
  }

  /** Indices grouped by label, labels in order of first appearance: the
      dictionary `by_class_attr_values` builds. */
  function Partition(labels: seq<Value>): (groups: seq<(Value, seq<nat>)>)
    ensures NoDup(Keys(groups))
    ensures forall x :: x in Keys(groups) <==> x in labels
    ensures forall g, k :: 0 <= g < |groups| && 0 <= k < |groups[g].1| ==>
      groups[g].1[k] < |labels| && labels[groups[g].1[k]] == groups[g].0
    ensures forall g, i {:trigger i in groups[g].1} :: 0 <= g < |groups| && 0 <= i < |labels| && labels[i] == groups[g].0 ==>
      i in groups[g].1
    ensures forall g :: 0 <= g < |groups| ==> Increasing(groups[g].1)
  {
    var ks := Distinct(labels);
    var groups := seq(|ks|, g requires 0 <= g < |ks| => (ks[g], IndicesOf(labels, ks[g])));
    assert Keys(groups) == ks;
    groups
  }

  function ByClassAttrValues(h: Handler): (groups: seq<(Value, seq<nat>)>)
    requires Valid(h)
    ensures groups == Partition(Labels(h))
  {
    Partition(Labels(h))
  }

  /** The groups' keys appear in the order of their first record. */
  lemma PartitionInOrder(labels: seq<Value>)
    ensures forall g1, g2 :: 0 <= g1 < g2 < |Partition(labels)| ==>
      IndexOf(labels, Partition(labels)[g1].0) < IndexOf(labels, Partition(labels)[g2].0)
  {
    DistinctInOrder(labels);
    assert Keys(Partition(labels)) == Distinct(labels);
  }

  // ---------------------------------------------------------------------
  // get_average_for_attr

  predicate AllNum(c: seq<Value>) {
    forall i :: 0 <= i < |c| ==> c[i].Num?
  }

  /** The running total `average += item`, left to right. */
  function Sum(c: seq<Value>): real
    requires AllNum(c)
  {
    if |c| == 0 then 0.0 else Sum(c[..|c| - 1]) + c[|c| - 1].x
  }

  /** Position that `get_average_for_attr` (and `filter_by_attr_value` and
      `discretize`) reads for an attribute: its position in `attributes()`,
      used as a header position. */
  function AttrColumn(h: Handler, attr: string): (p: nat)
    requires Valid(h) && attr in Attributes(h)
    ensures p < |h.header| - 1 && Attributes(h)[p] == attr
  {
    IndexOf(Attributes(h), attr)
  }

  /** `get_average_for_attr`: the mean of the attribute's column. */
  function AttrMean(h: Handler, attr: string): (r: Result<real>)
    requires Valid(h)
    ensures attr !in Attributes(h) ==> r == Err(UnknownAttribute)
    ensures r.Ok? ==> |h.rows| > 0 && AllNum(Column(h, AttrColumn(h, attr)))
    ensures attr in Attributes(h) && r.Err? ==>
      (|h.rows| == 0 && r.error == DivisionByZero) ||
      (!AllNum(Column(h, AttrColumn(h, attr))) && r.error == TypeMismatch)
  {
    if attr !in Attributes(h) then Err(UnknownAttribute)
    else
      var c := Column(h, AttrColumn(h, attr));
      if !AllNum(c) then Err(TypeMismatch)
      else if |c| == 0 then Err(DivisionByZero)
      else Ok(Sum(c) / |c| as real)
  }

  lemma {:induction false} SumBounds(c: seq<Value>, lo: real, hi: real)
    requires AllNum(c)
    requires forall i :: 0 <= i < |c| ==> lo <= c[i].x <= hi
    ensures |c| as real * lo <= Sum(c) <= |c| as real * hi
  {
    if |c| > 0 {
      var init := c[..|c| - 1];
      assert forall i :: 0 <= i < |init| ==> init[i] == c[i];
      SumBounds(init, lo, hi);
      assert Sum(c) == Sum(init) + c[|c| - 1].x;
      assert |c| as real * lo == |init| as real * lo + lo;
      assert |c| as real * hi == |init| as real * hi + hi;
    }
  }

  lemma MeanOfBounds(c: seq<Value>, lo: real, hi: real)
    requires AllNum(c) && |c| > 0
    requires forall i :: 0 <= i < |c| ==> lo <= c[i].x <= hi
    ensures lo <= Sum(c) / |c| as real <= hi
  {
    SumBounds(c, lo, hi);
    var n := |c| as real;
    assert Sum(c) / n * n == Sum(c);
  }

  /** The mean lies between any lower and upper bound of the column. */
  lemma MeanBetween(h: Handler, attr: string, lo: real, hi: real)
    requires Valid(h) && AttrMean(h, attr).Ok?
    requires forall i :: 0 <= i < |h.rows| ==> lo <= Column(h, AttrColumn(h, attr))[i].x <= hi
    ensures lo <= AttrMean(h, attr).value <= hi
  {
    var c := Column(h, AttrColumn(h, attr));
    MeanOfBounds(c, lo, hi);
  }

  // ---------------------------------------------------------------------
  // filter_by_attr_value

  /** The entries of `xs` at the positions `idx`, in that order. */
  function Pick<T>(xs: seq<T>, idx: seq<nat>): (r: seq<T>)
    requires forall k :: 0 <= k < |idx| ==> idx[k] < |xs|
    ensures |r| == |idx|
    ensures forall k :: 0 <= k < |idx| ==> r[k] == xs[idx[k]]
  {
    seq(|idx|, k requires 0 <= k < |idx| => xs[idx[k]])
  }

  /** The positions of the records `filter_by_attr_value` keeps: those whose
      cell at the attribute's position coerces to `v`, ascending. */
  function Kept(h: Handler, attr: string, v: Value): (idx: seq<nat>)
    requires Valid(h) && attr in Attributes(h)
    ensures forall k :: 0 <= k < |idx| ==> idx[k] < |h.rows| && Column(h, AttrColumn(h, attr))[idx[k]] == v
    ensures forall i {:trigger i in idx} :: 0 <= i < |h.rows| && Column(h, AttrColumn(h, attr))[i] == v ==> i in idx
    ensures Increasing(idx)
  {
    IndicesOf(Column(h, AttrColumn(h, attr)), v)
  }

  /** `filter_by_attr_value`: a handler with only the records whose value
      for the attribute's column equals `value`, in their original order. */
  function FilterByAttrValue(h: Handler, attr: string, v: Value): (r: Result<Handler>)
    requires Valid(h)
    ensures r.Err? <==> attr !in Attributes(h)
    ensures r.Err? ==> r.error == UnknownAttribute
    ensures r.Ok? ==> Valid(r.value) && r.value.header == h.header && r.value.classAttr == h.classAttr
    ensures r.Ok? ==> forall k :: 0 <= k < |r.value.rows| ==> Column(r.value, AttrColumn(h, attr))[k] == v
    ensures r.Ok? ==> r.value.rows == Pick(h.rows, Kept(h, attr, v))
  {
    if attr !in Attributes(h) then Err(UnknownAttribute)
    else
      var rows := Pick(h.rows, Kept(h, attr, v));
      KeptRows(h, attr, v);
      Ok(Handler(h.header, rows, h.classAttr))
  }

  /** The kept records cover the header and hold `v` at the attribute. */
  lemma KeptRows(h: Handler, attr: string, v: Value)
    requires Valid(h) && attr in Attributes(h)
    ensures var f := Handler(h.header, Pick(h.rows, Kept(h, attr, v)), h.classAttr);
      Valid(f) && forall k :: 0 <= k < |f.rows| ==> Column(f, AttrColumn(h, attr))[k] == v
  {
    var idx := Kept(h, attr, v);
    var p := AttrColumn(h, attr);
    var f := Handler(h.header, Pick(h.rows, idx), h.classAttr);
    assert Covers(f.rows, |h.header|) by {
      forall i | 0 <= i < |f.rows|
        ensures |h.header| <= |f.rows[i]|
      {
        assert f.rows[i] == h.rows[idx[i]];
      }
    }
    forall k | 0 <= k < |f.rows|
      ensures Column(f, p)[k] == v
    {
      assert f.rows[k] == h.rows[idx[k]];
      assert Column(h, p)[idx[k]] == v;
    }
  }

  function Range(n: nat): (r: seq<nat>)
    ensures |r| == n && forall k :: 0 <= k < n ==> r[k] == k
  {
    seq(n, k => k)
  }

  /** A sequence of nothing but `x` keeps every position. */
  lemma {:induction false} IndicesOfConstant<T>(s: seq<T>, x: T)
    requires forall i :: 0 <= i < |s| ==> s[i] == x
    ensures IndicesOf(s, x) == Range(|s|)
  {
    if |s| > 0 {
      IndicesOfConstant(s[..|s| - 1], x);
      assert Range(|s|) == Range(|s| - 1) + [|s| - 1];
    }
  }

  /** When every record matches, the filter keeps the handler as it is. */
  lemma FilterAllMatching(h: Handler, attr: string, v: Value)
    requires Valid(h) && attr in Attributes(h)
    requires forall k :: 0 <= k < |h.rows| ==> Column(h, AttrColumn(h, attr))[k] == v
    ensures FilterByAttrValue(h, attr, v) == Ok(h)
  {
    IndicesOfConstant(Column(h, AttrColumn(h, attr)), v);
    assert Pick(h.rows, Range(|h.rows|)) == h.rows;
  }

  /** Filtering twice by the same attribute value is filtering once. */
  lemma FilterIdempotent(h: Handler, attr: string, v: Value)
    requires Valid(h) && attr in Attributes(h)
    ensures FilterByAttrValue(h, attr, v).Ok?
    ensures FilterByAttrValue(FilterByAttrValue(h, attr, v).value, attr, v) == FilterByAttrValue(h, attr, v)
  {
    var h1 := FilterByAttrValue(h, attr, v).value;
    assert Attributes(h1) == Attributes(h) && AttrColumn(h1, attr) == AttrColumn(h, attr);
    FilterAllMatching(h1, attr, v);
  }

  /** With the class attribute last, filtering reads the named column. */
  lemma FilterClassLast(h: Handler, attr: string)
    requires Valid(h) && ClassIndex(h) == |h.header| - 1 && attr in Attributes(h)
    ensures h.header[AttrColumn(h, attr)] == attr
  {
    AttributesClassLast(h);
  }

  // ---------------------------------------------------------------------
  // discretize

  /** The header position `discretize` writes for the attribute named at
      position `w`: the first occurrence of that name. */
  predicate Named(h: Handler, w: nat)
    requires Valid(h) && w < |h.header|
  {
    h.header[w] in Attributes(h) && IndexOf(h.header, h.header[w]) == w
  }

  /** A column `discretize` rewrites: the first header position of an
      attribute whose mean exists. */
  predicate Targeted(h: Handler, w: nat)
    requires Valid(h) && w < |h.header|
  {
    Named(h, w) && AllNum(Column(h, AttrColumn(h, h.header[w]))) && |h.rows| > 0
  }

  /** The mean rounded to three decimals, in thousandths: the value of
      `float("{0:.3f}".format(average))` times 1000. */
  function Threshold(c: seq<Value>): (m: int)
    requires AllNum(c) && |c| > 0
    ensures var mean := Sum(c) / |c| as real;
      mean - 0.0005 <= m as real / 1000.0 <= mean + 0.0005
  {
    RoundHalfEven(1000.0 * (Sum(c) / |c| as real))
  }

  /** The text written for a value `x` against a threshold in thousandths. */
  function Label(m: int, x: real): string {
    if x <= m as real / 1000.0 then "<=" + FormatMillis(m) else ">" + FormatMillis(m)
  }

  function DiscretizeRow(h: Handler, i: nat): (row: Row)
    requires Valid(h) && i < |h.rows|
    ensures |row| == |h.rows[i]|
  {
    var raw := h.rows[i];
    seq(|raw|, w requires 0 <= w < |raw| =>
      if w < |h.header| && Targeted(h, w) then
        var p := AttrColumn(h, h.header[w]);
        var c := Column(h, p);
        Label(Threshold(c), c[i].x)
      else raw[w])
  }

  /** `discretize`: every attribute whose column is numeric is replaced by
      "<=t" / ">t" labels against its mean t; a mean over no records divides
      by zero. */
  function Discretize(h: Handler): (r: Result<Handler>)
    requires Valid(h)
    ensures r.Err? <==> |h.rows| == 0 && |Attributes(h)| > 0
    ensures r.Err? ==> r.error == DivisionByZero
    ensures r.Ok? ==> Valid(r.value) && r.value.header == h.header && r.value.classAttr == h.classAttr
    ensures r.Ok? ==> |r.value.rows| == |h.rows|
    ensures r.Ok? ==> forall i :: 0 <= i < |h.rows| ==> |r.value.rows[i]| == |h.rows[i]|
  {
    if |h.rows| == 0 && |Attributes(h)| > 0 then Err(DivisionByZero)
    else Ok(Handler(h.header, seq(|h.rows|, i requires 0 <= i < |h.rows| => DiscretizeRow(h, i)), h.classAttr))
  }

  /** A rewritten cell is a comparison against the rounded mean of its source
      column, and the original value satisfies it. */
  lemma DiscretizeLabels(h: Handler, i: nat, w: nat)
    requires Valid(h) && i < |h.rows| && w < |h.header| && Targeted(h, w)
    ensures Discretize(h).Ok?
    ensures var p := AttrColumn(h, h.header[w]);
      var x := Column(h, p)[i].x;
      var mean := Sum(Column(h, p)) / |h.rows| as real;
      var c := Comparison(Column(Discretize(h).value, w)[i]);
      && c.Some?
      && mean - 0.0005 <= c.value.1 <= mean + 0.0005
      && Holds(c.value.0, x, c.value.1)
  {
    var p := AttrColumn(h, h.header[w]);
    var m := Threshold(Column(h, p));
    var x := Column(h, p)[i].x;
    DiscretizeCell(h, i, w);
    LabelReads(m, x);
  }

  /** A rewritten cell holds the label of its record's value against the
      column's threshold. */
  lemma DiscretizeCell(h: Handler, i: nat, w: nat)
    requires Valid(h) && i < |h.rows| && w < |h.header| && Targeted(h, w)
    ensures var p := AttrColumn(h, h.header[w]);
      && Discretize(h).Ok?
      && Discretize(h).value.rows[i][w] == Label(Threshold(Column(h, p)), Column(h, p)[i].x)
  {
    var row := DiscretizeRow(h, i);
    assert Discretize(h).value.rows[i] == row;
    assert w < |row|;
  }

  /** A label, read back as a cell, compares with the threshold in a way
      that holds for the value it was written for. */
  lemma LabelReads(m: int, x: real)
    ensures var c := Comparison(Coerce(Label(m, x)));
      c.Some? && c.value.1 == m as real / 1000.0 && Holds(c.value.0, x, c.value.1)
  {
    if x <= m as real / 1000.0 {
      LabelIsText("<=", m);
      AtMostLabelCompares(m);
    } else {
      LabelIsText(">", m);
      AboveLabelCompares(m);
    }
  }

  /** A column that is not rewritten keeps its raw text. */
  lemma DiscretizeKeeps(h: Handler, i: nat, w: nat)
    requires Valid(h) && i < |h.rows| && w < |h.rows[i]|
    requires w >= |h.header| || !Targeted(h, w)
    ensures Discretize(h).Ok? && Discretize(h).value.rows[i][w] == h.rows[i][w]
  {
  }

  /** A source column that discretize rewrites is left with no numbers. */
  lemma RewrittenNotNumeric(h: Handler, p: nat)
    requires Valid(h) && p < |h.header| && Targeted(h, p)
    ensures Discretize(h).Ok? && !AllNum(Column(Discretize(h).value, p))
  {
    DiscretizeLabels(h, 0, p);
  }

  /** A column that is not rewritten reads the same after discretize. */
  lemma ColumnUntouched(h: Handler, p: nat)
    requires Valid(h) && Discretize(h).Ok? && p < |h.header| && !Targeted(h, p)
    ensures Column(Discretize(h).value, p) == Column(h, p)
  {
    var h1 := Discretize(h).value;
    forall k | 0 <= k < |h.rows|
      ensures h1.rows[k][p] == h.rows[k][p]
    {
      DiscretizeKeeps(h, k, p);
    }
  }

  /** Discretizing a discretized cell writes back what is already there. */
  lemma DiscretizeStable(h: Handler, i: nat, w: nat)
    requires Valid(h) && Discretize(h).Ok? && i < |h.rows| && w < |h.rows[i]|
    ensures Discretize(h).value.rows[i][w] == DiscretizeRow(Discretize(h).value, i)[w]
  {
    var h1 := Discretize(h).value;
    if w < |h.header| && Targeted(h1, w) {
      var p := AttrColumn(h1, h.header[w]);
      assert Attributes(h1) == Attributes(h) && p == AttrColumn(h, h.header[w]);
      if Targeted(h, p) {
        RewrittenNotNumeric(h, p);
        assert false;
      }
      ColumnUntouched(h, p);
      assert Targeted(h, w);
      var m := Threshold(Column(h, p));
      var x := Column(h, p)[i].x;
      assert DiscretizeRow(h1, i)[w] == Label(m, x);
      assert h1.rows[i] == DiscretizeRow(h, i);
      assert DiscretizeRow(h, i)[w] == Label(m, x);
    } else {
      assert DiscretizeRow(h1, i)[w] == h1.rows[i][w];
    }
  }

  /** Discretizing twice is discretizing once: a rewritten column holds
      labels, which are text, so no later pass takes its mean again. */
  lemma DiscretizeIdempotent(h: Handler)
    requires Valid(h) && Discretize(h).Ok?
    ensures Discretize(Discretize(h).value) == Discretize(h)
  {
    var h1 := Discretize(h).value;
    var rows := seq(|h1.rows|, i requires 0 <= i < |h1.rows| => DiscretizeRow(h1, i));
    forall i | 0 <= i < |h1.rows|
      ensures rows[i] == h1.rows[i]
    {
      forall w | 0 <= w < |h1.rows[i]|
        ensures DiscretizeRow(h1, i)[w] == h1.rows[i][w]
      {
        DiscretizeStable(h, i, w);
      }
    }
    assert rows == h1.rows;
    assert Attributes(h1) == Attributes(h);
    assert Discretize(h1) == Ok(Handler(h1.header, rows, h1.classAttr));
  }

  /** When the class attribute names a single header position, its column
      is never rewritten. */
  lemma DiscretizeKeepsClass(h: Handler)
    requires Valid(h) && multiset(h.header)[h.classAttr] == 1
    requires Discretize(h).Ok?
    ensures Column(Discretize(h).value, ClassIndex(h)) == Column(h, ClassIndex(h))
  {
    var k := ClassIndex(h);
    ClassNotAttribute(h);
    assert !Named(h, k);
    var h' := Discretize(h).value;
    forall i | 0 <= i < |h.rows|
      ensures h'.rows[i][k] == h.rows[i][k]
    {
      assert h'.rows[i] == DiscretizeRow(h, i);
    }
  }

  /** A class attribute named once is not among the attributes. */
  lemma ClassNotAttribute(h: Handler)
    requires Valid(h) && multiset(h.header)[h.classAttr] == 1
    ensures h.classAttr !in Attributes(h)
  {
    var k := ClassIndex(h);
    var a := Attributes(h);
    assert h.header == a[..k] + [h.classAttr] + a[k..];
    assert multiset(h.header) == multiset(a[..k]) + multiset{h.classAttr} + multiset(a[k..]);
    assert a == a[..k] + a[k..];
  }

}

=== FILE: id3.dfy ===
/** ID3 tree induction and classification
    (ml/supervised/classes/id3_decision_tree.py, class `ID3DecisionTree`).
    The information gain is a parameter: the facts proved here hold for
    every gain function. The remaining-attribute list the original shares
    and mutates across the whole recursion is threaded through it instead:
    every call returns the list as it leaves it. */
module Id3DecisionTree {
  import opened Results
  import opened Seqs
  import opened Cells
  import opened DataHandler

  /** A leaf holds a class value; a node holds the attribute it tests (its
      position in `attributes()` and its name) and one branch per value, in
      the order the branches were built. */
  datatype Tree = Leaf(cls: Value) | Node(idx: nat, name: string, branches: seq<(Value, Tree)>)

  /** The information gain of an attribute on a data set. */
  type Gain = (Handler, string) -> real

  /** A subtree and the remaining-attribute list after building it. */
  datatype Grown = Grown(tree: Tree, rest: seq<string>)

  function Max(a: nat, b: nat): nat {
    if a < b then b else a
  }

  /** The number of internal nodes on the longest root-to-leaf path. */
  function Depth(t: Tree): nat
    decreases t, 1
  {
    match t
    case Leaf(_) => 0
    case Node(_, _, _) => 1 + BranchDepth(t, 0)
  }

  /** The greatest depth among the subtrees of node `t` from branch `b` on. */
  function BranchDepth(t: Tree, b: nat): (m: nat)
    requires t.Node?
    ensures forall e :: b <= e < |t.branches| ==> Depth(t.branches[e].1) <= m
    decreases t, 0, |t.branches| - b
  {
    if b >= |t.branches| then 0
    else
      assert t.branches[b] in t.branches;
      Max(Depth(t.branches[b].1), BranchDepth(t, b + 1))
  }

  /** `c` is the class of some leaf of `t`. */
  predicate HasLeaf(t: Tree, c: Value)
    decreases t
  {
    match t
    case Leaf(l) => l == c
    case Node(_, _, bs) => exists b :: 0 <= b < |bs| && HasLeaf(bs[b].1, c)
  }

  // ---------------------------------------------------------------------
  // __get_most_occurred_class

  /** How many positions each group lists. */
  function Counts(groups: seq<(Value, seq<nat>)>): (c: seq<real>)
    ensures |c| == |groups|
    ensures forall g :: 0 <= g < |groups| ==> c[g] == |groups[g].1| as real
  {
    seq(|groups|, g requires 0 <= g < |groups| => |groups[g].1| as real)
  }

  /** The key of the first longest group. */
  function MajorityKey(groups: seq<(Value, seq<nat>)>): Value
    requires |groups| > 0
  {
    groups[ArgMaxFirst(Counts(groups))].0
  }

  /** The groups of the partition are the distinct labels with their
      multiplicities, so its first longest group is the plurality label. */
  lemma MajorityOfPartition(labels: seq<Value>)
    ensures |Partition(labels)| == 0 <==> |labels| == 0
    ensures |labels| > 0 ==> MajorityKey(Partition(labels)) == Plurality(labels)
  {
    if |labels| > 0 {
      assert labels[0] in Distinct(labels);
      assert Counts(Partition(labels)) == Tally(labels, Distinct(labels));
    }
  }

  /** The class with the most records, ties going to the class met first:
      the first key of `by_class_attr_values()` whose list is longest.
      Without records `max` has nothing to choose from. */
  function MostOccurred(d: Handler): (r: Result<Value>)
    requires Valid(d)
    ensures r.Err? <==> |d.rows| == 0
    ensures r.Err? ==> r.error == EmptyMax
    ensures r.Ok? ==> r.value == Plurality(Labels(d))
  {
    var groups := ByClassAttrValues(d);
    MajorityOfPartition(Labels(d));
    if |groups| == 0 then Err(EmptyMax) else Ok(MajorityKey(groups))
  }

  // ---------------------------------------------------------------------
  // __get_most_informative_attr

  /** The gain vector: one entry per position of `attributes()`; the first
      position of each remaining attribute holds its gain, every other
      position 0. */
  function GainVector(d: Handler, rem: seq<string>, gain: Gain): (v: seq<real>)
    requires Valid(d)
    ensures |v| == |Attributes(d)|
  {
    var a := Attributes(d);
    seq(|a|, i requires 0 <= i < |a| =>
      if a[i] in rem && IndexOf(a, a[i]) == i then gain(d, a[i]) else 0.0)
  }

  /** A remaining attribute scores its gain at its first position, and a
      position whose name no longer remains scores 0. */
  lemma GainVectorEntries(d: Handler, rem: seq<string>, gain: Gain, i: nat)
    requires Valid(d) && i < |Attributes(d)|
    ensures Attributes(d)[i] !in rem ==> GainVector(d, rem, gain)[i] == 0.0
    ensures Attributes(d)[i] in rem ==>
      GainVector(d, rem, gain)[IndexOf(Attributes(d), Attributes(d)[i])] == gain(d, Attributes(d)[i])
  {
  }

  /** Every remaining name is an attribute. */
  predicate Known(d: Handler, rem: seq<string>)
    requires Valid(d)
  {
    forall a :: a in rem ==> a in Attributes(d)
  }

  /** The position in `attributes()` of the first maximal entry of the gain
      vector. A remaining name that is no attribute fails the `index` lookup;
      a vector over no attributes has no maximum. */
  function MostInformative(d: Handler, rem: seq<string>, gain: Gain): (r: Result<nat>)
    requires Valid(d)
    ensures r.Ok? <==> Known(d, rem) && |Attributes(d)| > 0
    ensures r.Err? ==> r.error == (if Known(d, rem) then EmptyMax else UnknownAttribute)
    ensures r.Ok? ==> r.value < |Attributes(d)|
    ensures r.Ok? ==> forall i :: 0 <= i < |Attributes(d)| ==>
      GainVector(d, rem, gain)[i] <= GainVector(d, rem, gain)[r.value]
    ensures r.Ok? ==> forall i :: 0 <= i < r.value ==>
      GainVector(d, rem, gain)[i] < GainVector(d, rem, gain)[r.value]
  {
    if !Known(d, rem) then Err(UnknownAttribute)
    else if |Attributes(d)| == 0 then Err(EmptyMax)
    else Ok(ArgMaxFirst(GainVector(d, rem, gain)))
  }

  // ---------------------------------------------------------------------
  // __generate

  /** `__generate(data, attributes)`: a pure data set becomes a leaf of its
      class; without remaining attributes, a leaf of the majority class;
      otherwise a node on the most informative attribute. The chosen name is
      removed from the shared list the subtrees then see; if it was already
      gone, the node filters on the first remaining name instead and its
      subtrees see an empty list while the caller's list stays as it was. */
  function Generate(d: Handler, rem: seq<string>, gain: Gain): (r: Result<Grown>)
    requires Valid(d)
    ensures r.Ok? ==> multiset(r.value.rest) <= multiset(rem) && |r.value.rest| <= |rem|
    decreases |rem|, 1
  {
    var groups := ByClassAttrValues(d);
    if |groups| == 1 then Ok(Grown(Leaf(groups[0].0), rem))
    else if |rem| == 0 then
      var c :- MostOccurred(d);
      Ok(Grown(Leaf(c), rem))
    else
      var k :- MostInformative(d, rem, gain);
      var name := Attributes(d)[k];
      var values := Distinct(Column(d, k));
      if name in rem then
        GrowBranches(d, k, name, values, 0, RemoveFirst(rem, name), [], gain, |rem|)
      else
        var g :- GrowBranches(d, k, rem[0], values, 0, [], [], gain, |rem|);
        Ok(Grown(g.tree, rem))
  }

  /** The `for value in values` loop of `__generate` from value `j` on:
      `acc` holds the branches built so far and `list` the shared list as
      they left it. The first value whose subset is empty turns the whole
      node into a leaf of the majority class of `d`. */
  function GrowBranches(d: Handler, k: nat, attr: string, values: seq<Value>, j: nat,
                        list: seq<string>, acc: seq<(Value, Tree)>, gain: Gain, bound: nat): (r: Result<Grown>)
    requires Valid(d) && k < |Attributes(d)| && j <= |values| && |list| < bound
    ensures r.Ok? ==> multiset(r.value.rest) <= multiset(list) && |r.value.rest| <= |list|
    decreases bound, 0, |values| - j
  {
    if j == |values| then
      Ok(Grown(Node(k, Attributes(d)[k], acc), list))
    else
      var sub :- FilterByAttrValue(d, attr, values[j]);
      if |sub.rows| == 0 then
        var c :- MostOccurred(d);
        Ok(Grown(Leaf(c), list))
      else
        var child :- Generate(sub, list, gain);
        GrowBranches(d, k, attr, values, j + 1, child.rest, acc + [(values[j], child.tree)], gain, bound)
  }

  /** A node is one deeper than its deepest subtree. */
  lemma NodeDepth(k: nat, name: string, bs: seq<(Value, Tree)>, m: nat)
    requires forall b :: 0 <= b < |bs| ==> Depth(bs[b].1) <= m
    ensures Depth(Node(k, name, bs)) <= m + 1
  {
    BranchDepthBelow(Node(k, name, bs), 0, m);
  }

  lemma {:induction false} BranchDepthBelow(t: Tree, b: nat, m: nat)
    requires t.Node? && forall e :: 0 <= e < |t.branches| ==> Depth(t.branches[e].1) <= m
    ensures BranchDepth(t, b) <= m
    decreases |t.branches| - b
  {
    if b < |t.branches| {
      BranchDepthBelow(t, b + 1, m);
    }
  }

  lemma SubMultisetMembers(a: seq<string>, b: seq<string>)
    requires multiset(a) <= multiset(b)
    ensures forall x :: x in a ==> x in b
  {
    forall x | x in a
      ensures x in b
    {
      assert x in multiset(a);
    }
  }

  /** `ID3DecisionTree(data_handler)`: the tree grown over the discretized
      data from the full attribute list. */
  function Build(h: Handler, gain: Gain): (r: Result<Tree>)
    requires Valid(h)
    ensures |h.rows| > 0 ==> r.Ok?
    ensures |h.rows| == 0 ==> r == Err(if |Attributes(h)| > 0 then DivisionByZero else EmptyMax)
    ensures r.Ok? ==> Depth(r.value) <= |Attributes(h)|
  {
    var d :- Discretize(h);
    assert Attributes(d) == Attributes(h);
    GenerateFromAll(d, gain);
    GenerateDepth(d, Attributes(h), gain);
    var g :- Generate(d, Attributes(h), gain);
    Ok(g.tree)
  }

  /** Growing from every attribute succeeds on a data set with records; on
      one with neither records nor attributes there is no majority class. */
  lemma GenerateFromAll(d: Handler, gain: Gain)
    requires Valid(d)
    ensures |d.rows| > 0 ==> Generate(d, Attributes(d), gain).Ok?
    ensures |d.rows| == 0 && |Attributes(d)| == 0 ==> Generate(d, Attributes(d), gain) == Err(EmptyMax)
  {
    MajorityOfPartition(Labels(d));
    if |d.rows| > 0 {
      GenerateTotal(d, Attributes(d), gain);
    }
  }

  // ---------------------------------------------------------------------
  // Facts about __generate

  /** Induction never fails on a data set with records when every remaining
      name is an attribute: the subsets it recurses on share the header and
      are never empty. */
  lemma {:induction false} GenerateTotal(d: Handler, rem: seq<string>, gain: Gain)
    requires Valid(d) && |d.rows| > 0 && Known(d, rem)
    ensures Generate(d, rem, gain).Ok?
    decreases |rem|, 2, 0
  {
    if |ByClassAttrValues(d)| != 1 && |rem| > 0 {
      GenerateNodeTotal(d, rem, gain);
    } else {
      MajorityOfPartition(Labels(d));
    }
  }

  lemma {:induction false} GenerateNodeTotal(d: Handler, rem: seq<string>, gain: Gain)
    requires Valid(d) && |d.rows| > 0 && Known(d, rem)
    requires |ByClassAttrValues(d)| != 1 && |rem| > 0
    ensures Generate(d, rem, gain).Ok?
    decreases |rem|, 1, 0
  {
    assert rem[0] in rem;
    var k := MostInformative(d, rem, gain).value;
    var name := Attributes(d)[k];
    var values := Distinct(Column(d, k));
    if name in rem {
      GenerateWithName(d, rem, gain);
      GrowBranchesTotal(d, k, name, values, 0, RemoveFirst(rem, name), [], gain, |rem|);
    } else {
      GenerateWithoutName(d, rem, gain);
      GrowBranchesTotal(d, k, rem[0], values, 0, [], [], gain, |rem|);
    }
  }

  lemma {:induction false} GrowBranchesTotal(d: Handler, k: nat, attr: string, values: seq<Value>, j: nat,
                                             list: seq<string>, acc: seq<(Value, Tree)>, gain: Gain, bound: nat)
    requires Valid(d) && k < |Attributes(d)| && j <= |values| && |list| < bound
    requires |d.rows| > 0 && attr in Attributes(d) && Known(d, list)
    ensures GrowBranches(d, k, attr, values, j, list, acc, gain, bound).Ok?
    decreases bound, 0, |values| - j
  {
    if j < |values| {
      var sub := FilterByAttrValue(d, attr, values[j]).value;
      if |sub.rows| > 0 {
        assert Attributes(sub) == Attributes(d);
        GenerateTotal(sub, list, gain);
        var child := Generate(sub, list, gain).value;
        SubMultisetMembers(child.rest, list);
        GrowBranchesTotal(d, k, attr, values, j + 1, child.rest, acc + [(values[j], child.tree)], gain, bound);
      }
    }
  }

  /** Labels all equal to the first give a single group. */
  lemma PureGroups(labels: seq<Value>)
    requires |labels| > 0 && forall i :: 0 <= i < |labels| ==> labels[i] == labels[0]
    ensures |Partition(labels)| == 1 && Partition(labels)[0].0 == labels[0]
  {
    var ks := Distinct(labels);
    assert Keys(Partition(labels)) == ks;
    assert labels[0] in ks;
    forall e | 0 <= e < |ks|
      ensures ks[e] == labels[0]
    {
      assert ks[e] in labels;
    }
    NoDupAllEqual(ks, labels[0]);
  }

  /** Two different labels give more than one group. */
  lemma MixedGroups(labels: seq<Value>, i: nat)
    requires i < |labels| && labels[i] != labels[0]
    ensures |Partition(labels)| > 1
  {
    var ks := Distinct(labels);
    assert Keys(Partition(labels)) == ks;
    assert labels[0] in ks && labels[i] in ks;
  }

  /** A data set whose records all carry one class becomes a leaf of that
      class, and the list is left alone. */
  lemma GeneratePure(d: Handler, rem: seq<string>, gain: Gain)
    requires Valid(d) && |d.rows| > 0
    requires forall i :: 0 <= i < |d.rows| ==> Labels(d)[i] == Labels(d)[0]
    ensures Generate(d, rem, gain) == Ok(Grown(Leaf(Labels(d)[0]), rem))
  {
    PureGroups(Labels(d));
  }

  /** With no remaining attributes a data set with two classes becomes a leaf
      of its majority class. */
  lemma GenerateExhausted(d: Handler, gain: Gain, i: nat)
    requires Valid(d) && i < |d.rows| && Labels(d)[i] != Labels(d)[0]
    ensures Generate(d, [], gain) == Ok(Grown(Leaf(Plurality(Labels(d))), []))
  {
    MixedGroups(Labels(d), i);
  }

  /** What `GrowBranches` builds as a node: position `k`, its name and
      exactly `values` as keys, in order. */
  lemma {:induction false} GrowBranchesKeys(d: Handler, k: nat, attr: string, values: seq<Value>, j: nat,
                                            list: seq<string>, acc: seq<(Value, Tree)>, gain: Gain, bound: nat)
    requires Valid(d) && k < |Attributes(d)| && j <= |values| && |list| < bound
    requires |acc| == j && forall b :: 0 <= b < j ==> acc[b].0 == values[b]
    ensures var r := GrowBranches(d, k, attr, values, j, list, acc, gain, bound);
      r.Ok? && r.value.tree.Node? ==>
        r.value.tree.idx == k && r.value.tree.name == Attributes(d)[k] &&
        |r.value.tree.branches| == |values| &&
        forall b :: 0 <= b < |values| ==> r.value.tree.branches[b].0 == values[b]
    decreases |values| - j
  {
    if j < |values| {
      var sub := FilterByAttrValue(d, attr, values[j]);
      if sub.Ok? && |sub.value.rows| > 0 {
        var child := Generate(sub.value, list, gain);
        if child.Ok? {
          var acc' := acc + [(values[j], child.value.tree)];
          assert GrowBranches(d, k, attr, values, j, list, acc, gain, bound)
              == GrowBranches(d, k, attr, values, j + 1, child.value.rest, acc', gain, bound);
          AppendKey(acc, values, j, child.value.tree);
          GrowBranchesKeys(d, k, attr, values, j + 1, child.value.rest, acc', gain, bound);
        }
      }
    }
  }

  lemma AppendKey(acc: seq<(Value, Tree)>, values: seq<Value>, j: nat, t: Tree)
    requires j < |values| && |acc| == j && forall b :: 0 <= b < j ==> acc[b].0 == values[b]
    ensures forall b :: 0 <= b < j + 1 ==> (acc + [(values[j], t)])[b].0 == values[b]
  {
  }

  /** Subtrees are no deeper than the list they are grown from: a tree from
      `Generate` is at most as deep as its list is long, and the subtrees of
      a node from `GrowBranches` at most `m` deep when every list it hands
      down is at most `m` long. */
  lemma {:induction false} GenerateDepth(d: Handler, rem: seq<string>, gain: Gain)
    requires Valid(d)
    ensures Generate(d, rem, gain).Ok? ==> Depth(Generate(d, rem, gain).value.tree) <= |rem|
    decreases |rem|, 1
  {
    var groups := ByClassAttrValues(d);
    if |groups| != 1 && |rem| > 0 && MostInformative(d, rem, gain).Ok? {
      var k := MostInformative(d, rem, gain).value;
      var name := Attributes(d)[k];
      var values := Distinct(Column(d, k));
      if name in rem {
        GenerateWithName(d, rem, gain);
        GrowBranchesDepth(d, k, name, values, 0, RemoveFirst(rem, name), [], gain, |rem|, |rem| - 1);
      } else {
        GenerateWithoutName(d, rem, gain);
        GrowBranchesDepth(d, k, rem[0], values, 0, [], [], gain, |rem|, 0);
      }
    }
  }

  lemma {:induction false} GrowBranchesDepth(d: Handler, k: nat, attr: string, values: seq<Value>, j: nat,
                                             list: seq<string>, acc: seq<(Value, Tree)>, gain: Gain, bound: nat, m: nat)
    requires Valid(d) && k < |Attributes(d)| && j <= |values| && |list| < bound
    requires |list| <= m && forall b :: 0 <= b < |acc| ==> Depth(acc[b].1) <= m
    ensures var r := GrowBranches(d, k, attr, values, j, list, acc, gain, bound);
      r.Ok? ==>
        && Depth(r.value.tree) <= m + 1
        && (r.value.tree.Node? ==> forall b :: 0 <= b < |r.value.tree.branches| ==> Depth(r.value.tree.branches[b].1) <= m)
    decreases bound, 0, |values| - j
  {
    if j == |values| {
      NodeDepth(k, Attributes(d)[k], acc, m);
    } else {
      var sub := FilterByAttrValue(d, attr, values[j]);
      if sub.Ok? && |sub.value.rows| > 0 {
        var child := Generate(sub.value, list, gain);
        if child.Ok? {
          GenerateDepth(sub.value, list, gain);
          var acc' := acc + [(values[j], child.value.tree)];
          assert GrowBranches(d, k, attr, values, j, list, acc, gain, bound)
              == GrowBranches(d, k, attr, values, j + 1, child.value.rest, acc', gain, bound);
          AppendDepth(acc, values[j], child.value.tree, m);
          GrowBranchesDepth(d, k, attr, values, j + 1, child.value.rest, acc', gain, bound, m);
        }
      }
    }
  }

  lemma AppendDepth(acc: seq<(Value, Tree)>, v: Value, t: Tree, m: nat)
    requires Depth(t) <= m && forall b :: 0 <= b < |acc| ==> Depth(acc[b].1) <= m
    ensures forall b :: 0 <= b < |acc| + 1 ==> Depth((acc + [(v, t)])[b].1) <= m
  {
  }

  /** A leaf built by `GrowBranches` holds the majority class of `d`. */
  lemma {:induction false} GrowBranchesLeaf(d: Handler, k: nat, attr: string, values: seq<Value>, j: nat,
                                            list: seq<string>, acc: seq<(Value, Tree)>, gain: Gain, bound: nat)
    requires Valid(d) && k < |Attributes(d)| && j <= |values| && |list| < bound
    ensures var r := GrowBranches(d, k, attr, values, j, list, acc, gain, bound);
      r.Ok? && r.value.tree.Leaf? ==> MostOccurred(d) == Ok(r.value.tree.cls)
    decreases |values| - j
  {
    if j < |values| {
      var sub := FilterByAttrValue(d, attr, values[j]);
      if sub.Ok? && |sub.value.rows| > 0 {
        var child := Generate(sub.value, list, gain);
        if child.Ok? {
          GrowBranchesLeaf(d, k, attr, values, j + 1, child.value.rest, acc + [(values[j], child.value.tree)], gain, bound);
        }
      }
    }
  }

  /** A node of `__generate` comes from the case with a mixed data set, a
      remaining name and a most informative attribute. */
  lemma NodeCase(d: Handler, rem: seq<string>, gain: Gain)
    requires Valid(d) && Generate(d, rem, gain).Ok? && Generate(d, rem, gain).value.tree.Node?
    ensures |ByClassAttrValues(d)| != 1 && |rem| > 0 && MostInformative(d, rem, gain).Ok?
  {
  }

  /** The node case when the chosen name still remained: the branches are
      grown from the list without it. */
  lemma GenerateWithName(d: Handler, rem: seq<string>, gain: Gain)
    requires Valid(d) && |ByClassAttrValues(d)| != 1 && |rem| > 0 && MostInformative(d, rem, gain).Ok?
    requires Attributes(d)[MostInformative(d, rem, gain).value] in rem
    ensures var k := MostInformative(d, rem, gain).value; var name := Attributes(d)[k];
      Generate(d, rem, gain) == GrowBranches(d, k, name, Distinct(Column(d, k)), 0, RemoveFirst(rem, name), [], gain, |rem|)
  {
  }

  /** The node case when the chosen name was already gone: the branches
      filter on the first remaining name and are grown from an empty list. */
  lemma GenerateWithoutName(d: Handler, rem: seq<string>, gain: Gain)
    requires Valid(d) && |ByClassAttrValues(d)| != 1 && |rem| > 0 && MostInformative(d, rem, gain).Ok?
    requires Attributes(d)[MostInformative(d, rem, gain).value] !in rem
    ensures var k := MostInformative(d, rem, gain).value;
      var g := GrowBranches(d, k, rem[0], Distinct(Column(d, k)), 0, [], [], gain, |rem|);
      Generate(d, rem, gain) == if g.Ok? then Ok(Grown(g.value.tree, rem)) else Err(g.error)
  {
  }

  /** A node of `__generate` tests the most informative attribute and
      branches on the distinct values of that column, in order of first
      appearance. */
  lemma GenerateNodeKeys(d: Handler, rem: seq<string>, gain: Gain)
    requires Valid(d) && Generate(d, rem, gain).Ok? && Generate(d, rem, gain).value.tree.Node?
    ensures MostInformative(d, rem, gain).Ok?
    ensures var t := Generate(d, rem, gain).value.tree; var k := MostInformative(d, rem, gain).value;
      t.idx == k && t.name == Attributes(d)[k] && Keys(t.branches) == Distinct(Column(d, k))
  {
    NodeCase(d, rem, gain);
    var k := MostInformative(d, rem, gain).value;
    var name := Attributes(d)[k];
    var values := Distinct(Column(d, k));
    if name in rem {
      GenerateWithName(d, rem, gain);
      GrowBranchesKeys(d, k, name, values, 0, RemoveFirst(rem, name), [], gain, |rem|);
    } else {
      GenerateWithoutName(d, rem, gain);
      GrowBranchesKeys(d, k, rem[0], values, 0, [], [], gain, |rem|);
    }
    var t := Generate(d, rem, gain).value.tree;
    assert Keys(t.branches) == values;
  }

  /** The shared list a node of `__generate` leaves behind: without the
      chosen name if it still remained; otherwise untouched, and every
      subtree is then a leaf because it was grown from an empty list. */
  lemma GenerateNodeList(d: Handler, rem: seq<string>, gain: Gain)
    requires Valid(d) && Generate(d, rem, gain).Ok? && Generate(d, rem, gain).value.tree.Node?
    ensures MostInformative(d, rem, gain).Ok?
    ensures var r := Generate(d, rem, gain).value; var name := Attributes(d)[MostInformative(d, rem, gain).value];
      && (name in rem ==> multiset(r.rest) <= multiset(RemoveFirst(rem, name)))
      && (name !in rem ==> r.rest == rem && forall b :: 0 <= b < |r.tree.branches| ==> r.tree.branches[b].1.Leaf?)
  {
    NodeCase(d, rem, gain);
    var k := MostInformative(d, rem, gain).value;
    var name := Attributes(d)[k];
    var values := Distinct(Column(d, k));
    if name in rem {
      GenerateWithName(d, rem, gain);
    } else {
      GenerateWithoutName(d, rem, gain);
      GrowBranchesDepth(d, k, rem[0], values, 0, [], [], gain, |rem|, 0);
    }
  }

  /** A leaf of `__generate` over a data set with two classes holds the
      majority class. */
  lemma GenerateLeaf(d: Handler, rem: seq<string>, gain: Gain, i: nat)
    requires Valid(d) && i < |d.rows| && Labels(d)[i] != Labels(d)[0]
    requires Generate(d, rem, gain).Ok? && Generate(d, rem, gain).value.tree.Leaf?
    ensures Generate(d, rem, gain).value.tree.cls == Plurality(Labels(d))
  {
    MixedGroups(Labels(d), i);
    if |rem| > 0 && MostInformative(d, rem, gain).Ok? {
      var k := MostInformative(d, rem, gain).value;
      var name := Attributes(d)[k];
      var values := Distinct(Column(d, k));
      if name in rem {
        GenerateWithName(d, rem, gain);
        GrowBranchesLeaf(d, k, name, values, 0, RemoveFirst(rem, name), [], gain, |rem|);
      } else {
        GenerateWithoutName(d, rem, gain);
        GrowBranchesLeaf(d, k, rem[0], values, 0, [], [], gain, |rem|);
      }
    }
  }

  // ---------------------------------------------------------------------
  // classify

  /** Whether the branch keyed `key` takes the test value `x`. A number is
      tried through `eval(str(x) + key)` and then by equality, which never
      holds between a number and a text; any other value is compared by
      equality only. A number key cannot be appended to the text. The empty
      key (an empty cell) leaves `str(x)`, which is true exactly for a
      non-zero number; a `<op><number>` key compares. Python would evaluate
      any other key as an expression of its own; the model reports it as no
      comparison. */
  function Takes(x: Value, key: Value): (r: Result<bool>)
    ensures x.Text? ==> r == Ok(x == key)
    ensures x.Num? && key == Text("") ==> r == Ok(x.x != 0.0)
    ensures r.Err? <==> x.Num? && (key.Num? || (key.s != "" && Comparison(key).None?))
    ensures r.Err? ==> (r.error == TypeMismatch <==> key.Num?)
    ensures r.Err? ==> r.error == TypeMismatch || r.error == NotAComparison
  {
    if x.Text? then Ok(x == key)
    else if key.Num? then Err(TypeMismatch)
    else if key.s == "" then Ok(x.x != 0.0)
    else match Comparison(key)
      case None => Err(NotAComparison)
      case Some((op, t)) => Ok(Holds(op, x.x, t))
  }

  /** A number takes a branch keyed by a discretized label, "<=t" or ">t",
      exactly when it compares that way with the threshold `t`. */
  lemma TakesLabel(x: real, op: CmpOp, m: int)
    requires op == Le || op == Gt
    ensures Takes(Num(x), Text(OpText(op) + FormatMillis(m))) == Ok(Holds(op, x, m as real / 1000.0))
  {
    var key := Text(OpText(op) + FormatMillis(m));
    var c := Comparison(key);
    LabelCompares(op, m);
    assert c == Some((op, m as real / 1000.0));
    assert Takes(Num(x), key) == Ok(Holds(c.value.0, x, c.value.1));
  }

  /** Text follows only the branch keyed by itself. */
  lemma TakesText(x: Value, key: Value)
    requires x.Text?
    ensures Takes(x, key) == Ok(x == key)
  {
  }

  /** The branch the `for value in node["value"]` loop settles on, given each
      branch's test from branch `j` on: the first branch whose test holds, or
      the last branch if none does; the first failing test stops the walk. */
  function Choose(tests: seq<Result<bool>>, j: nat): (r: Result<nat>)
    requires 0 < |tests| && j <= |tests|
    ensures r.Ok? ==> r.value < |tests|
    ensures r.Ok? ==> forall b :: j <= b < r.value ==> tests[b] == Ok(false)
    ensures r.Ok? ==>
      || (j <= r.value && tests[r.value] == Ok(true))
      || (r.value == |tests| - 1 && forall b :: j <= b < |tests| ==> tests[b] == Ok(false))
    ensures r.Err? ==>
      exists b :: j <= b < |tests| && tests[b] == Err(r.error) && forall e :: j <= e < b ==> tests[e] == Ok(false)
    decreases |tests| - j
  {
    if j == |tests| then Ok(|tests| - 1)
    else
      var t :- tests[j];
      if t then Ok(j) else Choose(tests, j + 1)
  }

  /** `classify(instance)`: walk from the root, following the chosen branch
      with the instance value at the node's attribute position, to a leaf. A
      position past the instance is an `IndexError`; a node without branches
      has nothing to follow. */
  function Classify(t: Tree, inst: seq<Value>): (r: Result<Value>)
    ensures r.Ok? ==> HasLeaf(t, r.value)
  {
    match t
    case Leaf(c) => Ok(c)
    case Node(k, _, bs) =>
      if |bs| == 0 then Err(NoBranches)
      else if k >= |inst| then Err(IndexOutOfRange)
      else
        var b :- Choose(seq(|bs|, e requires 0 <= e < |bs| => Takes(inst[k], bs[e].0)), 0);
        assert bs[b] in bs;
        Classify(bs[b].1, inst)
  }

  /** A single-leaf tree classifies every instance as its class. */
  lemma ClassifyLeaf(c: Value, inst: seq<Value>)
    ensures Classify(Leaf(c), inst) == Ok(c)
  {
  }
}

=== FILE: resampling.dfy ===
/** Random resampling of a data set (data/handler.py: `bootstrap`, `bagging`,
    `stratify`). The pseudo-random generator is a parameter: `rand(k)` is the
    number behind the k-th draw, and every operation says which draws it
    consumes. */
module Resampling {
  import opened Results
  import opened Seqs
  import opened Cells
  import opened DataHandler

  type Source = nat -> nat

  /** Draw `k` reduced to `[0, m)`: `random.randrange(m)`, which is also
      `random.randint(0, m - 1)`. */
  function Draw(rand: Source, k: nat, m: nat): (r: nat)
    requires m > 0
    ensures r < m
  {
    rand(k) % m
  }

  // ---------------------------------------------------------------------
  // bootstrap and bagging

  /** Draws `pos .. pos + count - 1`, each reduced to `[0, m)`. */
  function Draws(rand: Source, pos: nat, count: nat, m: nat): (r: seq<nat>)
    requires m > 0
    ensures |r| == count
    ensures forall k :: 0 <= k < count ==> r[k] == Draw(rand, pos + k, m)
  {
    if count == 0 then [] else Draws(rand, pos, count - 1, m) + [Draw(rand, pos + count - 1, m)]
  }

  /** `round((len(data) - 1) * ratio)`. */
  function BootstrapSize(h: Handler, ratio: real): int {
    RoundHalfEven((|h.rows| - 1) as real * ratio)
  }

  /** The record positions `bootstrap(ratio)` copies, drawn with
      replacement from `randrange(len(data) - 1)` at draws `pos`, `pos + 1`,
      ...: the last record is never a candidate. */
  function BootstrapIndices(h: Handler, ratio: real, rand: Source, pos: nat): (r: Result<seq<nat>>)
    ensures r.Err? <==> BootstrapSize(h, ratio) > 0 && |h.rows| <= 1
    ensures r.Err? ==> r.error == EmptyRange
    ensures r.Ok? ==> |r.value| == if BootstrapSize(h, ratio) > 0 then BootstrapSize(h, ratio) else 0
    ensures r.Ok? ==> forall k :: 0 <= k < |r.value| ==> r.value[k] < |h.rows| - 1
  {
    var size := BootstrapSize(h, ratio);
    if size <= 0 then Ok([])
    else if |h.rows| <= 1 then Err(EmptyRange)
    else Ok(Draws(rand, pos, size, |h.rows| - 1))
  }

  /** `bootstrap(ratio)`: copies of the drawn records. */
  function Bootstrap(h: Handler, ratio: real, rand: Source, pos: nat): (r: Result<seq<Row>>)
    requires Valid(h)
    ensures r.Err? <==> BootstrapIndices(h, ratio, rand, pos).Err?
    ensures r.Ok? ==> |r.value| == |BootstrapIndices(h, ratio, rand, pos).value|
    ensures r.Ok? ==> forall k :: 0 <= k < |r.value| ==>
      r.value[k] == h.rows[BootstrapIndices(h, ratio, rand, pos).value[k]]
  {
    var idx :- BootstrapIndices(h, ratio, rand, pos);
    Ok(Pick(h.rows, idx))
  }

  /** Every record but the last can be drawn: a generator that always
      yields `j` copies record `j` every time. */
  lemma BootstrapReaches(h: Handler, ratio: real, j: nat, pos: nat)
    requires j < |h.rows| - 1 && BootstrapSize(h, ratio) > 0
    ensures var r := BootstrapIndices(h, ratio, (k: nat) => j, pos);
      r.Ok? && forall k :: 0 <= k < |r.value| ==> r.value[k] == j
  {
    var r := BootstrapIndices(h, ratio, (k: nat) => j, pos);
    assert j % (|h.rows| - 1) == j;
    forall k | 0 <= k < |r.value|
      ensures r.value[k] == j
    {
      assert r.value[k] == Draw((k: nat) => j, pos + k, |h.rows| - 1);
    }
  }

  lemma RoundWhole(k: int)
    ensures RoundHalfEven(k as real) == k
  {
  }

  /** The sample size `bagging` uses (`ratio = 1.0`): one fewer than the
      records, and none for an empty data set. */
  function BagSize(h: Handler): (s: nat)
    ensures s == if |h.rows| > 0 then |h.rows| - 1 else 0
  {
    RoundWhole(|h.rows| - 1);
    assert (|h.rows| - 1) as real * 1.0 == (|h.rows| - 1) as real;
    if |h.rows| > 0 then |h.rows| - 1 else 0
  }

  /** At ratio 1.0 the bootstrap never fails. */
  lemma FullBootstrapSucceeds(h: Handler, rand: Source, pos: nat)
    requires Valid(h)
    ensures Bootstrap(h, 1.0, rand, pos).Ok?
    ensures |Bootstrap(h, 1.0, rand, pos).value| == BagSize(h)
  {
    RoundWhole(|h.rows| - 1);
    assert (|h.rows| - 1) as real * 1.0 == (|h.rows| - 1) as real;
  }

  /** One handler of `bagging`: the header over a full-ratio bootstrap. */
  function Bag(h: Handler, rand: Source, pos: nat): (b: Handler)
    requires Valid(h)
    ensures Valid(b) && b.header == h.header && b.classAttr == h.classAttr
    ensures |b.rows| == BagSize(h)
  {
    FullBootstrapSucceeds(h, rand, pos);
    var sample := Bootstrap(h, 1.0, rand, pos).value;
    var raw := [h.header] + sample;
    assert raw[1..] == sample;
    New(raw, h.classAttr).value
  }

  /** `bagging(k)`: `max(k, 0)` handlers (`range(k)` is empty for `k <= 0`),
      the t-th drawing its sample at draws `pos + t * BagSize(h)` onwards. */
  function Bagging(h: Handler, k: int, rand: Source, pos: nat): (bags: seq<Handler>)
    requires Valid(h)
    ensures |bags| == Max0(k)
    ensures forall t :: 0 <= t < |bags| ==>
      Valid(bags[t]) && bags[t].header == h.header && bags[t].classAttr == h.classAttr
    ensures forall t :: 0 <= t < |bags| ==> |bags[t].rows| == BagSize(h)
  {
    seq(Max0(k), t requires 0 <= t < Max0(k) => Bag(h, rand, pos + t * BagSize(h)))
  }

  /** Every record of a bag is a record of the data set, never the last. */
  lemma BagRecords(h: Handler, rand: Source, pos: nat, i: nat)
    requires Valid(h) && i < |Bag(h, rand, pos).rows|
    ensures |h.rows| >= 2
    ensures exists j :: 0 <= j < |h.rows| - 1 && Bag(h, rand, pos).rows[i] == h.rows[j]
  {
    FullBootstrapSucceeds(h, rand, pos);
    var b := Bag(h, rand, pos);
    var idx := BootstrapIndices(h, 1.0, rand, pos).value;
    assert AsRawData(b)[1..] == b.rows;
    assert b.rows[i] == h.rows[idx[i]];
  }

  // ---------------------------------------------------------------------
  // stratify

  /** The state of one class's dealing: the folds so far, what is left of
      the class's index pool, the next draw, and whether a draw hit an
      empty pool (the `except ValueError: break`). */
  datatype Deal = Deal(folds: seq<seq<nat>>, pool: seq<nat>, pos: nat, stopped: bool)

  function Min(a: int, b: int): int {
    if a <= b then a else b
  }

  /** One pass of the inner `for` loop from fold `j` on: each fold takes
      one index drawn from the pool and removed from it, and an empty pool
      stops the pass at once. */
  function DealRound(folds: seq<seq<nat>>, pool: seq<nat>, rand: Source, pos: nat, j: nat): (d: Deal)
    requires j <= |folds|
    ensures |d.folds| == |folds|
    decreases |folds| - j
  {
    if j == |folds| then Deal(folds, pool, pos, false)
    else if |pool| == 0 then Deal(folds, pool, pos, true)
    else
      var t := Draw(rand, pos, |pool|);
      DealRound(folds[j := folds[j] + [pool[t]]], pool[..t] + pool[t + 1..], rand, pos + 1, j + 1)
  }

  /** Every fold keeps what it had: `b` extends `a` fold by fold. */
  predicate Extends(b: seq<seq<nat>>, a: seq<seq<nat>>) {
    |b| == |a| && forall f :: 0 <= f < |a| ==> |a[f]| <= |b[f]| && b[f][..|a[f]|] == a[f]
  }

  /** Everything added to the folds was taken from `pool`. */
  predicate TakenFrom(b: seq<seq<nat>>, a: seq<seq<nat>>, pool: seq<nat>)
    requires Extends(b, a)
  {
    forall f, t :: 0 <= f < |a| && |a[f]| <= t < |b[f]| ==> b[f][t] in pool
  }

  /** A round deals `c` indices, one to each of folds `j .. j + c - 1`,
      where `c` is what the pool can give, and it stops exactly when the
      pool runs dry before the last fold. */
  lemma {:induction false} DealRoundShape(folds: seq<seq<nat>>, pool: seq<nat>, rand: Source, pos: nat, j: nat)
    requires j <= |folds|
    ensures var d := DealRound(folds, pool, rand, pos, j);
      var c := Min(|folds| - j, |pool|);
      && Extends(d.folds, folds)
      && |d.pool| == |pool| - c
      && d.pos == pos + c
      && (d.stopped <==> |pool| < |folds| - j)
      && (forall f :: 0 <= f < |folds| ==>
            |d.folds[f]| == |folds[f]| + (if j <= f < j + c then 1 else 0))
    decreases |folds| - j
  {
    if j < |folds| && |pool| > 0 {
      var t := Draw(rand, pos, |pool|);
      var grown := folds[j := folds[j] + [pool[t]]];
      var rest := pool[..t] + pool[t + 1..];
      DealRoundShape(grown, rest, rand, pos + 1, j + 1);
      var d := DealRound(grown, rest, rand, pos + 1, j + 1);
      forall f | 0 <= f < |folds|
        ensures d.folds[f][..|folds[f]|] == folds[f]
      {
        assert d.folds[f][..|folds[f]|] == d.folds[f][..|grown[f]|][..|folds[f]|];
      }
    }
  }

  /** What a round deals comes from the pool, and what is left of the pool
      was in it: no index is lost or duplicated. */
  lemma {:induction false} DealRoundConserves(folds: seq<seq<nat>>, pool: seq<nat>, rand: Source, pos: nat, j: nat)
    requires j <= |folds|
    ensures var d := DealRound(folds, pool, rand, pos, j);
      multiset(Flatten(d.folds)) + multiset(d.pool) == multiset(Flatten(folds)) + multiset(pool)
    decreases |folds| - j
  {
    if j < |folds| && |pool| > 0 {
      var t := Draw(rand, pos, |pool|);
      var x := pool[t];
      var rest := pool[..t] + pool[t + 1..];
      assert pool == pool[..t] + [x] + pool[t + 1..];
      var grown := folds[j := folds[j] + [x]];
      FlattenGrowOne(folds, j, x);
      DealRoundConserves(grown, rest, rand, pos + 1, j + 1);
    }
  }

  /** A round only removes indices from the pool. */
  lemma {:induction false} DealRoundShrinks(folds: seq<seq<nat>>, pool: seq<nat>, rand: Source, pos: nat, j: nat)
    requires j <= |folds|
    ensures forall y :: y in DealRound(folds, pool, rand, pos, j).pool ==> y in pool
    decreases |folds| - j
  {
    if j < |folds| && |pool| > 0 {
      var t := Draw(rand, pos, |pool|);
      var rest := pool[..t] + pool[t + 1..];
      DealRoundShrinks(folds[j := folds[j] + [pool[t]]], rest, rand, pos + 1, j + 1);
      assert forall y :: y in rest ==> y in pool;
    }
  }

  lemma {:induction false} DealRoundTakes(folds: seq<seq<nat>>, pool: seq<nat>, rand: Source, pos: nat, j: nat)
    requires j <= |folds|
    ensures var d := DealRound(folds, pool, rand, pos, j);
      Extends(d.folds, folds) && TakenFrom(d.folds, folds, pool)
    decreases |folds| - j
  {
    DealRoundShape(folds, pool, rand, pos, j);
    if j < |folds| && |pool| > 0 {
      var t := Draw(rand, pos, |pool|);
      var x := pool[t];
      var rest := pool[..t] + pool[t + 1..];
      assert pool == pool[..t] + [x] + pool[t + 1..];
      var grown := folds[j := folds[j] + [x]];
      DealRoundTakes(grown, rest, rand, pos + 1, j + 1);
      var d := DealRound(grown, rest, rand, pos + 1, j + 1);
      assert TakenFrom(grown, folds, pool);
      ExtendsTrans(folds, grown, d.folds, pool, rest);
    }
  }

  /** What fold `f` of `k` gains from `rounds` rounds over a pool of `p`
      indices: a full round while the pool holds `k` or more, then one
      index each for the first folds of the round that runs dry. */
  function Share(p: nat, k: nat, rounds: int, f: nat): nat
    decreases if rounds > 0 then rounds else 0
  {
    if rounds <= 0 || k == 0 then 0
    else if p >= k then 1 + Share(p - k, k, rounds - 1, f)
    else if f < p then 1
    else 0
  }

  lemma {:induction false} ShareBound(p: nat, k: nat, rounds: int, f: nat)
    ensures Share(p, k, rounds, f) <= if rounds > 0 then rounds else 0
    decreases if rounds > 0 then rounds else 0
  {
    if rounds > 0 && k > 0 && p >= k {
      ShareBound(p - k, k, rounds - 1, f);
    }
  }

  /** The `while counter > 0` loop for one class. */
  function DealRounds(folds: seq<seq<nat>>, pool: seq<nat>, rand: Source, pos: nat, rounds: int): (d: Deal)
    ensures |d.folds| == |folds|
    decreases if rounds > 0 then rounds else 0
  {
    if rounds <= 0 then Deal(folds, pool, pos, false)
    else
      var d := DealRound(folds, pool, rand, pos, 0);
      if d.stopped then d
      else DealRounds(d.folds, d.pool, rand, d.pos, rounds - 1)
  }

  lemma ExtendsTrans(a: seq<seq<nat>>, b: seq<seq<nat>>, c: seq<seq<nat>>, pool: seq<nat>, rest: seq<nat>)
    requires Extends(b, a) && Extends(c, b)
    requires TakenFrom(b, a, pool) && TakenFrom(c, b, rest)
    requires forall y :: y in rest ==> y in pool
    ensures Extends(c, a) && TakenFrom(c, a, pool)
  {
    forall f | 0 <= f < |a|
      ensures c[f][..|a[f]|] == a[f]
    {
      assert c[f][..|a[f]|] == c[f][..|b[f]|][..|a[f]|];
    }
    forall f, i | 0 <= f < |a| && |a[f]| <= i < |c[f]|
      ensures c[f][i] in pool
    {
      if i < |b[f]| {
        assert c[f][i] == c[f][..|b[f]|][i];
      }
    }
  }

  /** The rounds of one class: each fold gains its `Share` of the pool. */
  lemma {:induction false} DealRoundsShape(folds: seq<seq<nat>>, pool: seq<nat>, rand: Source, pos: nat, rounds: int)
    ensures var d := DealRounds(folds, pool, rand, pos, rounds);
      && Extends(d.folds, folds)
      && (forall f :: 0 <= f < |folds| ==>
            |d.folds[f]| == |folds[f]| + Share(|pool|, |folds|, rounds, f))
    decreases if rounds > 0 then rounds else 0
  {
    if rounds > 0 {
      var d1 := DealRound(folds, pool, rand, pos, 0);
      DealRoundShape(folds, pool, rand, pos, 0);
      if !d1.stopped {
        DealRoundsShape(d1.folds, d1.pool, rand, d1.pos, rounds - 1);
        var d := DealRounds(d1.folds, d1.pool, rand, d1.pos, rounds - 1);
        forall f | 0 <= f < |folds|
          ensures d.folds[f][..|folds[f]|] == folds[f]
        {
          assert d.folds[f][..|folds[f]|] == d.folds[f][..|d1.folds[f]|][..|folds[f]|];
        }
      }
    }
  }

  /** Everything the rounds of one class deal comes from its pool. */
  lemma {:induction false} DealRoundsTakes(folds: seq<seq<nat>>, pool: seq<nat>, rand: Source, pos: nat, rounds: int)
    ensures var d := DealRounds(folds, pool, rand, pos, rounds);
      Extends(d.folds, folds) && TakenFrom(d.folds, folds, pool)
    decreases if rounds > 0 then rounds else 0
  {
    DealRoundsShape(folds, pool, rand, pos, rounds);
    if rounds > 0 {
      var d1 := DealRound(folds, pool, rand, pos, 0);
      DealRoundTakes(folds, pool, rand, pos, 0);
      if !d1.stopped {
        DealRoundShrinks(folds, pool, rand, pos, 0);
        DealRoundsTakes(d1.folds, d1.pool, rand, d1.pos, rounds - 1);
        var d := DealRounds(d1.folds, d1.pool, rand, d1.pos, rounds - 1);
        ExtendsTrans(folds, d1.folds, d.folds, pool, d1.pool);
      }
    }
  }

  /** The rounds of one class neither lose nor duplicate an index. */
  lemma {:induction false} DealRoundsConserve(folds: seq<seq<nat>>, pool: seq<nat>, rand: Source, pos: nat, rounds: int)
    ensures var d := DealRounds(folds, pool, rand, pos, rounds);
      multiset(Flatten(d.folds)) + multiset(d.pool) == multiset(Flatten(folds)) + multiset(pool)
    decreases if rounds > 0 then rounds else 0
  {
    if rounds > 0 {
      var d1 := DealRound(folds, pool, rand, pos, 0);
      DealRoundConserves(folds, pool, rand, pos, 0);
      if !d1.stopped {
        DealRoundsConserve(d1.folds, d1.pool, rand, d1.pos, rounds - 1);
      }
    }
  }

  /** Number of entries of `fold` that are instances labelled `key`. */
  function LabelCount(fold: seq<nat>, labels: seq<Value>, key: Value): nat {
    if |fold| == 0 then 0
    else
      var x := fold[|fold| - 1];
      LabelCount(fold[..|fold| - 1], labels, key) + (if x < |labels| && labels[x] == key then 1 else 0)
  }

  lemma {:induction false} LabelCountAppend(a: seq<nat>, b: seq<nat>, labels: seq<Value>, key: Value)
    ensures LabelCount(a + b, labels, key) == LabelCount(a, labels, key) + LabelCount(b, labels, key)
  {
    if |b| > 0 {
      assert (a + b)[..|a + b| - 1] == a + b[..|b| - 1];
      LabelCountAppend(a, b[..|b| - 1], labels, key);
    } else {
      assert a + b == a;
    }
  }

  /** Entries that all carry label `key` count fully for `key` and not at
      all for any other label. */
  lemma {:induction false} LabelCountUniform(s: seq<nat>, labels: seq<Value>, key: Value, other: Value)
    requires forall i :: 0 <= i < |s| ==> s[i] < |labels| && labels[s[i]] == key
    ensures LabelCount(s, labels, key) == |s|
    ensures other != key ==> LabelCount(s, labels, other) == 0
  {
    if |s| > 0 {
      LabelCountUniform(s[..|s| - 1], labels, key, other);
    }
  }

  lemma {:induction false} LabelCountPositive(s: seq<nat>, labels: seq<Value>, key: Value, i: nat)
    requires i < |s| && s[i] < |labels| && labels[s[i]] == key
    ensures LabelCount(s, labels, key) > 0
  {
    if i < |s| - 1 {
      LabelCountPositive(s[..|s| - 1], labels, key, i);
    }
  }

  /** `round(yi_proportion * instances_per_fold)`: the rounds dealt for a
      class with `size` instances out of `n`. */
  function Rounds(size: nat, n: nat, perFold: int): int
    requires n > 0
  {
    RoundHalfEven((size as real / n as real) * perFold as real)
  }

  function Max0(x: int): nat {
    if x > 0 then x else 0
  }

  /** All fold entries are instance positions below `n`. */
  predicate Below(folds: seq<seq<nat>>, n: nat) {
    forall f, t :: 0 <= f < |folds| && 0 <= t < |folds[f]| ==> folds[f][t] < n
  }

  /** What the class loop relies on about `by_class_attr_values`: distinct
      labels, each with distinct positions of instances carrying it. */
  predicate GroupsOk(groups: seq<(Value, seq<nat>)>, labels: seq<Value>) {
    && (forall c, e :: 0 <= c < e < |groups| ==> groups[c].0 != groups[e].0)
    && (forall c, k :: 0 <= c < |groups| && 0 <= k < |groups[c].1| ==>
          groups[c].1[k] < |labels| && labels[groups[c].1[k]] == groups[c].0)
    && (forall c :: 0 <= c < |groups| ==> NoDup(groups[c].1))
    && (|groups| > 0 ==> |labels| > 0)
  }

  lemma PartitionOk(labels: seq<Value>)
    ensures GroupsOk(Partition(labels), labels)
  {
    var groups := Partition(labels);
    forall c, e | 0 <= c < e < |groups|
      ensures groups[c].0 != groups[e].0
    {
      assert Keys(groups)[c] != Keys(groups)[e];
    }
    forall c | 0 <= c < |groups|
      ensures NoDup(groups[c].1)
    {
      IncreasingNoDup(groups[c].1);
    }
    if |groups| > 0 {
      assert groups[0].0 in labels;
    }
  }

  /** The `for yi in data` loop from class `g` on. Returns the folds and
      the next draw. */
  function StratifyFrom(groups: seq<(Value, seq<nat>)>, g: nat, labels: seq<Value>, perFold: int,
                        folds: seq<seq<nat>>, rand: Source, pos: nat): (r: (seq<seq<nat>>, nat))
    requires GroupsOk(groups, labels) && g <= |groups|
    ensures |r.0| == |folds|
    decreases |groups| - g
  {
    if g == |groups| then (folds, pos)
    else
      var d := DealRounds(folds, groups[g].1, rand, pos, Rounds(|groups[g].1|, |labels|, perFold));
      StratifyFrom(groups, g + 1, labels, perFold, d.folds, rand, d.pos)
  }

  /** The invariant of the class loop after classes `0 .. g - 1`: entries
      are distinct instance positions, each earlier class holds at most its
      rounds in every fold, and no later class holds any. */
  predicate Dealt(groups: seq<(Value, seq<nat>)>, g: nat, labels: seq<Value>, perFold: int, folds: seq<seq<nat>>)
    requires GroupsOk(groups, labels) && g <= |groups|
  {
    && Below(folds, |labels|)
    && NoDup(Flatten(folds))
    && (forall f, c :: 0 <= f < |folds| && g <= c < |groups| ==>
          LabelCount(folds[f], labels, groups[c].0) == 0)
    && (forall f, c :: 0 <= f < |folds| && 0 <= c < g ==>
          LabelCount(folds[f], labels, groups[c].0) <= Max0(Rounds(|groups[c].1|, |labels|, perFold)))
  }

  /** The class's pool shares nothing with the folds dealt so far. */
  lemma PoolFresh(groups: seq<(Value, seq<nat>)>, g: nat, labels: seq<Value>, perFold: int, folds: seq<seq<nat>>)
    requires GroupsOk(groups, labels) && g < |groups| && Dealt(groups, g, labels, perFold, folds)
    ensures NoDup(Flatten(folds) + groups[g].1)
  {
    var pool := groups[g].1;
    var flat := Flatten(folds);
    forall i | 0 <= i < |flat|
      ensures flat[i] !in pool
    {
      if flat[i] in pool {
        InFlatten(folds, flat[i]);
        var f :| 0 <= f < |folds| && flat[i] in folds[f];
        var t :| 0 <= t < |folds[f]| && folds[f][t] == flat[i];
        LabelCountPositive(folds[f], labels, groups[g].0, t);
        assert false;
      }
    }
    NoDupConcat(flat, pool);
  }

  /** Dealing class `g` keeps the entries distinct instance positions. */
  lemma ClassStepDistinct(groups: seq<(Value, seq<nat>)>, g: nat, labels: seq<Value>, perFold: int,
                          folds: seq<seq<nat>>, rand: Source, pos: nat, rounds: int)
    requires GroupsOk(groups, labels) && g < |groups| && Dealt(groups, g, labels, perFold, folds)
    ensures var d := DealRounds(folds, groups[g].1, rand, pos, rounds);
      Below(d.folds, |labels|) && NoDup(Flatten(d.folds))
  {
    var pool := groups[g].1;
    var d := DealRounds(folds, pool, rand, pos, rounds);
    DealRoundsTakes(folds, pool, rand, pos, rounds);
    DealRoundsConserve(folds, pool, rand, pos, rounds);
    PoolFresh(groups, g, labels, perFold, folds);
    NoDupSubMultiset(Flatten(folds) + pool, Flatten(d.folds));
    forall f, t | 0 <= f < |d.folds| && 0 <= t < |d.folds[f]|
      ensures d.folds[f][t] < |labels|
    {
      if t < |folds[f]| {
        assert d.folds[f][t] == d.folds[f][..|folds[f]|][t];
      }
    }
  }

  /** Dealing class `g` adds its share to the count of label `g` in each
      fold and nothing to any other label. */
  lemma ClassStepCount(groups: seq<(Value, seq<nat>)>, g: nat, labels: seq<Value>,
                       folds: seq<seq<nat>>, rand: Source, pos: nat, rounds: int, f: nat, c: nat)
    requires GroupsOk(groups, labels) && g < |groups| && c < |groups| && f < |folds|
    ensures var d := DealRounds(folds, groups[g].1, rand, pos, rounds);
      LabelCount(d.folds[f], labels, groups[c].0) ==
        LabelCount(folds[f], labels, groups[c].0) + (if c == g then Share(|groups[g].1|, |folds|, rounds, f) else 0)
  {
    var pool := groups[g].1;
    var d := DealRounds(folds, pool, rand, pos, rounds);
    DealRoundsShape(folds, pool, rand, pos, rounds);
    DealRoundsTakes(folds, pool, rand, pos, rounds);
    var added := d.folds[f][|folds[f]|..];
    assert d.folds[f] == folds[f] + added;
    assert forall t :: 0 <= t < |added| ==> added[t] in pool;
    LabelCountAppend(folds[f], added, labels, groups[c].0);
    LabelCountUniform(added, labels, groups[g].0, groups[c].0);
  }

  /** Dealing class `g` keeps the invariant for the classes after it. */
  lemma ClassStep(groups: seq<(Value, seq<nat>)>, g: nat, labels: seq<Value>, perFold: int,
                  folds: seq<seq<nat>>, rand: Source, pos: nat)
    requires GroupsOk(groups, labels) && g < |groups| && Dealt(groups, g, labels, perFold, folds)
    ensures var rounds := Rounds(|groups[g].1|, |labels|, perFold);
      Dealt(groups, g + 1, labels, perFold, DealRounds(folds, groups[g].1, rand, pos, rounds).folds)
  {
    var rounds := Rounds(|groups[g].1|, |labels|, perFold);
    var d := DealRounds(folds, groups[g].1, rand, pos, rounds);
    ClassStepDistinct(groups, g, labels, perFold, folds, rand, pos, rounds);
    forall f, c | 0 <= f < |folds| && 0 <= c < |groups|
      ensures LabelCount(d.folds[f], labels, groups[c].0) ==
        LabelCount(folds[f], labels, groups[c].0) + (if c == g then Share(|groups[g].1|, |folds|, rounds, f) else 0)
    {
      ClassStepCount(groups, g, labels, folds, rand, pos, rounds, f, c);
    }
    forall f | 0 <= f < |folds|
      ensures Share(|groups[g].1|, |folds|, rounds, f) <= Max0(rounds)
    {
      ShareBound(|groups[g].1|, |folds|, rounds, f);
    }
  }

  lemma {:induction false} StratifyFromFacts(groups: seq<(Value, seq<nat>)>, g: nat, labels: seq<Value>, perFold: int,
                                             folds: seq<seq<nat>>, rand: Source, pos: nat)
    requires GroupsOk(groups, labels) && g <= |groups| && Dealt(groups, g, labels, perFold, folds)
    ensures Dealt(groups, |groups|, labels, perFold, StratifyFrom(groups, g, labels, perFold, folds, rand, pos).0)
    decreases |groups| - g
  {
    if g < |groups| {
      var d := DealRounds(folds, groups[g].1, rand, pos, Rounds(|groups[g].1|, |labels|, perFold));
      ClassStep(groups, g, labels, perFold, folds, rand, pos);
      StratifyFromFacts(groups, g + 1, labels, perFold, d.folds, rand, d.pos);
    }
  }

  function NoFolds(k: int): (folds: seq<seq<nat>>)
    ensures |folds| == Max0(k) && Flatten(folds) == []
  {
    var empty: seq<seq<nat>> := seq(Max0(k), _ => []);
    EmptyFlatten(empty);
    empty
  }

  /** `round(n / k)`, the instances per fold. */
  function PerFold(n: nat, k: int): int
    requires k != 0
  {
    RoundHalfEven(n as real / k as real)
  }

  /** The number of rounds `stratify(k)` deals for class `g`:
      `round(len(data[yi]) / n * round(n / k))`. */
  function ClassRounds(labels: seq<Value>, k: int, g: nat): int
    requires k != 0 && g < |Partition(labels)|
  {
    PartitionOk(labels);
    Rounds(|Partition(labels)[g].1|, |labels|, PerFold(|labels|, k))
  }

  /** The instance positions `stratify(k)` puts in each fold, given the
      instances' labels. */
  function StratifyIndices(labels: seq<Value>, k: int, rand: Source, pos: nat): (folds: seq<seq<nat>>)
    requires k != 0
    ensures |folds| == Max0(k)
    ensures Below(folds, |labels|)
  {
    var groups := Partition(labels);
    var perFold := PerFold(|labels|, k);
    PartitionOk(labels);
    StratifyFromFacts(groups, 0, labels, perFold, NoFolds(k), rand, pos);
    StratifyFrom(groups, 0, labels, perFold, NoFolds(k), rand, pos).0
  }

  /** The invariant of the class loop holds at the end. */
  lemma StratifyDealt(labels: seq<Value>, k: int, rand: Source, pos: nat)
    requires k != 0
    ensures GroupsOk(Partition(labels), labels)
    ensures Dealt(Partition(labels), |Partition(labels)|, labels, PerFold(|labels|, k), StratifyIndices(labels, k, rand, pos))
  {
    PartitionOk(labels);
    StratifyFromFacts(Partition(labels), 0, labels, PerFold(|labels|, k), NoFolds(k), rand, pos);
  }

  lemma StratifyBelow(labels: seq<Value>, k: int, rand: Source, pos: nat)
    requires k != 0
    ensures Below(StratifyIndices(labels, k, rand, pos), |labels|)
    ensures NoDup(Flatten(StratifyIndices(labels, k, rand, pos)))
  {
    StratifyDealt(labels, k, rand, pos);
  }

  lemma DisjointBound(folds: seq<seq<nat>>, n: nat)
    requires Below(folds, n) && NoDup(Flatten(folds))
    ensures |Flatten(folds)| <= n
  {
    FlattenBelow(folds, n);
    var flat := Flatten(folds);
    assert forall i :: 0 <= i < |flat| ==> flat[i] in flat;
    NoDupBound(flat, n);
  }

  /** No instance is dealt twice: the folds are disjoint, hold instance
      positions only, and so hold at most `n` instances together. */
  lemma StratifyDisjoint(labels: seq<Value>, k: int, rand: Source, pos: nat)
    requires k != 0
    ensures var folds := StratifyIndices(labels, k, rand, pos);
      && Below(folds, |labels|)
      && NoDup(Flatten(folds))
      && |Flatten(folds)| <= |labels|
  {
    StratifyBelow(labels, k, rand, pos);
    DisjointBound(StratifyIndices(labels, k, rand, pos), |labels|);
  }

  lemma PerFoldNonNegative(n: nat, k: int)
    requires k > 0
    ensures PerFold(n, k) >= 0
  {
    assert n as real / k as real >= 0.0;
  }

  lemma RoundsNonNegative(size: nat, n: nat, perFold: int)
    requires n > 0 && perFold >= 0
    ensures Rounds(size, n, perFold) >= 0
  {
    assert (size as real / n as real) * perFold as real >= 0.0;
  }

  /** Every fold holds at most `round(len(data[yi]) / n * round(n / k))`
      instances of class `yi`. */
  lemma StratifyQuota(labels: seq<Value>, k: int, rand: Source, pos: nat)
    requires k != 0
    ensures var folds := StratifyIndices(labels, k, rand, pos);
      forall f, g :: 0 <= f < |folds| && 0 <= g < |Partition(labels)| ==>
        LabelCount(folds[f], labels, Partition(labels)[g].0) <= ClassRounds(labels, k, g)
  {
    var folds := StratifyIndices(labels, k, rand, pos);
    var groups := Partition(labels);
    var perFold := PerFold(|labels|, k);
    StratifyDealt(labels, k, rand, pos);
    if k > 0 {
      PerFoldNonNegative(|labels|, k);
      forall f, g | 0 <= f < |folds| && 0 <= g < |groups|
        ensures LabelCount(folds[f], labels, groups[g].0) <= ClassRounds(labels, k, g)
      {
        QuotaFromDealt(groups, labels, perFold, folds, f, g);
      }
    }
  }

  lemma QuotaFromDealt(groups: seq<(Value, seq<nat>)>, labels: seq<Value>, perFold: int,
                       folds: seq<seq<nat>>, f: nat, g: nat)
    requires GroupsOk(groups, labels) && Dealt(groups, |groups|, labels, perFold, folds)
    requires perFold >= 0 && f < |folds| && g < |groups|
    ensures LabelCount(folds[f], labels, groups[g].0) <= Rounds(|groups[g].1|, |labels|, perFold)
  {
    RoundsNonNegative(|groups[g].1|, |labels|, perFold);
  }

  lemma {:induction false} EmptyFlatten(ss: seq<seq<nat>>)
    requires forall f :: 0 <= f < |ss| ==> ss[f] == []
    ensures Flatten(ss) == []
  {
    if |ss| > 0 {
      EmptyFlatten(ss[1..]);
    }
  }

  lemma FlattenBelow(folds: seq<seq<nat>>, n: nat)
    requires Below(folds, n)
    ensures forall x :: x in Flatten<nat>(folds) ==> x < n
  {
    forall x | x in Flatten<nat>(folds)
      ensures x < n
    {
      InFlatten<nat>(folds, x);
      var f :| 0 <= f < |folds| && x in folds[f];
    }
  }

  /** `stratify(k)`: `k` folds of instances, each class dealt round by
      round into the folds; a fold count of zero divides by zero. */
  function Stratify(h: Handler, k: int, rand: Source, pos: nat): (r: Result<seq<seq<Instance>>>)
    requires Valid(h)
    ensures r.Err? <==> k == 0
    ensures r.Err? ==> r.error == DivisionByZero
    ensures r.Ok? ==> |r.value| == Max0(k)
    ensures r.Ok? ==> forall f :: 0 <= f < |r.value| ==>
      r.value[f] == Pick(AsInstances(h), StratifyIndices(Labels(h), k, rand, pos)[f])
  {
    if k == 0 then Err(DivisionByZero)
    else
      var idx := StratifyIndices(Labels(h), k, rand, pos);
      Ok(seq(|idx|, f requires 0 <= f < |idx| => Pick(AsInstances(h), idx[f])))
  }
}

=== FILE: results.dfy ===
/** Failure-compatible result types shared by every module of the model.
    Each `Error` stands for the Python exception the original code raises
    (or lets escape) at that point. */
module Results {

  datatype Error =
    | EmptyTable             // raw_data.pop(0) on an empty table
    | UnknownClassAttribute  // header.index(class_attr) finds nothing
    | ShortRow               // row[idx_attr] past the end of a data row
    | UnknownAttribute       // attributes().index(attr) finds nothing
    | DivisionByZero         // ZeroDivisionError
    | EmptyRange             // random.randrange / randint on an empty range
    | EmptyMax               // max() of an empty sequence or dict
    | IndexOutOfRange        // IndexError on a tuple or list lookup
    | NotAComparison         // eval of "<number><key>" for a key that is neither empty nor a comparison
    | TypeMismatch           // arithmetic or concatenation mixing numbers and text
    | MissingKey             // KeyError on a counter dictionary
    | NoBranches             // classify reaching a node without branches

  datatype Option<+T> = None | Some(value: T) {
    predicate IsFailure() { None? }

    function PropagateFailure<U>(): Option<U>
      requires None?
    {
      None
    }

    function Extract(): T
      requires Some?
    {
      value
    }
  }

  datatype Result<+T> = Ok(value: T) | Err(error: Error) {
    predicate IsFailure() { Err? }

    function PropagateFailure<U>(): Result<U>
      requires Err?
    {
      Err(error)
    }

    function Extract(): T
      requires Ok?
    {
      value
    }
  }

  /** The values of a list of results in order, or the first error among
      them. */
  function Collect<T>(rs: seq<Result<T>>): (r: Result<seq<T>>)
    ensures r.Ok? ==> |r.value| == |rs| && forall t :: 0 <= t < |rs| ==> rs[t] == Ok(r.value[t])
    ensures r.Err? ==> exists t :: 0 <= t < |rs| && rs[t] == Err(r.error) && forall u :: 0 <= u < t ==> rs[u].Ok?
  {
    if |rs| == 0 then Ok([])
    else if rs[0].Err? then Err(rs[0].error)
    else
      var rest := Collect(rs[1..]);
      if rest.Err? then
        ghost var t :| 0 <= t < |rs| - 1 && rs[1..][t] == Err(rest.error) && forall u :: 0 <= u < t ==> rs[1..][u].Ok?;
        assert rs[t + 1] == Err(rest.error);
        assert forall u :: 1 <= u < t + 1 ==> rs[u] == rs[1..][u - 1];
        Err(rest.error)
      else
        assert forall t :: 0 < t < |rs| ==> rs[t] == rs[1..][t - 1];
        Ok([rs[0].value] + rest.value)
  }

  /** The values are collected exactly when no result is an error. */
  lemma {:induction false} CollectOk<T>(rs: seq<Result<T>>)
    ensures Collect(rs).Ok? <==> forall t :: 0 <= t < |rs| ==> rs[t].Ok?
  {
    if |rs| > 0 {
      CollectOk(rs[1..]);
      assert forall t :: 0 < t < |rs| ==> rs[t] == rs[1..][t - 1];
    }
  }
}

=== FILE: seqs.dfy ===
/** Sequence operations the original code performs with Python list and
    dict idioms: `list.index`, `list.remove`, first-appearance de-duplication,
    "first maximum" selection and concatenation of lists of lists. */
module Seqs {

  /** Python's `list.index`: the position of the first occurrence of `x`. */
  function IndexOf<T(==)>(s: seq<T>, x: T): (k: nat)
    requires x in s
    ensures k < |s| && s[k] == x
    ensures forall i :: 0 <= i < k ==> s[i] != x
  {
    if s[0] == x then 0 else 1 + IndexOf(s[1..], x)
  }

  /** Python's `list.remove`: drops the first occurrence of `x` and keeps
      the order of everything else. */
  function RemoveFirst<T(==)>(s: seq<T>, x: T): (r: seq<T>)
    requires x in s
    ensures |r| == |s| - 1
    ensures s == r[..IndexOf(s, x)] + [x] + r[IndexOf(s, x)..]
    ensures multiset(r) + multiset{x} == multiset(s)
    ensures forall y :: y in r ==> y in s
  {
    var k := IndexOf(s, x);
    assert s == s[..k] + [x] + s[k + 1..];
    s[..k] + s[k + 1..]
  }

  predicate NoDup<T(==)>(s: seq<T>) {
    forall i, j :: 0 <= i < j < |s| ==> s[i] != s[j]
  }

  predicate Increasing(s: seq<nat>) {
    forall i, j :: 0 <= i < j < |s| ==> s[i] < s[j]
  }

  /** The distinct elements of `s` in order of first appearance: what a list
      grows to when each element is appended unless already present, and
      equally the key order of a dict filled by one scan over `s`. */
  function Distinct<T(==,!new)>(s: seq<T>): (d: seq<T>)
    ensures forall x :: x in d <==> x in s
    ensures NoDup(d)
    ensures |d| <= |s|
  {
    if |s| == 0 then []
    else
      var d := Distinct(s[..|s| - 1]);
      assert s == s[..|s| - 1] + [s[|s| - 1]];
      if s[|s| - 1] in d then d else d + [s[|s| - 1]]
  }

  /** The ascending positions of `x` in `s`. */
  function IndicesOf<T(==)>(s: seq<T>, x: T): (r: seq<nat>)
    ensures forall k :: 0 <= k < |r| ==> r[k] < |s| && s[r[k]] == x
    ensures forall i {:trigger i in r} :: 0 <= i < |s| && s[i] == x ==> i in r
    ensures Increasing(r)
    ensures |r| == multiset(s)[x]
  {
    if |s| == 0 then []
    else
      var r := IndicesOf(s[..|s| - 1], x);
      assert s == s[..|s| - 1] + [s[|s| - 1]];
      if s[|s| - 1] == x then r + [|s| - 1] else r
  }

  /** The first position holding a maximum of `xs` (both
      `xs.index(max(xs))` and `[k for k ... if v == max][0]`). */
  function ArgMaxFirst(xs: seq<real>): (k: nat)
    requires |xs| > 0
    ensures k < |xs|
    ensures forall i :: 0 <= i < |xs| ==> xs[i] <= xs[k]
    ensures forall i :: 0 <= i < k ==> xs[i] < xs[k]
  {
    if |xs| == 1 then 0
    else
      var k := ArgMaxFirst(xs[..|xs| - 1]);
      if xs[|xs| - 1] > xs[k] then |xs| - 1 else k
  }

  /** The number of occurrences of each of `keys` in `s`. */
  function Tally<T(==)>(s: seq<T>, keys: seq<T>): (c: seq<real>)
    ensures |c| == |keys|
    ensures forall g :: 0 <= g < |keys| ==> c[g] == multiset(s)[keys[g]] as real
  {
    seq(|keys|, g requires 0 <= g < |keys| => multiset(s)[keys[g]] as real)
  }

  /** The element occurring most often in `s`, ties going to the one that
      appears first: a tally kept in order of first appearance, read for
      its first maximal entry. */
  function Plurality<T(==,!new)>(s: seq<T>): (w: T)
    requires |s| > 0
    ensures w in s
    ensures forall i :: 0 <= i < |s| ==> multiset(s)[s[i]] <= multiset(s)[w]
    ensures forall i :: 0 <= i < |s| && IndexOf(s, s[i]) < IndexOf(s, w) ==>
      multiset(s)[s[i]] < multiset(s)[w]
  {
    var d := Distinct(s);
    assert s[0] in d;
    var k := ArgMaxFirst(Tally(s, d));
    PluralityFacts(s, k);
    d[k]
  }

  /** Concatenation of a list of lists, in order. */
  function Flatten<T>(ss: seq<seq<T>>): seq<T> {
    if |ss| == 0 then [] else ss[0] + Flatten(ss[1..])
  }

  // ---------------------------------------------------------------------
  // Lemmas

  /** The first occurrence in a prefix is the first occurrence overall. */
  lemma {:induction false} IndexOfPrefix<T>(s: seq<T>, m: nat, x: T)
    requires m <= |s| && x in s[..m]
    ensures x in s && IndexOf(s, x) == IndexOf(s[..m], x)
  {
    if s[0] != x {
      assert s[1..][..m - 1] == s[..m][1..];
      IndexOfPrefix(s[1..], m - 1, x);
    }
  }

  /** Distinct lists its elements in increasing order of first appearance. */
  lemma {:induction false} DistinctInOrder<T(!new)>(s: seq<T>)
    ensures forall i, j :: 0 <= i < j < |Distinct(s)| ==>
      IndexOf(s, Distinct(s)[i]) < IndexOf(s, Distinct(s)[j])
  {
    if |s| > 0 {
      var p := s[..|s| - 1];
      var last := s[|s| - 1];
      var d := Distinct(p);
      DistinctInOrder(p);
      assert p == s[..|s| - 1];
      forall x | x in p
        ensures IndexOf(s, x) == IndexOf(p, x) && IndexOf(p, x) < |p|
      {
        IndexOfPrefix(s, |s| - 1, x);
      }
      if last !in d {
        assert last !in p;
        assert IndexOf(s, last) == |s| - 1;
        assert Distinct(s) == d + [last];
      } else {
        assert Distinct(s) == d;
      }
    }
  }

  lemma {:induction false} FlattenAppend<T>(ss: seq<seq<T>>, t: seq<T>)
    ensures Flatten(ss + [t]) == Flatten(ss) + t
  {
    if |ss| > 0 {
      assert (ss + [t])[1..] == ss[1..] + [t];
      FlattenAppend(ss[1..], t);
    }
  }

  /** Appending `x` to one inner list adds exactly `x` to the flattened multiset. */
  lemma {:induction false} FlattenGrowOne<T>(ss: seq<seq<T>>, f: nat, x: T)
    requires f < |ss|
    ensures multiset(Flatten(ss[f := ss[f] + [x]])) == multiset(Flatten(ss)) + multiset{x}
  {
    var ss' := ss[f := ss[f] + [x]];
    if f == 0 {
      assert ss'[1..] == ss[1..];
    } else {
      assert ss'[1..] == ss[1..][f - 1 := ss[1..][f - 1] + [x]];
      FlattenGrowOne(ss[1..], f - 1, x);
    }
  }

  lemma {:induction false} InFlatten<T>(ss: seq<seq<T>>, x: T)
    ensures x in Flatten(ss) <==> exists i :: 0 <= i < |ss| && x in ss[i]
  {
    if |ss| > 0 {
      InFlatten(ss[1..], x);
      if x in Flatten(ss[1..]) {
        var i :| 0 <= i < |ss[1..]| && x in ss[1..][i];
        assert x in ss[i + 1];
      }
      if exists i :: 0 <= i < |ss| && x in ss[i] {
        var i :| 0 <= i < |ss| && x in ss[i];
        if i > 0 {
          assert x in ss[1..][i - 1];
        }
      }
    }
  }

  /** Without duplicates, every element occurs at most once in the multiset. */
  lemma {:induction false} NoDupCounts<T>(s: seq<T>)
    requires NoDup(s)
    ensures forall x :: multiset(s)[x] <= 1
  {
    if |s| > 0 {
      var p := s[..|s| - 1];
      assert s == p + [s[|s| - 1]];
      assert NoDup(p);
      NoDupCounts(p);
      assert s[|s| - 1] !in p;
    }
  }

  /** Two equal positions make an element occur at least twice. */
  lemma RepeatCounts<T>(s: seq<T>, i: nat, j: nat)
    requires i < j < |s| && s[i] == s[j]
    ensures multiset(s)[s[i]] >= 2
  {
    assert s == s[..j] + [s[j]] + s[j + 1..];
    assert s[i] in s[..j];
  }

  /** Having no duplicates depends only on the multiset of the elements. */
  lemma NoDupSubMultiset<T>(a: seq<T>, b: seq<T>)
    requires NoDup(a) && multiset(b) <= multiset(a)
    ensures NoDup(b)
  {
    NoDupCounts(a);
    forall i, j | 0 <= i < j < |b|
      ensures b[i] != b[j]
    {
      if b[i] == b[j] {
        RepeatCounts(b, i, j);
      }
    }
  }

  /** Removing the largest possible entry `n - 1` from duplicate-free
      numbers below `n` leaves duplicate-free numbers below `n - 1`. */
  lemma RemoveTop(s: seq<nat>, n: nat)
    requires NoDup(s) && n > 0 && n - 1 in s
    requires forall i :: 0 <= i < |s| ==> s[i] < n
    ensures var r := RemoveFirst(s, n - 1);
      NoDup(r) && |r| + 1 == |s| && forall i :: 0 <= i < |r| ==> r[i] < n - 1
  {
    var k := IndexOf(s, n - 1);
    var r := RemoveFirst(s, n - 1);
    assert r == s[..k] + s[k + 1..];
    forall i | 0 <= i < |r|
      ensures r[i] == s[if i < k then i else i + 1]
    {
    }
    forall i | 0 <= i < |r|
      ensures r[i] < n - 1
    {
      var p := if i < k then i else i + 1;
      assert r[i] == s[p] && p != k;
    }
  }

  /** Distinct numbers below `n` are at most `n` many. */
  lemma {:induction false} NoDupBound(s: seq<nat>, n: nat)
    requires NoDup(s) && forall i :: 0 <= i < |s| ==> s[i] < n
    ensures |s| <= n
  {
    if |s| > 0 {
      assert s[0] < n;
      if n - 1 in s {
        RemoveTop(s, n);
        NoDupBound(RemoveFirst(s, n - 1), n - 1);
      } else {
        BelowTop(s, n);
        NoDupBound(s, n - 1);
      }
    }
  }

  lemma BelowTop(s: seq<nat>, n: nat)
    requires n > 0 && n - 1 !in s && forall i :: 0 <= i < |s| ==> s[i] < n
    ensures forall i :: 0 <= i < |s| ==> s[i] < n - 1
  {
    forall i | 0 <= i < |s|
      ensures s[i] < n - 1
    {
      assert s[i] in s;
    }
  }

  /** Two duplicate-free sequences with nothing in common concatenate
      without duplicates. */
  lemma NoDupConcat<T>(a: seq<T>, b: seq<T>)
    requires NoDup(a) && NoDup(b)
    requires forall i :: 0 <= i < |a| ==> a[i] !in b
    ensures NoDup(a + b)
  {
    forall i, j | 0 <= i < j < |a + b|
      ensures (a + b)[i] != (a + b)[j]
    {
      if i < |a| && j >= |a| {
        assert (a + b)[j] == b[j - |a|];
      }
    }
  }

  /** The first maximal entry of the tally over the distinct elements is
      maximal among all elements and beats every earlier one strictly. */
  lemma PluralityFacts<T(!new)>(s: seq<T>, k: nat)
    requires |Distinct(s)| > 0 && k == ArgMaxFirst(Tally(s, Distinct(s)))
    ensures forall i :: 0 <= i < |s| ==> multiset(s)[s[i]] <= multiset(s)[Distinct(s)[k]]
    ensures forall i :: 0 <= i < |s| && IndexOf(s, s[i]) < IndexOf(s, Distinct(s)[k]) ==>
      multiset(s)[s[i]] < multiset(s)[Distinct(s)[k]]
  {
    forall i | 0 <= i < |s|
      ensures multiset(s)[s[i]] <= multiset(s)[Distinct(s)[k]]
      ensures IndexOf(s, s[i]) < IndexOf(s, Distinct(s)[k]) ==> multiset(s)[s[i]] < multiset(s)[Distinct(s)[k]]
    {
      PluralityAt(s, k, i);
    }
  }

  lemma PluralityAt<T(!new)>(s: seq<T>, k: nat, i: nat)
    requires |Distinct(s)| > 0 && k == ArgMaxFirst(Tally(s, Distinct(s))) && i < |s|
    ensures multiset(s)[s[i]] <= multiset(s)[Distinct(s)[k]]
    ensures IndexOf(s, s[i]) < IndexOf(s, Distinct(s)[k]) ==> multiset(s)[s[i]] < multiset(s)[Distinct(s)[k]]
  {
    var d := Distinct(s);
    var c := Tally(s, d);
    assert s[i] in s;
    var g :| 0 <= g < |d| && d[g] == s[i];
    assert c[g] <= c[k];
    if IndexOf(s, s[i]) < IndexOf(s, d[k]) {
      if k < g {
        DistinctOrderAt(s, k, g);
      }
      assert g < k;
      assert c[g] < c[k];
    }
  }

  /** `DistinctInOrder` for one pair of positions. */
  lemma DistinctOrderAt<T(!new)>(s: seq<T>, a: nat, b: nat)
    requires a < b < |Distinct(s)|
    ensures Distinct(s)[a] in s && Distinct(s)[b] in s
    ensures IndexOf(s, Distinct(s)[a]) < IndexOf(s, Distinct(s)[b])
  {
    DistinctInOrder(s);
  }

  lemma IncreasingNoDup(s: seq<nat>)
    requires Increasing(s)
    ensures NoDup(s)
  {
  }

  /** A sequence without duplicates whose entries all equal one value has
      at most one entry. */
  lemma NoDupAllEqual<T>(s: seq<T>, x: T)
    requires NoDup(s) && forall i :: 0 <= i < |s| ==> s[i] == x
    ensures |s| <= 1
  {
    AllEqualCount(s, x);
    NoDupCounts(s);
  }

  lemma {:induction false} AllEqualCount<T>(s: seq<T>, x: T)
    requires forall i :: 0 <= i < |s| ==> s[i] == x
    ensures multiset(s)[x] == |s|
  {
    if |s| > 0 {
      var p := s[..|s| - 1];
      assert s == p + [s[|s| - 1]];
      AllEqualCount(p, x);
    }
  }
}
